=== FILE: README.md ===
# eBird seasons and grid maps — a Dafny model

This project models the batch pipeline that turns monthly eBird sighting
batches for one region into seasonal batches, gridded maps and summary
pages. The model covers:

- season classification (`get_season`, `get_season_year`, the two copies of
  `season_from_month`);
- the completeness gate of `produce_seasons.py`, which parses `Month_Year`
  file names, groups months by (season, season-year) and builds a season once
  all its months are present;
- the four seasonal builders:
  - `seasons_data.build_season` builds once;
  - `fetch_data_initial.build_seasonal` skips existing artifacts;
  - `update2025_seasonmonthly.build_seasonal` always overwrites;
  - `fetch_data.combine_season` always overwrites and reads every month from the same year;
- `fetch_month`'s row tagging and file naming, and the rename-then-skip loop of
  `fetch_data_initial.run_monthly`;
- `generate_map` up to the HTML: mode and path selection, the coordinate-column
  check, the inner `within` join, per-cell counts and top-5 lists, and the left
  merge onto every cell;
- the monthly and seasonal summary pages: totals, species richness, the top-3
  table and the species/image entries, in place of the HTML.

Modelling choices:

- **File store.** A `Files.FileSystem` object holds a map from path to table;
  whether a file exists is map membership. The builders are methods that change
  that map. Each is proved equal to a pure function of the old store, and the
  lemmas about that function state what the source promises.
- **Read-only operations** (maps, summaries, grouping) take a snapshot of the map.
- **Parameters in place of I/O:**
  - a `glob` listing is a sequence of file stems;
  - the HTTP response is a table, or `responses(year, month)` for a whole run;
  - the grid files are a map from file name to cells;
  - the asset folder is a set of file names;
  - the geometry test `within` is an uninterpreted function.
- **`int()`** strips ASCII whitespace around the number and accepts an
  optional sign and ASCII digits with single underscores between them.
- **Python exceptions** are the error side of a `Result`
  (`ValueError`, `KeyError`, `AttributeError`, and `GridReadError`, which
  stands for whatever error the geometry reader raises on a missing grid file).
  A run that raises stops with the store as it was at that point.
- **`value_counts` order.** The ranking breaks ties by first appearance.
  What is proved: counts do not increase down the list; the list is full
  unless it holds every distinct value; and no value left out is more
  frequent than a value kept. pandas' own tie order is not modelled.
- **Empty join.** When no point falls in any cell, `generate_map` raises:
  the merged grid then has no `observations` column, so `grid.get("observations", 0)` is the
  integer 0 and `.fillna` fails. The model treats this as an error outcome.

`update2025_seasonmonthly.py` and `fetch_data_initial.py` have the same
`season_from_month`, the same key computation and the same collection loop.
These are modelled once, in `SeasonalBatches`. Each script's table, write loop
and outputs mode are modelled in its own module (`Update2025`,
`FetchInitial`).

## Model

| member | source | states |
|---|---|---|
| Text.ParseDecimalString | seasons_data.py:41-43 | `int()` reads back any year written by an f-string: parsing the decimal text of `n` gives `n` |
| Text.ParseIntAccepts | seasons_data.py:43 | `int()` reads `2025`, `2025 ` (surrounding whitespace), `2_025` (an underscore between digits) and `-2025` |
| Text.ParseIntRejects | seasons_data.py:43 | `int()` raises on doubled, leading or trailing underscores, on inner whitespace and on empty text |
| Text.LeadingSpaceIgnored | seasons_data.py:43 | whitespace in front of the text does not change what `int()` reads |
| Text.TrailingSpaceIgnored | seasons_data.py:43 | whitespace after the text does not change what `int()` reads |
| Text.DigitsAreGroups | seasons_data.py:43 | a plain digit string is accepted by `int()` with its ordinary decimal value |
| Text.GroupsStartWithDigit | seasons_data.py:43 | a digit part `int()` accepts begins with a digit, never with `_` |
| Text.DigitsRoundTrip | seasons_data.py:43 | the digits of a natural number read back as that number |
| Text.JoinSplit | seasons_data.py:41 | splitting on a separator and joining back gives the original text |
| Text.SplitJoin | seasons_data.py:41 | joining separator-free parts and splitting again gives the same parts, so `split("_")` of a `Month_Year` name has exactly two parts |
| Text.ParseMonthName | seasons_data.py:42 | `strptime(..., "%B")`: gives a month exactly when the text is that month's full English name, ignoring ASCII case (strptime looks the text's `lower()` up among the lower-case names), and fails iff no month name matches |
| Text.LongSRejected | seasons_data.py:42 | "August" spelled with a long s, which Unicode case-insensitive matching equates with `s`, does not parse, since its `lower()` is not `august` |
| Text.TurkishIRejected | seasons_data.py:42 | "April" spelled with a dotless i or a dotted capital I does not parse, for the same reason |
| Text.ParseMonthNameRoundTrip | seasons_data.py:42 | every full month name parses back to its own number |
| Text.MonthNamesDistinct | seasons_data.py:42 | no two month names are equal ignoring case, so a parsed month is unambiguous |
| Tables.Concat | seasons_data.py:54 | `pd.concat`: the row count is the sum of the batches' row counts, every batch's columns are kept, and conforming batches give a conforming frame |
| Tables.AllRows | seasons_data.py:54 | the concatenation has as many rows as the batches together, and a row is in it iff it is in some batch |
| Tables.AllRowsPlacement | seasons_data.py:54 | each batch's rows appear in the concatenation once, as one block in their own order, right after the rows of the batches before it |
| Tables.AllRowsAppend | seasons_data.py:54 | concatenation distributes over appending batches, so row order is batch order, then row order within a batch |
| Tables.TotalRowsAppend | seasons_data.py:54 | row counts add up over appended batch lists |
| Tables.Present | generate_map.py:81 | `dropna`: the values kept are exactly the non-missing ones |
| Tables.Distinct | generate_map.py:82 | the distinct values of a column, each once, and exactly those present |
| Tables.RankByFrequency | generate_map.py:82 | `value_counts` order: non-increasing frequency, and a permutation of its input |
| Tables.InsertByFrequencyPermutes | generate_map.py:82 | inserting into the ranking adds exactly the inserted value |
| Tables.InsertByFrequencyRanks | generate_map.py:82 | inserting into a ranked list keeps it ranked by frequency |
| Tables.TopIsTop | generate_map.py:79-84 | `value_counts().head(n)`: at most n distinct values, all from the input, by non-increasing frequency; shorter than n only when it holds every distinct value; a value left out is no more frequent than any value kept |
| Tables.TopLeftOut | generate_map.py:82-83 | a value cut off by `head(n)` means the list is full and every kept value is at least as frequent |
| Tables.DistinctPresent | generate_summary.py:16 | `nunique()`: the number of distinct non-missing values |
| Grouping.Keys | produce_seasons.py:50-60 | the dict's keys in first-insertion order, without repeats, exactly the keys that occur |
| Grouping.Members | produce_seasons.py:57-60 | a key's list is non-empty iff the key occurs, and every member comes from a pair with that key |
| Grouping.MemberFrom | produce_seasons.py:60 | every value in a key's list was appended under that key |
| Grouping.MemberOf | produce_seasons.py:57-60 | the value of every pair is in its key's list |
| Grouping.Groups | produce_seasons.py:50-60 | the dict has exactly the keys that occur |
| Grouping.GroupsAppend | produce_seasons.py:57-60 | one more pair appends its value to its key's list and puts a new key last |
| Grouping.InsertStep | produce_seasons.py:57-60 | the loop's "create if missing, then append" step builds the same keys and dict as grouping the longer list |
| Grouping.KeysPartition | produce_seasons.py:50-60 | the group sizes add up to the number of pairs: every pair is in exactly one group |
| Files.FileSystem.Write | seasons_data.py:55 | writing a path replaces that path and nothing else |
| Files.FileSystem.Rename | fetch_data_initial.py:57 | the store after a rename is `Renamed` of the old store |
| Files.Renamed | fetch_data_initial.py:57 | after `rename` the target holds the source's table, the source is gone, and every other path is unchanged |
| Files.DirectoriesDisjoint | seasons_data.py:6-7 | paths under `months/`, `new seasons/` and `seasons/` never collide |
| Files.PathsInjective | seasons_data.py:28-29 | different stems give different paths in each directory |
| SeasonsData.SeasonsPartitionYear | seasons_data.py:11-17 | `get_season` gives Summer for 3–5, Monsoon for 6–9 and Winter otherwise; the three sets have 3, 4 and 5 months, and every calendar month is in its own season |
| SeasonsData.SeasonKeyMatchesCalendar | seasons_data.py:11-23 | (`get_season`, `get_season_year`) of a calendar month is (s, y) iff that month lies in season s of season-year y; January and February count toward the previous year's winter |
| SeasonsData.NameInjective | seasons_data.py:28 | different seasons have different names |
| SeasonsData.PreviousMonthIsOneEarlier | seasons_data.py:66-67 | `month - 1 or 12` with the year rollover is exactly one month earlier |
| SeasonsData.ParseStem | seasons_data.py:40-43 | a parsed file name yields a month between 1 and 12; the year part is read as `int()` reads it |
| SeasonsData.ParseStemLooseYear | seasons_data.py:40-43 | `March_2025 ` parses to (3, 2025), since `int()` strips the space; `March_2_025` splits into three parts and raises |
| SeasonsData.ParseStemOfMonthName | seasons_data.py:40-43 | parsing `{MonthName}_{year}` gives back (month, year) |
| SeasonsData.SelectStemsStep | seasons_data.py:39-48 | one more listed file extends the selection exactly when it is in the season |
| SeasonsData.SelectStemsStepError | seasons_data.py:41-43 | a file name that does not parse ends the whole build with `ValueError` |
| SeasonsData.SelectStemsErrorPersists | seasons_data.py:39-43 | once a name has failed to parse, later files do not change the outcome |
| SeasonsData.SelectStemsExactly | seasons_data.py:39-48 | selection succeeds iff every listed name parses; the selected files are exactly the listed ones in the season and season-year asked for |
| SeasonsData.SelectStemsSubset | seasons_data.py:39-48 | only listed files are selected |
| SeasonsData.Batches | seasons_data.py:48 | the i-th batch read is the file of the i-th selected stem |
| SeasonsData.BatchesAppend | seasons_data.py:48 | `dfs.append` adds the newly selected file's table at the end |
| SeasonsData.CollectBatches | seasons_data.py:35-48 | the loop fails iff selection fails, with the same error; otherwise it returns the selected files' tables in listing order |
| SeasonsData.CollectOne | seasons_data.py:40-48 | one iteration appends the file's table exactly when the file is in the season |
| SeasonsData.BuildSeason | seasons_data.py:26-57 | the new store and the status are those of `BuildSeasonSpec` on the old store |
| SeasonsData.BuildSeasonFrame | seasons_data.py:31-55 | build-once: the only path that can change is the season's artifact; when the artifact already exists nothing changes |
| SeasonsData.BuildSeasonCreates | seasons_data.py:31-55 | only a created artifact changes the store; "no data" is reported iff the artifact is missing, every name parses and no listed file matches; a new artifact is written only when none existed and at least one file matched, and it is the concatenation of exactly the matching batches, with their row count |
| SeasonsData.SelectStemsDistinct | seasons_data.py:35-48 | a listing without repeats gives a selection without repeats, so no batch is read twice |
| SeasonsData.BuildSeasonFromStore | seasons_data.py:35-55 | with the listing `glob` gives, the artifact holds the batch of every monthly CSV of the key on the store, each once, and no other; nothing is written exactly when the artifact is missing, every name parses and no monthly CSV of the store matches; the listing stays the glob of the new store |
| SeasonsData.BuildSeasonIdempotent | seasons_data.py:31-33 | building twice leaves the same store as building once, and a second build reports "already exists" |
| ProduceSeasons.RequiredIsSeasonSize | produce_seasons.py:14-18 | the required count of each season is the number of its months |
| ProduceSeasons.ParseMonthFile | produce_seasons.py:21-32 | succeeds iff the name parses (the year as `int()` reads it); the month lies in 1–12 and in its season, and the season-year follows the January/February rollover |
| ProduceSeasons.ParseMonthFileRoundTrip | produce_seasons.py:21-32 | `{MonthName}_{year}` parses to (its season, its season-year, its month) |
| ProduceSeasons.ParseMarchExample | produce_seasons.py:21-32 | `March_2025` gives (Summer, 2025, 3) |
| ProduceSeasons.ParseMarchSpaced | produce_seasons.py:25-27 | `March_2025 ` also gives (Summer, 2025, 3), since `int()` strips the space |
| ProduceSeasons.ParseJanuaryExample | produce_seasons.py:21-32 | `January_2026` gives (Winter, 2025, 1) |
| ProduceSeasons.ParseMonthFileRejects | produce_seasons.py:25-26 | a name without exactly two `_` parts, or one whose first part is not a month name, raises `ValueError` |
| ProduceSeasons.KeyedMonths | produce_seasons.py:52-60 | when every file parses, there is one (key, month) pair per file |
| ProduceSeasons.KeyedMonthsStep | produce_seasons.py:52-60 | one more file either ends the scan with its parse error or adds its (key, month) pair |
| ProduceSeasons.KeyedMonthsAt | produce_seasons.py:52-60 | the i-th pair is the parse of the i-th file |
| ProduceSeasons.KeyedMonthsOk | produce_seasons.py:52-53 | the parse of the whole listing succeeds iff every file's name parses |
| ProduceSeasons.AllParseOk | produce_seasons.py:52-53 | when every name parses, no file raises |
| ProduceSeasons.KeyedMonthsErrorPersists | produce_seasons.py:52-53 | the first unparsable file decides the error |
| ProduceSeasons.GroupMonths | produce_seasons.py:50-60 | the loop fails iff some file does not parse; otherwise its keys and lists are the grouping of the parsed pairs |
| ProduceSeasons.GroupOne | produce_seasons.py:52-60 | one iteration extends the grouping by the file's (key, month), or ends the loop with the error of the whole listing |
| ProduceSeasons.GroupsPartitionFiles | produce_seasons.py:50-60 | every file lands in exactly one group: the group sizes add up to the number of files |
| ProduceSeasons.GroupMonthsBelong | produce_seasons.py:53-60 | every month in a group belongs to the group's season and comes from a listed file whose season-year is the group's |
| ProduceSeasons.GroupsFromStore | produce_seasons.py:43-60 | with the listing `glob` gives, the grouping succeeds iff every monthly CSV's name parses, and a month is under a key iff some monthly CSV on the store parses to that key and month |
| ProduceSeasons.GlobbedKept | produce_seasons.py:74 | a run only adds seasonal artifacts, so the listing `build_season` globs again is the one `main` started from |
| ProduceSeasons.ReadyMeansComplete | produce_seasons.py:65-68 | the distinct months of a group never exceed the requirement, and "ready" holds iff every month of the season is present |
| ProduceSeasons.ReadyExamples | produce_seasons.py:65-68 | March, May and April make Summer ready; a repeated month does not |
| ProduceSeasons.StepFacts | produce_seasons.py:63-86 | one key only adds files, and only its own artifact; a key that is not ready changes nothing and reports; a successful step reports that key |
| ProduceSeasons.StepShape | produce_seasons.py:63-86 | a key that is not ready gives a (present/required) report and no write; a ready key's store is `build_season`'s, and it reports the full season |
| ProduceSeasons.RunKeysFacts | produce_seasons.py:63-86 | the loop over keys only adds files, and a completed loop reports every key once, in key order |
| ProduceSeasons.MainSpecFacts | produce_seasons.py:35-88 | a missing directory or an empty listing returns before any build; a name that does not parse raises before any build; otherwise one report per (season, season-year) key in first-seen order, and no file is removed or altered |
| ProduceSeasons.ProcessKey | produce_seasons.py:65-86 | the store and reports after one key are those of `Step` |
| ProduceSeasons.ProcessKeys | produce_seasons.py:63-86 | the store and reports after the key loop are those of `RunKeys` |
| ProduceSeasons.RunPipeline | produce_seasons.py:35-88 | the store and reports after `main` are those of `MainSpec` |
| GridMap.SelectPaths | generate_map.py:10-21 | only "monthly" and "seasonal" are accepted; any other mode raises `ValueError` |
| GridMap.PathsByMode | generate_map.py:10-21 | "monthly" reads `months/` with `grid_big.geojson`; "seasonal" reads `seasons/`, not `new seasons/`, with `grid.geojson`; "newseason" raises |
| GridMap.Prepare | generate_map.py:29-56 | fails with `ValueError` iff a non-empty frame lacks `longitude` or `latitude`; otherwise it keeps the rows, has both coordinate columns, has no join-index columns and keeps every other column |
| GridMap.Containing | generate_map.py:59-67 | a point is paired with exactly the cells it is `within`, and with none when it is within no cell |
| GridMap.Join | generate_map.py:59-69 | inner join: exactly the (cell id, point) pairs where the point is within that cell |
| GridMap.JoinConservation | generate_map.py:59-67 | when each point is within at most one cell, joined points plus unassigned points add up to all points |
| GridMap.JoinedIdsAreCellIds | generate_map.py:59-67 | every joined id is the id of a grid cell |
| GridMap.TopOf | generate_map.py:79-98 | a top list has at most 5 distinct names of the group's own points, by non-increasing frequency; it has 5 unless the group has fewer distinct names, and no name left out is more frequent than one kept; it is empty when its column is absent |
| GridMap.Summaries | generate_map.py:75-106 | one summary per group |
| GridMap.Summarize | generate_map.py:73-106 | the group loop raises `KeyError` when points joined but there is no `commonName` column; otherwise it returns one summary per group in group order |
| GridMap.Lookup | generate_map.py:111 | a found summary is one of the list with the id asked for; none is found only when no summary has that id |
| GridMap.LookupFirst | generate_map.py:111 | the merge takes the first summary with an id |
| GridMap.LookupSummaries | generate_map.py:108-111 | a cell's summary is its group's summary when points joined it, and none otherwise |
| GridMap.Merge | generate_map.py:108-113 | the left merge keeps every grid cell, in grid order |
| GridMap.AggregateErrors | generate_map.py:59-113 | aggregation fails iff no point joined (`AttributeError` from `fillna`) or points joined without a `commonName` column; an empty frame always fails |
| GridMap.BlankMapIntended | generate_map.py:29-33 | the blank map the empty-frame branch announces: with no joined point every cell is kept with count 0 and no lists; it fails only when points joined without a `commonName` column, equals the map as written otherwise, and always has the per-cell facts |
| GridMap.TopOfFacts | generate_map.py:79-105 | each of the three stored lists (species, habitat, migratory) is bounded by five, without repeats, ranked by frequency, drawn from the group's values of its column, as long as the number of distinct values up to five, and no left-out value is more frequent than a kept one; an absent habitat or migratory column gives an empty list |
| GridMap.MergeCellFacts | generate_map.py:108-113 | a merged cell carries its own count, and its three lists have the top-five facts above over its own group; a cell no point fell in has count 0 and no lists |
| GridMap.AggregateCells | generate_map.py:75-113 | when the merge succeeds, every cell is kept; its count is the number of joined points with its id; an empty cell has 0 and no lists; each of the three lists is its column's top five over the cell's points, or all of its values when there are fewer |
| GridMap.Ids | generate_map.py:108-111 | the id list of the grid, in order |
| GridMap.TotalIsSumSizes | generate_map.py:77 | the counts of all cells add up to the sizes of their groups |
| GridMap.AggregateConservation | generate_map.py:75-113 | when the merge succeeds and cell ids are distinct, the counts add up to the number of joined points; when each point is within at most one cell, they add up to all points minus the unassigned ones |
| GridMap.MapOutcomes | generate_map.py:8-113 | a bad mode raises `ValueError` whatever the store holds; a missing CSV skips the map; a non-empty frame without coordinates raises `ValueError`; an empty frame fails at the merge; a produced map has one row per grid cell |
| GridMap.GenerateMap | generate_map.py:8-113 | the outcome of the step-by-step procedure is `MapResult` |
| SummaryParts.Counted | generate_summary.py:21-22 | the (Name, Count) table: each name with its count, in order |
| SummaryParts.CountedTop | generate_summary.py:18-23 | counting the top names gives a top table of the column |
| SummaryParts.Top3 | generate_summary.py:18-23 | at most 3 rows; empty when the column is absent; otherwise distinct non-missing names by non-increasing count, where a name left out is no more frequent than any name kept |
| SummaryParts.Richness | generate_summary.py:16 | raises `KeyError` iff there is no `scientificName` column; otherwise the number of distinct non-missing scientific names |
| SummaryParts.StatsOf | generate_summary.py:15-25 | the total is the row count and the top table is `top3("commonName")`; it fails iff `scientificName` is missing |
| SummaryParts.FirstImageIsFirst | generate_summary_seasonal.py:62-70 | the picture chosen is the first of jpg, png, jpeg whose file exists, and the placeholder only when none does |
| SummaryParts.AssetNamesDistinct | generate_summary_seasonal.py:63-64 | a species' three candidate file names are distinct |
| SummaryParts.FindImage | generate_summary_seasonal.py:62-70 | the loop with `found` and `break` picks `FirstImage` |
| SummaryParts.Emit | generate_summary_seasonal.py:57-72 | each top species is emitted exactly once, in top-3 order, with its first existing picture |
| MonthSummary.HitFrom | generate_summary.py:59-63 | the first extension from position k on whose file exists lies between k and 3 |
| MonthSummary.FirstHitMeansFirstImage | generate_summary.py:58-63 | the number of extensions tried before the break is 3 exactly when no picture exists; otherwise it points at the picture `FirstImage` picks |
| MonthSummary.EmitAsWritten | generate_summary.py:53-67 | the nested loop as written emits `EmittedAsWritten` |
| MonthSummary.AsWrittenEntries | generate_summary.py:58-67 | as written, every emitted entry carries the placeholder and names a top species, there are at most 3 entries per row, and a species named once in the top table appears exactly as many times as extensions were tried before its first asset, so at most 3 times |
| MonthSummary.AsWrittenCount | generate_summary.py:58-67 | as written, the entries naming a species number the extensions tried before its first asset (0 with a `.jpg`, 1 with a `.png`, 2 with a `.jpeg`, 3 with none) times the rows naming it |
| MonthSummary.AsWrittenDropsJpg | generate_summary.py:58-67 | with only `House Crow.jpg` present the loop emits nothing, while the intended loop emits the picture |
| MonthSummary.AsWrittenTriplesMissing | generate_summary.py:58-67 | with no picture present the loop emits the placeholder three times, while the intended loop emits it once |
| MonthSummary.GenerateSummary | generate_summary.py:5-76 | `generate_summary` as written is `MonthlySummaryAsWritten` |
| MonthSummary.MonthlySummaryFacts | generate_summary.py:5-76 | skipped iff the CSV is missing; `KeyError` iff there is no `scientificName` column; otherwise the row count (an empty batch is not skipped), the richness, at most 3 top species, and (as intended) one entry per top species in order with its first existing picture, written to `month summary/` |
| MonthSummary.AsWrittenSameFigures | generate_summary.py:5-76 | the page as written skips, fails and succeeds exactly as the intended one, with the same path and figures; only its entries differ, being the mis-indented loop's |
| SeasonSummary.GenerateSeasonalSummary | generate_summary_seasonal.py:5-81 | the outcome of the step-by-step procedure is `SeasonalSummary` |
| SeasonSummary.SeasonalSummaryFacts | generate_summary_seasonal.py:5-81 | skipped iff the CSV is missing or empty; `KeyError` iff a non-empty batch has no `scientificName`; otherwise a positive total, the richness, at most 3 top species and each emitted once in order with its first existing picture |
| SeasonSummary.SummaryPathsDisjoint | generate_summary_seasonal.py:77-81 | seasonal pages never overwrite monthly pages |
| SeasonalBatches.SeasonFromMonth | update2025_seasonmonthly.py:64-70 | `season_from_month` agrees with `get_season` on every month (the copy at fetch_data_initial.py lines 78-84 is the same text) |
| SeasonalBatches.SeasonKeyAgrees | update2025_seasonmonthly.py:82-90 | the key is `"{season} {season_year}"` of `get_season` and `get_season_year` (as at fetch_data_initial.py lines 96-104) |
| SeasonalBatches.SeasonKeyOfInjective | update2025_seasonmonthly.py:90 | two keys are equal iff their seasons and season-years are |
| SeasonalBatches.KeySplits | update2025_seasonmonthly.py:90 | a key splits on its space into exactly the season name and the year |
| SeasonalBatches.SameKeySameSeason | update2025_seasonmonthly.py:82-90 | two calendar months share a key iff they share season and season-year |
| SeasonalBatches.YearPairs | update2025_seasonmonthly.py:79 | the inner loop visits (year, m) for each listed month, in order |
| SeasonalBatches.VisitsAppend | update2025_seasonmonthly.py:77-79 | the visits of a concatenated table are the concatenated visits |
| SeasonalBatches.VisitsOfTable | update2025_seasonmonthly.py:77-79 | the nested loops visit exactly the (year, month) entries of `YEAR_MONTHS` |
| SeasonalBatches.KeyedBatchesSound | update2025_seasonmonthly.py:92-102 | every collected batch comes from a visited month whose file exists, under that month's key |
| SeasonalBatches.KeyedBatchesComplete | update2025_seasonmonthly.py:92-102 | every visited month whose file exists has its batch collected under its key |
| SeasonalBatches.KeyedBatchesMembers | update2025_seasonmonthly.py:92-102 | a batch is collected under a key iff a visited month with that key has it on file; months without a file are skipped |
| SeasonalBatches.KeysOfBatches | update2025_seasonmonthly.py:92-102 | a key exists iff some visited month with that key has its file |
| SeasonalBatches.KeyedBatchesStep | update2025_seasonmonthly.py:92-102 | one more month appends its batch under its key when its file exists, and nothing otherwise |
| SeasonalBatches.CollectYear | update2025_seasonmonthly.py:79-102 | the inner loop extends the dict of lists exactly as grouping the visited months' batches |
| SeasonalBatches.CollectSeasonal | update2025_seasonmonthly.py:75-102 | the nested loops build `Collect`: keys in first-seen order, each with its batches in year-then-month order |
| SeasonalBatches.CollectedNonEmpty | update2025_seasonmonthly.py:99-102 | every key has at least one batch, so `pd.concat` never gets an empty list |
| SeasonalBatches.RunSeasonalOutputs | update2025_seasonmonthly.py:122-136 | the loop's outcome is `SeasonalOutputs` |
| SeasonalBatches.OutputsErrorPersists | update2025_seasonmonthly.py:126-136 | the first failing stem ends the loop |
| SeasonalBatches.SeasonalOutputsFacts | update2025_seasonmonthly.py:122-136 | a completed loop has one entry per stem, with that stem's map and seasonal summary |
| Update2025.TableIsCalendar | update2025_seasonmonthly.py:26-32 | every month in `YEAR_MONTHS` lies in 1–12 |
| Update2025.TableVisits | update2025_seasonmonthly.py:26-32 | the visited months are exactly January to December 2025 and January 2026 |
| Update2025.TableMonthKey | update2025_seasonmonthly.py:84-90 | January and February 2025 go to Winter 2024, March–May to Summer 2025, June–September to Monsoon 2025, October 2025 to January 2026 to Winter 2025 |
| Update2025.PossibleKeys | update2025_seasonmonthly.py:26-32 | the only keys that can arise are Winter 2024, Summer 2025, Monsoon 2025 and Winter 2025 |
| Update2025.Winter2025Months | update2025_seasonmonthly.py:84-102 | Winter 2025 is built iff a batch of October, November or December 2025 or January 2026 exists |
| Update2025.Winter2025Needs | update2025_seasonmonthly.py:84-102 | a Winter 2025 key needs one of its four months on file |
| Update2025.WinterKeyBatch | update2025_seasonmonthly.py:84-102 | a visited month on file keyed Winter 2025 is one of its four months |
| Update2025.WinterKeyMonth | update2025_seasonmonthly.py:84-90 | of the visited months, only October–December 2025 and January 2026 are keyed Winter 2025 |
| Update2025.WinterMonthCollected | update2025_seasonmonthly.py:92-102 | a Winter 2025 month on file creates the Winter 2025 key |
| Update2025.WriteSeasons | update2025_seasonmonthly.py:108-113 | the write loop leaves `Overwritten` of the old store |
| Update2025.OverwrittenKeys | update2025_seasonmonthly.py:108-113 | every key's artifact is the concatenation of its batches, even when it existed before |
| Update2025.OverwrittenFrame | update2025_seasonmonthly.py:108-113 | a path that is no key's artifact is untouched |
| Update2025.OverwrittenFacts | update2025_seasonmonthly.py:108-113 | the write loop always overwrites, and changes nothing else |
| Update2025.BuildSeasonal | update2025_seasonmonthly.py:73-115 | the store after `build_seasonal` is `BuildSeasonalSpec` of the old store |
| Update2025.BuildSeasonalFacts | update2025_seasonmonthly.py:73-115 | each key's artifact holds exactly the rows of its batches, in visiting order; keys are exactly the keys of visited months on file; nothing else changes |
| Update2025.NewseasonModeFails | update2025_seasonmonthly.py:133 | `run_seasonal_outputs` raises `ValueError` on its first stem, because `generate_map` rejects mode "newseason" |
| FetchData.Tagged | fetch_data.py:56-58 | the tagged frame has the month and year columns, the same number of rows, every row carrying the given month and year and otherwise unchanged |
| FetchData.TaggedConforms | fetch_data.py:56-58 | tagging keeps a frame consistent with its columns |
| FetchData.FetchMonth | fetch_data.py:41-64 | an empty response returns `None` and writes nothing; otherwise it writes the tagged frame to `months/{year}_{month}.csv` and returns it |
| FetchData.FetchedFacts | fetch_data.py:52-61 | only `months/{year}_{month}.csv` can change; a non-empty response lands there with every row tagged |
| FetchData.RawNameRejected | fetch_data.py:60 | a `{year}_{month}` name is not a `Month_Year` name: `build_season` and `parse_month_file` reject it |
| FetchData.FoundBatchesMembers | fetch_data.py:70-73 | a batch is combined iff it is `{year}_{m}.csv` for a listed month `m` and on file; every month uses the same year |
| FetchData.CombineSeason | fetch_data.py:67-79 | the store after `combine_season` is `Combined` of the old store |
| FetchData.CombinedFacts | fetch_data.py:67-79 | no batch means no write; otherwise the artifact is the concatenation of the found batches in list order, whether or not it existed before, and nothing else changes |
| FetchData.WinterCombinesMarch | fetch_data.py:87-92 | the driver files March 2025 under `winter_2025`, although `get_season` calls March Summer and January 2025 belongs to season-year 2024 |
| FetchInitial.TableIsCalendar | fetch_data_initial.py:20-25 | every month of the table lies in 1–12 |
| FetchInitial.TableVisits | fetch_data_initial.py:20-25 | the only month visited is January 2026 |
| FetchInitial.ProcessMonth | fetch_data_initial.py:38-71 | the store and reports after one month are those of `MonthStep`, whose page is the one `generate_summary` writes as written |
| FetchInitial.RunMonthsErrorPersists | fetch_data_initial.py:34-71 | an exception ends the run; later months change nothing |
| FetchInitial.RunMonthsSnoc | fetch_data_initial.py:34-71 | one more month runs on the store the earlier months left and appends its report |
| FetchInitial.AdvanceMonth | fetch_data_initial.py:36-71 | one iteration extends the run by one month |
| FetchInitial.RunYear | fetch_data_initial.py:36-71 | the inner loop extends the run by the year's months in order |
| FetchInitial.RunMonthly | fetch_data_initial.py:32-71 | the store and reports after `run_monthly` are `RunMonths` over the table's months, each month's page being the as-written `generate_summary` page |
| FetchInitial.RawNotRenamed | fetch_data_initial.py:52-57 | the raw name and the `Month_Year` name are different paths |
| FetchInitial.MonthStepFacts | fetch_data_initial.py:44-71 | without a response or a raw file, the month is skipped and the store is unchanged; otherwise the raw file is gone and `Month_Year` holds the tagged response (or the stale raw batch); nothing else changes; the month fails iff its map or summary raises, and otherwise reports both; the page is the as-written one, so none of its entries shows a picture |
| FetchInitial.MonthlyFeedsBuild | fetch_data_initial.py:44-58 | a non-empty January 2026 response ends up, tagged, under `months/January_2026.csv` |
| FetchInitial.WriteNewSeasons | fetch_data_initial.py:122-132 | the write loop leaves `BuiltOnce` of the old store |
| FetchInitial.BuiltOnceKeeps | fetch_data_initial.py:126-129 | an existing file is never changed |
| FetchInitial.BuiltOnceCovers | fetch_data_initial.py:122-132 | every key has an artifact afterwards |
| FetchInitial.BuiltOnceFrame | fetch_data_initial.py:122-132 | a path that is no key's artifact exists afterwards iff it existed before |
| FetchInitial.BuiltOnceNew | fetch_data_initial.py:131-132 | a key whose artifact was absent gets the concatenation of its batches |
| FetchInitial.LastKeyFresh | fetch_data_initial.py:122-124 | distinct keys have distinct artifact paths |
| FetchInitial.BuiltOnceNoop | fetch_data_initial.py:126-129 | when every artifact exists, the write loop changes nothing |
| FetchInitial.BuildSeasonal | fetch_data_initial.py:87-134 | the store after `build_seasonal` is `BuildSeasonalSpec` of the old store |
| FetchInitial.BuildSeasonalFacts | fetch_data_initial.py:87-134 | every key has an artifact; existing files are untouched; a new artifact holds exactly its key's batches in visiting order; no other path appears |
| FetchInitial.KeyedBatchesReadsMonths | fetch_data_initial.py:106-111 | the collection reads only `months/`, so writes under `new seasons/` do not change it |
| FetchInitial.BuildSeasonalIdempotent | fetch_data_initial.py:122-132 | running `build_seasonal` twice leaves the same store as running it once |
| FetchInitial.OnlyWinter2025 | fetch_data_initial.py:91-116 | with the January 2026 table, the only key is Winter 2025, and only when that month's batch exists |
| FetchInitial.JanuaryBatch | fetch_data_initial.py:104-116 | January 2026's batch is collected under `Winter 2025` |
| FetchInitial.SeasonalMapsReadSeasons | fetch_data_initial.py:141-152 | the seasonal maps read `seasons/`, while the summaries read `new seasons/` and exist iff that batch is there and non-empty |

## Left out

- `make_request` and the HTTP part of `fetch_month` are left out: the network, the API key, retries on 429 and the sleeps. The response is a parameter.
- The HTML of maps and pages is left out, including the Leaflet template and colour thresholds. A map is its merged grid; a page is its figures and its list of (species, picture) entries.
- Point-in-polygon tests and CRS reprojection are not modelled: `within` is an uninterpreted parameter, and the grid's own columns other than `grid_id` are not modelled. Non-numeric or missing coordinates are not modelled, because a point is a value the parameter judges.
- `value_counts` tie order: ties are broken by first appearance, not by pandas' own tie order. Which of several equally frequent values makes the cut is therefore not modelled; the counts, the fullness of the list and that no left-out value is more frequent are proved.
- `groupby("grid_id")` order: the model uses first-seen order. pandas sorts the ids, but the merge is by id, so the merged grid does not depend on it.
- Glob order is left out: a listing is any fixed sequence of stems.
- SeasonsData.Listed: most members only assume that listed stems name existing monthly files. That the listing names every monthly CSV once (`SeasonsData.Globbed`) is assumed only by `SeasonsData.BuildSeasonFromStore`, `ProduceSeasons.GroupsFromStore` and `ProduceSeasons.GlobbedKept`, which restate the selection and the grouping in terms of the store.
- Text.ParseInt: non-ASCII decimal digits and non-ASCII whitespace, which Python's `int()` also accepts, are not modelled; such a year makes the model raise `ValueError`.
- `mkdir` is left out, and so are the `print` diagnostics.
- The `__main__` blocks are left out, apart from:
  - the previous-month arithmetic of `seasons_data.py`;
  - the `fetch_data.py` driver's season list (`FetchData.WinterCombinesMarch`);
  - the three bootstrap steps, which are modelled one by one.
- `datetime.utcnow` is left out.
- `update2025_seasonmonthly.py` stops at its import of `fetch_data_initial` (line 20): loading that module raises `ImportError` at its own line 5, which imports `fetch_month` from the half-loaded module itself. None of its functions runs. `run_monthly` is not modelled (it would also need `fetch_month_data`, which no file defines); `build_seasonal` and `run_seasonal_outputs` are modelled as written (`Update2025`), as if the import succeeded.
- `fetch_data_initial.py` imports `fetch_month` from itself, which fails at load time. Its `run_monthly` is modelled with the `fetch_month` of `fetch_data.py`, which has the call's signature.
- The `months/` directory is only a flag for `produce_seasons.py`. Elsewhere a missing directory behaves like one with no files.
- Month numbers outside 1–12 in the year tables are excluded by `CalendarTable`, since both tables hold only calendar months. `calendar.month_name[0]` is therefore not modelled.
- `Files.FileSystem.Rename`: POSIX `rename` replaces an existing target. The model does the same and does not model Windows' refusal.
- Concurrency is not modelled. The pipeline is single-threaded, so the gap between the existence check and the write is not a race here.
- `update_map_template.py` is not part of this model.

## Findings

| source | as written | input that shows it | evidently intended | confidence | as-written member | corrected member |
|---|---|---|---|---|---|---|
| generate_summary.py:58-67 | the `if not found` and `html +=` lines sit inside the extension loop, so each species is emitted once per extension tried before the first hit, always with the placeholder | top species "House Crow" with only `House Crow.jpg` present: nothing is emitted; with no picture: the placeholder is emitted three times | emit each top species once, after the search, with the first existing picture, as `generate_summary_seasonal.py:57-72` does | high (not executed) | MonthSummary.EmitAsWritten | SummaryParts.Emit |
| generate_map.py:29-113 | the empty-frame branch announces a blank map, but an empty join leaves no `observations` column, so `grid.get("observations", 0)` is the integer 0 and `.fillna(0)` raises `AttributeError` | a `months/{period}.csv` with a header and no rows (or points that fall in no cell) | a blank map: every cell with 0 observations and no lists | high (not executed) | GridMap.AggregateErrors | GridMap.BlankMapIntended |

=== FILE: fetch_data.dfy ===
/**
 * `fetch_data.py`: `fetch_month` tags the rows of one response with the
 * month and year asked for and writes them to `months/{year}_{month}.csv`;
 * `combine_season` concatenates the batches of a list of months of one
 * calendar year into `new seasons/{season_name}_{year}.csv`. The HTTP
 * request is a parameter: `response` is the decoded JSON list as a frame.
 */
module FetchData {
  import opened Wrappers
  import opened Text
  import opened Tables
  import opened Files
  import opened SeasonsData

  // ---------------------------------------------------------------------
  // fetch_month
  // ---------------------------------------------------------------------

  /** `months/{year}_{month}.csv`: where `fetch_month` writes. */
  function RawBatchPath(year: int, month: int): string
  {
    MonthlyCsv(DecimalString(year) + "_" + DecimalString(month))
  }

  /**
   * `df["month"] = month; df["year"] = year`: both columns exist afterwards,
   * every row carries the month and year asked for, and nothing else in
   * the rows changes.
   */
  function Tagged(df: Table, month: int, year: int): (t: Table)
    ensures t.columns == df.columns + {MonthColumn, YearColumn}
    ensures |t.rows| == |df.rows|
    ensures forall i :: 0 <= i < |t.rows| ==>
              && t.rows[i].month == Some(month) && t.rows[i].year == Some(year)
              && t.rows[i].(month := df.rows[i].month, year := df.rows[i].year) == df.rows[i]
  {
    var rows := seq(|df.rows|, i requires 0 <= i < |df.rows| => df.rows[i].(month := Some(month), year := Some(year)));
    Table(df.columns + {MonthColumn, YearColumn}, rows)
  }

  /** A batch that conforms to its columns still does once tagged. */
  lemma TaggedConforms(df: Table, month: int, year: int)
    requires Conforms(df)
    ensures Conforms(Tagged(df, month, year))
  {
    var t := Tagged(df, month, year);
    forall r, f: Field | r in t.rows && f.Get(r).Some? ensures f.Column() in t.columns {
      var i :| 0 <= i < |t.rows| && t.rows[i] == r;
      assert f.Get(r) == f.Get(df.rows[i]) && df.rows[i] in df.rows;
    }
  }

  /** The store `fetch_month` leaves: unchanged for an empty response, else the tagged batch written. */
  function Fetched(files: map<string, Table>, response: Table, month: int, year: int): map<string, Table>
  {
    if response.rows == [] then files
    else files[RawBatchPath(year, month) := Tagged(response, month, year)]
  }

  /**
   * `fetch_month(lat, lng, radius_km, month, year)` once the request has
   * answered: returns `None` and writes nothing when the response is empty,
   * otherwise writes and returns the tagged frame.
   */
  method FetchMonth(fs: FileSystem, response: Table, month: int, year: int) returns (df: Option<Table>)
    modifies fs
    ensures fs.files == Fetched(old(fs.files), response, month, year)
    ensures df == if response.rows == [] then None else Some(Tagged(response, month, year))
  {
    if response.rows == [] {
      return None;
    }
    var t := Tagged(response, month, year);
    fs.Write(RawBatchPath(year, month), t);
    df := Some(t);
  }

  /**
   * Fetching touches one path only: a non-empty response lands, tagged, at
   * `months/{year}_{month}.csv`, and every other file is left as it was.
   */
  lemma FetchedFacts(files: map<string, Table>, response: Table, month: int, year: int)
    ensures var r := Fetched(files, response, month, year);
      && (response.rows == [] ==> r == files)
      && (response.rows != [] ==>
            && RawBatchPath(year, month) in r
            && |r[RawBatchPath(year, month)].rows| == |response.rows|
            && forall row :: row in r[RawBatchPath(year, month)].rows ==> row.month == Some(month) && row.year == Some(year))
      && forall p :: p != RawBatchPath(year, month) ==> (p in r <==> p in files) && (p in r ==> r[p] == files[p])
  {
    if response.rows != [] {
      var rows := Fetched(files, response, month, year)[RawBatchPath(year, month)].rows;
      forall row | row in rows ensures row.month == Some(month) && row.year == Some(year) {
        var i :| 0 <= i < |rows| && rows[i] == row;
      }
    }
  }

  /**
   * The names `fetch_month` writes are not `Month_Year` names: a raw batch
   * left in `months/` is one `parse_month_file` and `build_season` reject.
   */
  lemma RawNameRejected(year: int, month: int)
    ensures ParseStem(DecimalString(year) + "_" + DecimalString(month)) == None
  {
    var y, m := DecimalString(year), DecimalString(month);
    assert forall i :: 0 <= i < |y| ==> y[i] != '_';
    assert forall i :: 0 <= i < |m| ==> m[i] != '_';
    SplitJoin([y, m], '_');
    assert Text.Join([y, m], '_') == y + "_" + m by {
      assert [y, m][1..] == [m];
    }
    forall k | 1 <= k <= 12 ensures !SameIgnoringCase(y, MonthName(k)) {
      MonthNameLetters(k);
      assert LowerChar(y[0]) != LowerChar(MonthName(k)[0]);
    }
  }

  // ---------------------------------------------------------------------
  // combine_season
  // ---------------------------------------------------------------------

  /** The batches of `months` found in `months/{year}_{m}.csv`, in list order, missing ones skipped. */
  function FoundBatches(files: map<string, Table>, year: int, months: seq<int>): (found: seq<Table>)
    ensures |found| <= |months|
  {
    if months == [] then []
    else
      var n := |months| - 1;
      FoundBatches(files, year, months[..n]) +
        if RawBatchPath(year, months[n]) in files then [files[RawBatchPath(year, months[n])]] else []
  }

  /**
   * Every month of the list is read from the same `year`, with no
   * January/February rollover: a batch is combined exactly when it is
   * `{year}_{m}` for a listed `m` and on file.
   */
  lemma {:induction false} FoundBatchesMembers(files: map<string, Table>, year: int, months: seq<int>, t: Table)
    ensures t in FoundBatches(files, year, months) <==>
              exists i :: 0 <= i < |months| && RawBatchPath(year, months[i]) in files && t == files[RawBatchPath(year, months[i])]
  {
    if months != [] {
      var n := |months| - 1;
      FoundBatchesMembers(files, year, months[..n], t);
      assert forall i :: 0 <= i < n ==> months[..n][i] == months[i];
      if t in FoundBatches(files, year, months) && t !in FoundBatches(files, year, months[..n]) {
        assert RawBatchPath(year, months[n]) in files && t == files[RawBatchPath(year, months[n])];
      }
    }
  }

  /** `new seasons/{season_name}_{year}.csv`. */
  function CombinedPath(seasonName: string, year: int): string
  {
    NewSeasonsCsv(seasonName + "_" + DecimalString(year))
  }

  /** The store `combine_season` leaves. */
  function Combined(files: map<string, Table>, seasonName: string, months: seq<int>, year: int): map<string, Table>
  {
    var found := FoundBatches(files, year, months);
    if found == [] then files
    else files[CombinedPath(seasonName, year) := Concat(found)]
  }

  /**
   * `combine_season(season_name, months_list, year)`: collects the batches
   * that exist, in list order, and writes their concatenation when there is
   * at least one.
   */
  method CombineSeason(fs: FileSystem, seasonName: string, months: seq<int>, year: int)
    modifies fs
    ensures fs.files == Combined(old(fs.files), seasonName, months, year)
  {
    var combined: seq<Table> := [];
    var i := 0;
    while i < |months|
      invariant 0 <= i <= |months|
      invariant fs.files == old(fs.files)
      invariant combined == FoundBatches(fs.files, year, months[..i])
    {
      assert months[..i + 1][..i] == months[..i];
      var filePath := RawBatchPath(year, months[i]);
      if filePath in fs.files {
        combined := combined + [fs.files[filePath]];
      }
      i := i + 1;
    }
    assert months[..i] == months;
    if combined != [] {
      fs.Write(CombinedPath(seasonName, year), Concat(combined));
    }
  }

  /**
   * With no batch on file nothing is written; otherwise the artifact is the
   * concatenation of the found batches whether or not it existed before,
   * and no other file changes.
   */
  lemma CombinedFacts(files: map<string, Table>, seasonName: string, months: seq<int>, year: int)
    ensures var r := Combined(files, seasonName, months, year);
      var found := FoundBatches(files, year, months);
      var out := CombinedPath(seasonName, year);
      && (found == [] ==> r == files)
      && (found != [] ==>
            && out in r && r[out].rows == AllRows(found)
            && |r[out].rows| == TotalRows(found))
      && forall p :: p != out ==> (p in r <==> p in files) && (p in r ==> r[p] == files[p])
  {
  }

  /**
   * The `__main__` block files March under "winter" and takes January and
   * February from the same year: every row of a March 2025 batch lands in
   * `winter_2025`, although `get_season` calls March Summer and January
   * 2025 belongs to season-year 2024.
   */
  lemma WinterCombinesMarch(files: map<string, Table>, row: Row)
    requires RawBatchPath(2025, 3) in files && row in files[RawBatchPath(2025, 3)].rows
    ensures var r := Combined(files, "winter", [1, 2, 3], 2025);
      CombinedPath("winter", 2025) in r && row in r[CombinedPath("winter", 2025)].rows
    ensures GetSeason(3) == Summer && GetSeasonYear(2025, 1) == 2024
  {
    var months := [1, 2, 3];
    var t := files[RawBatchPath(2025, 3)];
    assert RawBatchPath(2025, months[2]) in files && t == files[RawBatchPath(2025, months[2])];
    FoundBatchesMembers(files, 2025, months, t);
  }
}

=== FILE: fetch_data_initial.dfy ===
/**
 * `fetch_data_initial.py`: the bootstrap run for January 2026. `run_monthly`
 * fetches each month of its table, renames the raw batch to the
 * `Month_Year` name the rest of the pipeline reads and draws the monthly
 * map and summary; its `build_seasonal` writes only the season artifacts
 * that do not exist yet; its `run_seasonal_outputs` draws seasonal maps and
 * summaries for whatever `new seasons/` holds.
 *
 * The script imports `fetch_month` from itself; the model uses the
 * `fetch_month` of `fetch_data.py` (`FetchData.FetchMonth`), the one with
 * the signature the call site uses. The response each month's request
 * would get is the parameter `responses(year, month)`.
 */
module FetchInitial {
  import opened Wrappers
  import opened Errors
  import opened Text
  import opened Tables
  import opened Grouping
  import opened Files
  import opened GridMap
  import opened SummaryParts
  import opened MonthSummary
  import opened SeasonSummary
  import opened SeasonsData
  import opened ProduceSeasons
  import opened SeasonalBatches
  import opened FetchData

  /** `YEAR_MONTHS`: January 2026 only (the 2025 line is commented out). */
  const YearMonthsTable: YearMonths := [(2026, [1])]

  /** The mode `run_seasonal_outputs` passes to `generate_map`. */
  const OutputsMode := "seasonal"

  lemma TableIsCalendar()
    ensures CalendarTable(YearMonthsTable)
  {
  }

  /** The table visits one month: January 2026. */
  lemma TableVisits()
    ensures Visits(YearMonthsTable) == [(2026, 1)]
  {
    assert YearMonthsTable[..0] == [];
    assert YearPairs(2026, [1]) == [(2026, 1)];
  }

  // ---------------------------------------------------------------------
  // run_monthly
  // ---------------------------------------------------------------------

  /** What one month of `run_monthly` reports: skipped for want of a CSV, or its map and page. */
  datatype MonthReport =
    | Missing(period: string)
    | Generated(period: string, grid: Option<seq<MapCell>>, summary: Option<Page>)

  /** The store a run leaves, with its reports or the exception that ended it. */
  datatype MonthlyRun = MonthlyRun(files: map<string, Table>, outcome: Result<seq<MonthReport>, PyError>)

  /**
   * One month of `run_monthly`: fetch, rename `months/{year}_{month}.csv`
   * to `months/{Month}_{year}.csv` when it exists, skip the month when it
   * did not, otherwise the monthly map and the monthly page.
   */
  function MonthStep(files: map<string, Table>, env: Env, response: Table, year: int, month: int): MonthlyRun
    requires 1 <= month <= 12
  {
    var fetched := Fetched(files, response, month, year);
    var raw := RawBatchPath(year, month);
    var period := Period(year, month);
    if raw !in fetched then MonthlyRun(fetched, Ok([Missing(period)]))
    else
      var placed := Renamed(fetched, raw, BatchPath(year, month));
      MonthlyRun(placed,
        match MapResult(placed, env.grids, period, "monthly", env.inside)
        case Err(e) => Err(e)
        case Ok(grid) =>
          match MonthlySummaryAsWritten(placed, env.assets, period)
          case Err(e) => Err(e)
          case Ok(page) => Ok([Generated(period, grid, page)]))
  }

  /** The months of `visits` in order; the first exception ends the run, with the store as it then is. */
  function RunMonths(files: map<string, Table>, env: Env, responses: (int, int) -> Table,
                     visits: seq<(int, int)>): MonthlyRun
    requires CalendarPairs(visits)
  {
    if visits == [] then MonthlyRun(files, Ok([]))
    else
      var n := |visits| - 1;
      var prev := RunMonths(files, env, responses, visits[..n]);
      if prev.outcome.Err? then prev
      else
        var (year, month) := visits[n];
        var step := MonthStep(prev.files, env, responses(year, month), year, month);
        if step.outcome.Err? then step
        else MonthlyRun(step.files, Ok(prev.outcome.value + step.outcome.value))
  }

  /** The body of the inner loop of `run_monthly`. */
  method ProcessMonth(fs: FileSystem, env: Env, response: Table, year: int, month: int)
    returns (r: Result<seq<MonthReport>, PyError>)
    requires 1 <= month <= 12
    modifies fs
    ensures MonthlyRun(fs.files, r) == MonthStep(old(fs.files), env, response, year, month)
  {
    var timePeriod := Period(year, month);
    var _ := FetchMonth(fs, response, month, year);
    var csvPath := RawBatchPath(year, month);
    if csvPath in fs.files {
      var renamedPath := MonthlyCsv(timePeriod);
      fs.Rename(csvPath, renamedPath);
      csvPath := renamedPath;
    }
    if csvPath !in fs.files {
      return Ok([Missing(timePeriod)]);
    }
    var grid := GenerateMap(fs.files, env.grids, timePeriod, "monthly", env.inside);
    if grid.Err? {
      return Err(grid.error);
    }
    var page := GenerateSummary(fs.files, env.assets, timePeriod);
    if page.Err? {
      return Err(page.error);
    }
    return Ok([Generated(timePeriod, grid.value, page.value)]);
  }

  lemma YearPairsCalendar(year: int, months: seq<int>)
    requires forall j :: 0 <= j < |months| ==> 1 <= months[j] <= 12
    ensures CalendarPairs(YearPairs(year, months))
  {
  }

  /** Once a run has raised, later months change nothing. */
  lemma {:induction false} RunMonthsErrorPersists(files: map<string, Table>, env: Env, responses: (int, int) -> Table,
                                                  vs: seq<(int, int)>, ws: seq<(int, int)>)
    requires CalendarPairs(vs) && CalendarPairs(ws)
    requires RunMonths(files, env, responses, vs).outcome.Err?
    ensures CalendarPairs(vs + ws)
    ensures RunMonths(files, env, responses, vs + ws) == RunMonths(files, env, responses, vs)
    decreases |ws|
  {
    CalendarPairsAppend(vs, ws);
    if ws == [] {
      assert vs + ws == vs;
    } else {
      var n := |ws| - 1;
      assert CalendarPairs(ws[..n]);
      assert (vs + ws)[..|vs + ws| - 1] == vs + ws[..n];
      RunMonthsErrorPersists(files, env, responses, vs, ws[..n]);
    }
  }

  /** One more month: the run so far, then that month unless the run has already raised. */
  lemma RunMonthsSnoc(files: map<string, Table>, env: Env, responses: (int, int) -> Table,
                      vs: seq<(int, int)>, year: int, month: int)
    requires CalendarPairs(vs) && 1 <= month <= 12
    ensures CalendarPairs(vs + [(year, month)])
    ensures var prev := RunMonths(files, env, responses, vs);
      var step := MonthStep(prev.files, env, responses(year, month), year, month);
      RunMonths(files, env, responses, vs + [(year, month)]) ==
        if prev.outcome.Err? then prev
        else if step.outcome.Err? then step
        else MonthlyRun(step.files, Ok(prev.outcome.value + step.outcome.value))
  {
    CalendarPairsAppend(vs, [(year, month)]);
    assert (vs + [(year, month)])[..|vs|] == vs;
  }

  lemma RestOfYear(visited: seq<(int, int)>, year: int, months: seq<int>, j: nat)
    requires j <= |months|
    ensures visited + YearPairs(year, months) == (visited + YearPairs(year, months[..j])) + YearPairs(year, months[j..])
  {
    YearPairsSplit(year, months, j);
  }

  /** One month of a run that has not raised yet: the run over the visits so far, extended by that month. */
  method AdvanceMonth(fs: FileSystem, env: Env, responses: (int, int) -> Table, year: int, month: int,
                      ghost files0: map<string, Table>, ghost seen: seq<(int, int)>, reports: seq<MonthReport>)
    returns (r: Result<seq<MonthReport>, PyError>)
    requires 1 <= month <= 12 && CalendarPairs(seen)
    requires RunMonths(files0, env, responses, seen) == MonthlyRun(fs.files, Ok(reports))
    modifies fs
    ensures CalendarPairs(seen + [(year, month)])
    ensures RunMonths(files0, env, responses, seen + [(year, month)]) == MonthlyRun(fs.files, r)
  {
    RunMonthsSnoc(files0, env, responses, seen, year, month);
    var step := ProcessMonth(fs, env, responses(year, month), year, month);
    if step.Err? {
      return step;
    }
    r := Ok(reports + step.value);
  }

  /** The inner loop of `run_monthly`: the months of one year. */
  method RunYear(fs: FileSystem, env: Env, responses: (int, int) -> Table, year: int, months: seq<int>,
                 ghost files0: map<string, Table>, ghost visited: seq<(int, int)>, reports0: seq<MonthReport>)
    returns (r: Result<seq<MonthReport>, PyError>)
    requires forall j :: 0 <= j < |months| ==> 1 <= months[j] <= 12
    requires CalendarPairs(visited)
    requires RunMonths(files0, env, responses, visited) == MonthlyRun(fs.files, Ok(reports0))
    modifies fs
    ensures CalendarPairs(visited + YearPairs(year, months))
    ensures RunMonths(files0, env, responses, visited + YearPairs(year, months)) == MonthlyRun(fs.files, r)
  {
    YearPairsCalendar(year, months);
    CalendarPairsAppend(visited, YearPairs(year, months));
    var reports := reports0;
    var j := 0;
    assert visited + YearPairs(year, months[..0]) == visited by {
      assert months[..0] == [];
    }
    while j < |months|
      invariant 0 <= j <= |months|
      invariant CalendarPairs(visited + YearPairs(year, months[..j]))
      invariant RunMonths(files0, env, responses, visited + YearPairs(year, months[..j])) == MonthlyRun(fs.files, Ok(reports))
    {
      ghost var seen := visited + YearPairs(year, months[..j]);
      YearPairsStep(visited, year, months, j);
      var step := AdvanceMonth(fs, env, responses, year, months[j], files0, seen, reports);
      if step.Err? {
        RestOfYear(visited, year, months, j + 1);
        YearPairsCalendar(year, months[j + 1..]);
        RunMonthsErrorPersists(files0, env, responses, seen + [(year, months[j])], YearPairs(year, months[j + 1..]));
        return step;
      }
      reports := step.value;
      j := j + 1;
    }
    assert months[..j] == months;
    r := Ok(reports);
  }

  /** The visits of the first `i + 1` years: those of the first `i`, then year `i`'s months in order. */
  lemma VisitsSnoc(ym: YearMonths, i: nat)
    requires CalendarTable(ym) && i < |ym|
    ensures CalendarTable(ym[..i]) && CalendarTable(ym[..i + 1])
    ensures Visits(ym[..i + 1]) == Visits(ym[..i]) + YearPairs(ym[i].0, ym[i].1)
    ensures forall j :: 0 <= j < |ym[i].1| ==> 1 <= ym[i].1[j] <= 12
  {
    assert ym[..i + 1][..i] == ym[..i];
  }

  /** A run that raised in year `i` ends there. */
  lemma YearErrorEndsRun(files: map<string, Table>, env: Env, responses: (int, int) -> Table, ym: YearMonths, i: nat)
    requires CalendarTable(ym) && i < |ym|
    requires CalendarPairs(Visits(ym[..i + 1]))
    requires RunMonths(files, env, responses, Visits(ym[..i + 1])).outcome.Err?
    ensures CalendarPairs(Visits(ym))
    ensures RunMonths(files, env, responses, Visits(ym)) == RunMonths(files, env, responses, Visits(ym[..i + 1]))
  {
    VisitsSplit(ym, i + 1);
    assert CalendarTable(ym[i + 1..]);
    CalendarVisits(ym[i + 1..]);
    RunMonthsErrorPersists(files, env, responses, Visits(ym[..i + 1]), Visits(ym[i + 1..]));
  }

  /** `run_monthly()` over a table of years and months. */
  method RunMonthly(fs: FileSystem, env: Env, responses: (int, int) -> Table, ym: YearMonths)
    returns (r: Result<seq<MonthReport>, PyError>)
    requires CalendarTable(ym)
    modifies fs
    ensures CalendarPairs(Visits(ym))
    ensures MonthlyRun(fs.files, r) == RunMonths(old(fs.files), env, responses, Visits(ym))
  {
    CalendarVisits(ym);
    ghost var files0 := fs.files;
    var reports: seq<MonthReport> := [];
    var i := 0;
    assert ym[..0] == [];
    while i < |ym|
      invariant 0 <= i <= |ym|
      invariant CalendarPairs(Visits(ym[..i]))
      invariant RunMonths(files0, env, responses, Visits(ym[..i])) == MonthlyRun(fs.files, Ok(reports))
    {
      var (year, months) := ym[i];
      VisitsSnoc(ym, i);
      var step := RunYear(fs, env, responses, year, months, files0, Visits(ym[..i]), reports);
      if step.Err? {
        YearErrorEndsRun(files0, env, responses, ym, i);
        return step;
      }
      reports := step.value;
      i := i + 1;
    }
    assert ym[..i] == ym;
    r := Ok(reports);
  }

  /** The raw name and the renamed name of a month are different paths. */
  lemma RawNotRenamed(year: int, month: int)
    requires 1 <= month <= 12
    ensures RawBatchPath(year, month) != BatchPath(year, month)
  {
    var raw := DecimalString(year) + "_" + DecimalString(month);
    MonthNameLetters(month);
    assert raw[0] != Period(year, month)[0];
    PathsInjective(raw, Period(year, month));
  }

  /**
   * One month: with an empty response and no raw batch left over, the
   * month is skipped and nothing changes (even when `months/{Month}_{year}.csv`
   * is already there); otherwise the raw file is gone, the renamed batch
   * holds the fetched rows (or the left-over raw batch), nothing else
   * changes, and a completed month reports its map and its page, which
   * always exists and, as `generate_summary` is written, shows no picture.
   */
  lemma MonthStepFacts(files: map<string, Table>, env: Env, response: Table, year: int, month: int)
    requires 1 <= month <= 12
    ensures var s := MonthStep(files, env, response, year, month);
      var raw := RawBatchPath(year, month);
      var batch := BatchPath(year, month);
      var period := Period(year, month);
      && (response.rows == [] && raw !in files ==> s == MonthlyRun(files, Ok([Missing(period)])))
      && (response.rows != [] || raw in files ==>
            && raw !in s.files && batch in s.files
            && s.files[batch] == (if response.rows != [] then Tagged(response, month, year) else files[raw])
            && (forall p :: p != raw && p != batch ==> (p in s.files <==> p in files) && (p in s.files ==> s.files[p] == files[p]))
            && (s.outcome.Err? <==>
                  MapResult(s.files, env.grids, period, "monthly", env.inside).Err?
                  || MonthlySummaryAsWritten(s.files, env.assets, period).Err?)
            && (s.outcome.Ok? ==>
                  && |s.outcome.value| == 1 && s.outcome.value[0].Generated?
                  && s.outcome.value[0].period == period
                  && Ok(s.outcome.value[0].grid) == MapResult(s.files, env.grids, period, "monthly", env.inside)
                  && Ok(s.outcome.value[0].summary) == MonthlySummaryAsWritten(s.files, env.assets, period)
                  && s.outcome.value[0].summary.Some?
                  && forall e :: e in s.outcome.value[0].summary.value.entries ==> e.image == NotFound))
  {
    RawNotRenamed(year, month);
    FetchedFacts(files, response, month, year);
    MonthlySummaryFacts(MonthStep(files, env, response, year, month).files, env.assets, Period(year, month));
    AsWrittenSameFigures(MonthStep(files, env, response, year, month).files, env.assets, Period(year, month));
    var w := MonthlySummaryAsWritten(MonthStep(files, env, response, year, month).files, env.assets, Period(year, month));
    if w.Ok? && w.value.Some? {
      AsWrittenEntries(w.value.value.stats.top, env.assets);
    }
  }

  /**
   * Run over the script's table, `run_monthly` leaves January 2026 under
   * the name `build_seasonal` reads whenever the request returned rows,
   * whether or not the map or the page then raised.
   */
  lemma MonthlyFeedsBuild(files: map<string, Table>, env: Env, responses: (int, int) -> Table)
    requires CalendarPairs(Visits(YearMonthsTable))
    requires responses(2026, 1).rows != []
    ensures var s := RunMonths(files, env, responses, Visits(YearMonthsTable));
      BatchPath(2026, 1) in s.files && s.files[BatchPath(2026, 1)] == Tagged(responses(2026, 1), 1, 2026)
  {
    TableVisits();
    assert [(2026, 1)][..0] == [];
    MonthStepFacts(files, env, responses(2026, 1), 2026, 1);
  }

  // ---------------------------------------------------------------------
  // build_seasonal
  // ---------------------------------------------------------------------

  /** The store after the write loop of this `build_seasonal`: a key whose artifact exists is skipped. */
  function BuiltOnce(files: map<string, Table>, keys: seq<string>, data: map<string, seq<Table>>): map<string, Table>
    requires forall k :: k in keys ==> k in data && |data[k]| >= 1
  {
    if keys == [] then files
    else
      var n := |keys| - 1;
      var before := BuiltOnce(files, keys[..n], data);
      if NewSeasonsCsv(keys[n]) in before then before
      else before[NewSeasonsCsv(keys[n]) := Concat(data[keys[n]])]
  }

  /** The write loop: `if season_csv_path.exists(): continue`, else concatenate and write. */
  method WriteNewSeasons(fs: FileSystem, keys: seq<string>, data: map<string, seq<Table>>)
    requires forall k :: k in keys ==> k in data && |data[k]| >= 1
    modifies fs
    ensures fs.files == BuiltOnce(old(fs.files), keys, data)
  {
    var i := 0;
    while i < |keys|
      invariant 0 <= i <= |keys|
      invariant fs.files == BuiltOnce(old(fs.files), keys[..i], data)
    {
      assert keys[..i + 1][..i] == keys[..i];
      assert keys[i] in keys;
      var seasonCsvPath := NewSeasonsCsv(keys[i]);
      if seasonCsvPath !in fs.files {
        var seasonDf := Concat(data[keys[i]]);
        fs.Write(seasonCsvPath, seasonDf);
      }
      i := i + 1;
    }
    assert keys[..i] == keys;
  }

  /** An artifact that exists is never rewritten, and nothing is deleted. */
  lemma {:induction false} BuiltOnceKeeps(files: map<string, Table>, keys: seq<string>, data: map<string, seq<Table>>, p: string)
    requires forall k :: k in keys ==> k in data && |data[k]| >= 1
    requires p in files
    ensures p in BuiltOnce(files, keys, data) && BuiltOnce(files, keys, data)[p] == files[p]
  {
    if keys != [] {
      var n := |keys| - 1;
      assert forall k :: k in keys[..n] ==> k in keys;
      BuiltOnceKeeps(files, keys[..n], data, p);
    }
  }

  /** Afterwards every key has its artifact. */
  lemma {:induction false} BuiltOnceCovers(files: map<string, Table>, keys: seq<string>, data: map<string, seq<Table>>, k: string)
    requires forall k :: k in keys ==> k in data && |data[k]| >= 1
    requires k in keys
    ensures NewSeasonsCsv(k) in BuiltOnce(files, keys, data)
  {
    var n := |keys| - 1;
    assert forall k :: k in keys[..n] ==> k in keys;
    if k != keys[n] {
      assert k in keys[..n];
      BuiltOnceCovers(files, keys[..n], data, k);
    }
  }

  /** A path that is no key's artifact is there afterwards exactly when it was before. */
  lemma {:induction false} BuiltOnceFrame(files: map<string, Table>, keys: seq<string>, data: map<string, seq<Table>>, p: string)
    requires forall k :: k in keys ==> k in data && |data[k]| >= 1
    requires forall k :: k in keys ==> p != NewSeasonsCsv(k)
    ensures p in BuiltOnce(files, keys, data) <==> p in files
  {
    if keys != [] {
      var n := |keys| - 1;
      assert keys[n] in keys;
      assert forall k :: k in keys[..n] ==> k in keys;
      BuiltOnceFrame(files, keys[..n], data, p);
    }
  }

  /** A key whose artifact did not exist gets the concatenation of its batches. */
  lemma {:induction false} BuiltOnceNew(files: map<string, Table>, keys: seq<string>, data: map<string, seq<Table>>, k: string)
    requires forall k :: k in keys ==> k in data && |data[k]| >= 1
    requires NoDuplicates(keys) && k in keys && NewSeasonsCsv(k) !in files
    ensures NewSeasonsCsv(k) in BuiltOnce(files, keys, data)
    ensures BuiltOnce(files, keys, data)[NewSeasonsCsv(k)] == Concat(data[k])
  {
    var n := |keys| - 1;
    var pre := keys[..n];
    assert forall k :: k in pre ==> k in keys;
    if k == keys[n] {
      LastKeyFresh(keys);
      BuiltOnceFrame(files, pre, data, NewSeasonsCsv(k));
    } else {
      assert k in pre;
      PathsInjective(k, keys[n]);
      BuiltOnceNew(files, pre, data, k);
    }
  }

  /** With no repeated key, the last key's artifact is none of the earlier keys' artifacts. */
  lemma LastKeyFresh(keys: seq<string>)
    requires NoDuplicates(keys) && keys != []
    ensures forall j :: j in keys[..|keys| - 1] ==> NewSeasonsCsv(keys[|keys| - 1]) != NewSeasonsCsv(j)
  {
    var n := |keys| - 1;
    forall j | j in keys[..n] ensures NewSeasonsCsv(keys[n]) != NewSeasonsCsv(j) {
      var i :| 0 <= i < n && keys[..n][i] == j;
      assert keys[i] != keys[n];
      PathsInjective(keys[n], j);
    }
  }

  /** With every artifact already there the write loop changes nothing. */
  lemma {:induction false} BuiltOnceNoop(files: map<string, Table>, keys: seq<string>, data: map<string, seq<Table>>)
    requires forall k :: k in keys ==> k in data && |data[k]| >= 1
    requires forall k :: k in keys ==> NewSeasonsCsv(k) in files
    ensures BuiltOnce(files, keys, data) == files
  {
    if keys != [] {
      var n := |keys| - 1;
      assert keys[n] in keys;
      assert forall k :: k in keys[..n] ==> k in keys;
      BuiltOnceNoop(files, keys[..n], data);
    }
  }

  /** The store this `build_seasonal` leaves, for a given table. */
  function BuildSeasonalSpec(files: map<string, Table>, ym: YearMonths): map<string, Table>
    requires CalendarTable(ym)
  {
    var c := Collect(files, ym);
    CollectedNonEmpty(files, ym);
    BuiltOnce(files, c.keys, c.data)
  }

  /** `build_seasonal()`: collect the batches of `YEAR_MONTHS` by key, then write the keys not yet built. */
  method BuildSeasonal(fs: FileSystem)
    modifies fs
    ensures fs.files == BuildSeasonalSpec(old(fs.files), YearMonthsTable)
  {
    TableIsCalendar();
    var seasonalData := CollectSeasonal(fs.files, YearMonthsTable);
    CollectedNonEmpty(fs.files, YearMonthsTable);
    WriteNewSeasons(fs, seasonalData.keys, seasonalData.data);
  }

  /**
   * This `build_seasonal` for any table: every collected key has its
   * artifact afterwards; an artifact that existed keeps its contents; a new
   * one holds the key's batches in visiting order; nothing is deleted and
   * no path but a key artifact appears.
   */
  lemma BuildSeasonalFacts(files: map<string, Table>, ym: YearMonths)
    requires CalendarTable(ym)
    ensures CalendarPairs(Visits(ym))
    ensures var r := BuildSeasonalSpec(files, ym);
      var c := Collect(files, ym);
      var ps := KeyedBatches(files, Visits(ym));
      && (forall k :: k in c.keys ==> NewSeasonsCsv(k) in r)
      && (forall p :: p in files ==> p in r && r[p] == files[p])
      && (forall k :: k in c.keys && NewSeasonsCsv(k) !in files ==>
            r[NewSeasonsCsv(k)].rows == AllRows(Members(ps, k)))
      && (forall p :: (forall k :: k in c.keys ==> p != NewSeasonsCsv(k)) ==> (p in r <==> p in files))
  {
    CalendarVisits(ym);
    var c := Collect(files, ym);
    CollectedNonEmpty(files, ym);
    forall k | k in c.keys ensures NewSeasonsCsv(k) in BuildSeasonalSpec(files, ym) {
      BuiltOnceCovers(files, c.keys, c.data, k);
    }
    forall p | p in files ensures p in BuildSeasonalSpec(files, ym) && BuildSeasonalSpec(files, ym)[p] == files[p] {
      BuiltOnceKeeps(files, c.keys, c.data, p);
    }
    forall k | k in c.keys && NewSeasonsCsv(k) !in files
      ensures BuildSeasonalSpec(files, ym)[NewSeasonsCsv(k)].rows == AllRows(Members(KeyedBatches(files, Visits(ym)), k))
    {
      BuiltOnceNew(files, c.keys, c.data, k);
    }
    forall p | forall k :: k in c.keys ==> p != NewSeasonsCsv(k)
      ensures p in BuildSeasonalSpec(files, ym) <==> p in files
    {
      BuiltOnceFrame(files, c.keys, c.data, p);
    }
  }

  /** Two stores that agree outside `new seasons/`. */
  ghost predicate AgreeOutsideNewSeasons(f: map<string, Table>, g: map<string, Table>)
  {
    forall p :: !InNewSeasons(p) ==> (p in f <==> p in g) && (p in f ==> f[p] == g[p])
  }

  /** The collecting loops read `months/` only. */
  lemma {:induction false} KeyedBatchesReadsMonths(f: map<string, Table>, g: map<string, Table>, visits: seq<(int, int)>)
    requires CalendarPairs(visits) && AgreeOutsideNewSeasons(f, g)
    ensures KeyedBatches(f, visits) == KeyedBatches(g, visits)
  {
    if visits != [] {
      var n := |visits| - 1;
      assert CalendarPairs(visits[..n]);
      KeyedBatchesReadsMonths(f, g, visits[..n]);
      var (year, month) := visits[n];
      PathShapes(Period(year, month));
    }
  }

  /**
   * Running this `build_seasonal` a second time changes nothing: it reads
   * only `months/`, which the first run left alone, and every key it finds
   * has its artifact already.
   */
  lemma BuildSeasonalIdempotent(files: map<string, Table>, ym: YearMonths)
    requires CalendarTable(ym)
    ensures BuildSeasonalSpec(BuildSeasonalSpec(files, ym), ym) == BuildSeasonalSpec(files, ym)
  {
    var g := BuildSeasonalSpec(files, ym);
    var c := Collect(files, ym);
    BuildSeasonalFacts(files, ym);
    forall p | !InNewSeasons(p) ensures (p in files <==> p in g) && (p in files ==> files[p] == g[p]) {
      forall k | k in c.keys ensures p != NewSeasonsCsv(k) {
        PathShapes(k);
      }
    }
    KeyedBatchesReadsMonths(files, g, Visits(ym));
    assert Collect(g, ym).keys == c.keys;
    CollectedNonEmpty(g, ym);
    BuiltOnceNoop(g, c.keys, Collect(g, ym).data);
  }

  /** Over the script's table the only key is Winter 2025, found when January 2026 is on file. */
  lemma OnlyWinter2025(files: map<string, Table>)
    requires CalendarTable(YearMonthsTable)
    ensures Collect(files, YearMonthsTable).keys ==
              if BatchPath(2026, 1) in files then [SeasonKeyOf(Winter, 2025)] else []
  {
    TableVisits();
    JanuaryBatch(files);
    var ps := KeyedBatches(files, [(2026, 1)]);
    if BatchPath(2026, 1) in files {
      assert ps[..0] == [];
      assert Keys(ps) == [SeasonKeyOf(Winter, 2025)];
    }
  }

  /** January 2026 is the one batch the script's table can find, under Winter 2025. */
  lemma JanuaryBatch(files: map<string, Table>)
    ensures CalendarPairs([(2026, 1)])
    ensures KeyedBatches(files, [(2026, 1)]) ==
              if BatchPath(2026, 1) in files then [(SeasonKeyOf(Winter, 2025), files[BatchPath(2026, 1)])] else []
  {
    assert [(2026, 1)][..0] == [];
    SeasonKeyAgrees(2026, 1);
    assert GetSeason(1) == Winter && GetSeasonYear(2026, 1) == 2025;
  }

  // ---------------------------------------------------------------------
  // run_seasonal_outputs
  // ---------------------------------------------------------------------

  /**
   * `run_seasonal_outputs` lists `new seasons/`, but the seasonal map reads
   * `seasons/`: an artifact only `build_seasonal` wrote gets no map, while
   * its page is drawn from the artifact whenever it has rows.
   */
  lemma SeasonalMapsReadSeasons(files: map<string, Table>, env: Env, stems: seq<string>)
    ensures var r := SeasonalOutputs(files, env, stems, OutputsMode);
      r.Ok? ==> |r.value| == |stems| && forall i :: 0 <= i < |stems| ==>
        && (r.value[i].grid.Some? ==> SeasonsCsv(stems[i]) in files)
        && (r.value[i].summary.Some? <==> NewSeasonsCsv(stems[i]) in files && |files[NewSeasonsCsv(stems[i])].rows| > 0)
  {
    SeasonalOutputsFacts(files, env, stems, OutputsMode);
    var r := SeasonalOutputs(files, env, stems, OutputsMode);
    forall i | 0 <= i < |stems| && r.Ok?
      ensures r.value[i].grid.Some? ==> SeasonsCsv(stems[i]) in files
      ensures r.value[i].summary.Some? <==> NewSeasonsCsv(stems[i]) in files && |files[NewSeasonsCsv(stems[i])].rows| > 0
    {
      MapOutcomes(files, env.grids, stems[i], OutputsMode, env.inside);
      PathsByMode(stems[i]);
      SeasonalSummaryFacts(files, env.assets, stems[i]);
    }
  }
}

=== FILE: files.dfy ===
/**
 * The working directory the scripts share, seen as a store from path to
 * table, and the paths the scripts build. Existence of a file is membership
 * of its path; `to_csv` is an update of the store; `Path.rename` moves an entry.
 */
module Files {
  import opened Tables
  import opened Text

  /** The CSV files of the working directory, updated in place by the scripts. */
  class FileSystem {
    var files: map<string, Table>

    constructor (initial: map<string, Table>)
      ensures files == initial
    {
      files := initial;
    }

    /** `DataFrame.to_csv(path)`: creates the file or overwrites it. */
    method Write(path: string, t: Table)
      modifies this
      ensures files == old(files)[path := t]
    {
      files := files[path := t];
    }

    /** `Path(src).rename(dst)`: on POSIX an existing `dst` is replaced. */
    method Rename(src: string, dst: string)
      requires src in files
      modifies this
      ensures files == Renamed(old(files), src, dst)
    {
      files := Renamed(files, src, dst);
    }
  }

  /** The store after moving `src` to `dst`. */
  function Renamed(files: map<string, Table>, src: string, dst: string): (r: map<string, Table>)
    requires src in files
    ensures dst in r && r[dst] == files[src]
    ensures src != dst ==> src !in r
    ensures forall p :: p != src && p != dst ==> (p in r <==> p in files) && (p in r ==> r[p] == files[p])
  {
    if src == dst then files else (files - {src})[dst := files[src]]
  }

  /** `months/{stem}.csv`: a monthly batch. */
  function MonthlyCsv(stem: string): string
  {
    "months/" + stem + ".csv"
  }

  /** `new seasons/{stem}.csv`: a seasonal artifact written by the builders. */
  function NewSeasonsCsv(stem: string): string
  {
    "new seasons/" + stem + ".csv"
  }

  /** `seasons/{stem}.csv`: where the seasonal map looks for its input. */
  function SeasonsCsv(stem: string): string
  {
    "seasons/" + stem + ".csv"
  }

  /** A path directly under `new seasons/`. */
  predicate InNewSeasons(path: string)
  {
    |path| >= 12 && path[..12] == "new seasons/"
  }

  lemma PathShapes(stem: string)
    ensures MonthlyCsv(stem)[0] == 'm' && !InNewSeasons(MonthlyCsv(stem))
    ensures SeasonsCsv(stem)[0] == 's' && !InNewSeasons(SeasonsCsv(stem))
    ensures InNewSeasons(NewSeasonsCsv(stem))
  {
    assert NewSeasonsCsv(stem)[..12] == "new seasons/";
  }

  /** The three directories never share a path. */
  lemma DirectoriesDisjoint(a: string, b: string)
    ensures MonthlyCsv(a) != NewSeasonsCsv(b)
    ensures MonthlyCsv(a) != SeasonsCsv(b)
    ensures SeasonsCsv(a) != NewSeasonsCsv(b)
  {
    assert MonthlyCsv(a)[0] == 'm' && NewSeasonsCsv(b)[0] == 'n' && SeasonsCsv(a)[0] == 's';
    assert SeasonsCsv(b)[0] == 's';
  }

  lemma {:induction false} AffixInjective(p: string, a: string, b: string, s: string)
    requires p + a + s == p + b + s
    ensures a == b
  {
    assert |a| == |b|;
    assert a == (p + a + s)[|p|..|p| + |a|];
    assert b == (p + b + s)[|p|..|p| + |b|];
  }

  /** Distinct stems give distinct paths in each directory. */
  lemma PathsInjective(a: string, b: string)
    requires a != b
    ensures MonthlyCsv(a) != MonthlyCsv(b)
    ensures NewSeasonsCsv(a) != NewSeasonsCsv(b)
    ensures SeasonsCsv(a) != SeasonsCsv(b)
  {
    if MonthlyCsv(a) == MonthlyCsv(b) { AffixInjective("months/", a, b, ".csv"); }
    if NewSeasonsCsv(a) == NewSeasonsCsv(b) { AffixInjective("new seasons/", a, b, ".csv"); }
    if SeasonsCsv(a) == SeasonsCsv(b) { AffixInjective("seasons/", a, b, ".csv"); }
  }
}

=== FILE: generate_map.dfy ===
/**
 * `generate_map(time_period, mode)` up to the point where it renders HTML:
 * the choice of input, output and grid file, the coordinate-column check,
 * the inner spatial join of observations to grid cells, the per-cell
 * counts and top-5 lists, and the left merge back onto every cell.
 */
module GridMap {
  import opened Wrappers
  import opened Errors
  import opened Tables
  import opened Grouping
  import opened Files

  /** A polygon of the grid file. Its geometry is only seen through `within`. */
  datatype Cell = Cell(gridId: int, boundary: seq<Point>)

  /** The CSV read, the HTML written and the grid file read for one call. */
  datatype MapPaths = MapPaths(csv: string, html: string, gridFile: string)

  const GridBig := "grid_big.geojson"
  const GridSmall := "grid.geojson"
  const IndexRight := "index_right"
  const IndexLeft := "index_left"
  const TopN := 5

  /**
   * The mode selects a directory and a grid; only "monthly" and "seasonal"
   * are accepted, every other mode raises `ValueError`.
   */
  function SelectPaths(timePeriod: string, mode: string): (r: Result<MapPaths, PyError>)
    ensures r.Ok? <==> mode == "monthly" || mode == "seasonal"
    ensures r.Err? ==> r.error.ValueError?
    ensures r.Ok? ==> r.value.gridFile in {GridBig, GridSmall}
  {
    if mode == "monthly" then
      Ok(MapPaths(MonthlyCsv(timePeriod), "months/" + timePeriod + ".html", GridBig))
    else if mode == "seasonal" then
      Ok(MapPaths(SeasonsCsv(timePeriod), "seasons/" + timePeriod + ".html", GridSmall))
    else
      Err(ValueError("Mode must be 'monthly' or 'seasonal'"))
  }

  /**
   * Monthly maps read the monthly batch and the big grid, seasonal maps read
   * `seasons/` (not the `new seasons/` the builders write) and the small
   * grid; the HTML goes beside the CSV.
   */
  lemma PathsByMode(timePeriod: string)
    ensures var m := SelectPaths(timePeriod, "monthly").value;
      m.csv == MonthlyCsv(timePeriod) && m.gridFile == GridBig && m.html == "months/" + timePeriod + ".html"
    ensures var s := SelectPaths(timePeriod, "seasonal").value;
      s.csv == SeasonsCsv(timePeriod) && s.gridFile == GridSmall && s.csv != NewSeasonsCsv(timePeriod)
    ensures SelectPaths(timePeriod, "newseason").Err?
  {
    DirectoriesDisjoint(timePeriod, timePeriod);
  }

  /**
   * The frame after the empty-frame fix, the coordinate-column check and
   * the removal of leftover `index_right` / `index_left` columns.
   */
  function Prepare(t: Table, csvPath: string): (r: Result<Table, PyError>)
    ensures r.Ok? <==> |t.rows| == 0 || (Longitude in t.columns && Latitude in t.columns)
    ensures r.Err? ==> r.error.ValueError?
    ensures r.Ok? ==>
      && r.value.rows == t.rows
      && Longitude in r.value.columns && Latitude in r.value.columns
      && IndexRight !in r.value.columns && IndexLeft !in r.value.columns
      && forall c :: c != IndexRight && c != IndexLeft && c != Longitude && c != Latitude ==>
           (c in r.value.columns <==> c in t.columns)
  {
    var df := if |t.rows| == 0 then Table(t.columns + {Longitude, Latitude}, t.rows) else t;
    if Longitude !in df.columns then Err(ValueError(Longitude + " column missing in " + csvPath))
    else if Latitude !in df.columns then Err(ValueError(Latitude + " column missing in " + csvPath))
    else Ok(Table(df.columns - {IndexRight, IndexLeft}, df.rows))
  }

  // ---------------------------------------------------------------------
  // gpd.sjoin(points, grid, how="inner", predicate="within")
  // ---------------------------------------------------------------------

  /** The (grid_id, row) pairs of one point: one per cell the point lies within, in grid order. */
  function Containing(r: Row, cells: seq<Cell>, inside: (Point, Cell) -> bool): (ps: seq<(int, Row)>)
    ensures |ps| <= |cells|
    ensures forall p :: p in ps <==> p.1 == r && exists c :: c in cells && inside(r.location, c) && c.gridId == p.0
    ensures |ps| == 0 <==> forall c :: c in cells ==> !inside(r.location, c)
  {
    if cells == [] then []
    else
      var n := |cells| - 1;
      assert forall c :: c in cells <==> c in cells[..n] || c == cells[n];
      Containing(r, cells[..n], inside) + if inside(r.location, cells[n]) then [(cells[n].gridId, r)] else []
  }

  /**
   * The inner join: every point paired with every cell it lies within,
   * points in frame order. A point inside no cell contributes nothing.
   */
  function Join(rows: seq<Row>, cells: seq<Cell>, inside: (Point, Cell) -> bool): (j: seq<(int, Row)>)
    ensures forall p :: p in j <==> p.1 in rows && exists c :: c in cells && inside(p.1.location, c) && c.gridId == p.0
  {
    if rows == [] then []
    else
      var n := |rows| - 1;
      assert forall r :: r in rows <==> r in rows[..n] || r == rows[n];
      Join(rows[..n], cells, inside) + Containing(rows[n], cells, inside)
  }

  /** The number of points that lie within no cell. */
  function Unassigned(rows: seq<Row>, cells: seq<Cell>, inside: (Point, Cell) -> bool): nat
  {
    if rows == [] then 0
    else
      var n := |rows| - 1;
      Unassigned(rows[..n], cells, inside) + if |Containing(rows[n], cells, inside)| == 0 then 1 else 0
  }

  /** Cells with disjoint interiors: no point lies within two of them. */
  predicate AtMostOneCell(rows: seq<Row>, cells: seq<Cell>, inside: (Point, Cell) -> bool)
  {
    forall i :: 0 <= i < |rows| ==> |Containing(rows[i], cells, inside)| <= 1
  }

  /** When no point lies within two cells, every point is joined once or counted as unassigned. */
  lemma {:induction false} JoinConservation(rows: seq<Row>, cells: seq<Cell>, inside: (Point, Cell) -> bool)
    requires AtMostOneCell(rows, cells, inside)
    ensures |Join(rows, cells, inside)| + Unassigned(rows, cells, inside) == |rows|
  {
    if rows != [] {
      var n := |rows| - 1;
      assert AtMostOneCell(rows[..n], cells, inside) by {
        forall i | 0 <= i < n ensures |Containing(rows[..n][i], cells, inside)| <= 1 {
          assert rows[..n][i] == rows[i];
        }
      }
      JoinConservation(rows[..n], cells, inside);
      assert |Containing(rows[n], cells, inside)| <= 1;
    }
  }

  /** Every grid id a joined row carries is the id of a cell of the grid. */
  lemma JoinedIdsAreCellIds(rows: seq<Row>, cells: seq<Cell>, inside: (Point, Cell) -> bool, k: int)
    requires HasKey(Join(rows, cells, inside), k)
    ensures exists c :: c in cells && c.gridId == k
  {
    var j := Join(rows, cells, inside);
    var i :| 0 <= i < |j| && j[i].0 == k;
    assert j[i] in j;
  }

  // ---------------------------------------------------------------------
  // per-cell aggregation: joined.groupby("grid_id")
  // ---------------------------------------------------------------------

  /** One entry of `summaries`: a cell's count and its three top-5 name lists. */
  datatype CellSummary = CellSummary(
    gridId: int,
    observations: nat,
    topSpecies: seq<string>,
    habitat: seq<string>,
    migratory: seq<string>)

  /**
   * `group.get(col, pd.Series()).dropna().value_counts().head(5)`: empty when
   * the column is absent; otherwise the five most frequent present values,
   * or all of them when there are fewer.
   */
  function TopOf(rows: seq<Row>, columns: set<string>, f: Field): (top: seq<string>)
    ensures |top| <= TopN
    ensures f.Column() !in columns ==> top == []
    ensures forall v :: v in top ==> exists r :: r in rows && f.Get(r) == Some(v)
    ensures f.Column() in columns ==>
      NoDuplicates(top) && ByFrequency(top, Present(Values(rows, f)))
    ensures f.Column() in columns ==>
      var vs := Present(Values(rows, f));
      && |top| == (if |Distinct(vs)| <= TopN then |Distinct(vs)| else TopN)
      && forall v :: v in vs && v !in top ==>
           |top| == TopN && forall u :: u in top ==> Frequency(vs, u) >= Frequency(vs, v)
  {
    if f.Column() !in columns then []
    else
      var vs := Present(Values(rows, f));
      TopIsTop(vs, TopN);
      Top(vs, TopN)
  }

  /** The summary of the group of `gridId`. */
  function Summary(joined: seq<(int, Row)>, columns: set<string>, gridId: int): CellSummary
  {
    var group := Members(joined, gridId);
    CellSummary(gridId, |group|, TopOf(group, columns, CommonNameField),
      TopOf(group, columns, HabitatField), TopOf(group, columns, MigratoryField))
  }

  /** The list of summaries, one per group. */
  function Summaries(joined: seq<(int, Row)>, columns: set<string>): (s: seq<CellSummary>)
    ensures |s| == |Keys(joined)|
  {
    var ks := Keys(joined);
    seq(|ks|, i requires 0 <= i < |ks| => Summary(joined, columns, ks[i]))
  }

  /**
   * The group loop. `group["commonName"]` raises `KeyError` on the first
   * group when the frame has no such column.
   */
  method Summarize(joined: seq<(int, Row)>, columns: set<string>) returns (r: Result<seq<CellSummary>, PyError>)
    ensures joined != [] && CommonName !in columns ==> r == Err(KeyError(CommonName))
    ensures joined == [] || CommonName in columns ==> r == Ok(Summaries(joined, columns))
  {
    var keys := Keys(joined);
    var summaries: seq<CellSummary> := [];
    var i := 0;
    while i < |keys|
      invariant 0 <= i <= |keys|
      invariant i > 0 ==> CommonName in columns
      invariant summaries == Summaries(joined, columns)[..i]
    {
      if CommonName !in columns {
        assert keys[i] in keys;
        return Err(KeyError(CommonName));
      }
      var group := Members(joined, keys[i]);
      summaries := summaries + [CellSummary(keys[i], |group|, TopOf(group, columns, CommonNameField),
        TopOf(group, columns, HabitatField), TopOf(group, columns, MigratoryField))];
      i := i + 1;
    }
    if joined != [] && CommonName !in columns {
      assert HasKey(joined, joined[0].0);
      assert false;
    }
    assert Summaries(joined, columns)[..|keys|] == Summaries(joined, columns);
    return Ok(summaries);
  }

  // ---------------------------------------------------------------------
  // grid.merge(summary_df, on="grid_id", how="left") and the 0 fill
  // ---------------------------------------------------------------------

  /**
   * One row of the merged grid: the cell, its count (0 after `fillna`) and
   * its top lists, which stay NaN (`None`) for a cell no point fell in.
   */
  datatype MapCell = MapCell(
    cell: Cell,
    observations: nat,
    topSpecies: Option<seq<string>>,
    habitat: Option<seq<string>>,
    migratory: Option<seq<string>>)

  /** The summary with `gridId`, if any. */
  function Lookup(summaries: seq<CellSummary>, gridId: int): (s: Option<CellSummary>)
    ensures s.Some? ==> s.value in summaries && s.value.gridId == gridId
    ensures s.None? ==> forall x :: x in summaries ==> x.gridId != gridId
  {
    if summaries == [] then None
    else if summaries[0].gridId == gridId then Some(summaries[0])
    else Lookup(summaries[1..], gridId)
  }

  function MergeCell(c: Cell, summaries: seq<CellSummary>): MapCell
  {
    match Lookup(summaries, c.gridId)
    case None => MapCell(c, 0, None, None, None)
    case Some(s) => MapCell(c, s.observations, Some(s.topSpecies), Some(s.habitat), Some(s.migratory))
  }

  /** The left merge keeps every cell, in grid order. */
  function Merge(cells: seq<Cell>, summaries: seq<CellSummary>): (m: seq<MapCell>)
    ensures |m| == |cells| && forall i :: 0 <= i < |cells| ==> m[i].cell == cells[i]
  {
    seq(|cells|, i requires 0 <= i < |cells| => MergeCell(cells[i], summaries))
  }

  /** The first summary with a given id is the one found. */
  lemma {:induction false} LookupFirst(summaries: seq<CellSummary>, i: nat)
    requires i < |summaries|
    requires forall j :: 0 <= j < i ==> summaries[j].gridId != summaries[i].gridId
    ensures Lookup(summaries, summaries[i].gridId) == Some(summaries[i])
  {
    if i > 0 {
      LookupFirst(summaries[1..], i - 1);
    }
  }

  /** The summary list holds, for each grid id, exactly the summary of its group. */
  lemma LookupSummaries(joined: seq<(int, Row)>, columns: set<string>, gridId: int)
    ensures Lookup(Summaries(joined, columns), gridId) ==
      if HasKey(joined, gridId) then Some(Summary(joined, columns, gridId)) else None
  {
    var s := Summaries(joined, columns);
    var ks := Keys(joined);
    if HasKey(joined, gridId) {
      var i :| 0 <= i < |ks| && ks[i] == gridId;
      LookupFirst(s, i);
    } else {
      forall x | x in s ensures x.gridId != gridId {
        var i :| 0 <= i < |s| && s[i] == x;
        assert ks[i] in ks;
      }
    }
  }

  // ---------------------------------------------------------------------
  // generate_map
  // ---------------------------------------------------------------------

  /**
   * The join, the per-cell summaries and the merge onto the grid. An empty
   * join leaves no `observations` column, so `grid.get("observations", 0)`
   * is the integer 0 and `.fillna` raises `AttributeError`.
   */
  function Aggregate(points: Table, cells: seq<Cell>, inside: (Point, Cell) -> bool): Result<seq<MapCell>, PyError>
  {
    var joined := Join(points.rows, cells, inside);
    if joined == [] then Err(AttributeError("'int' object has no attribute 'fillna'"))
    else if CommonName !in points.columns then Err(KeyError(CommonName))
    else Ok(Merge(cells, Summaries(joined, points.columns)))
  }

  /** The map fails exactly when no point falls in a cell, or when points do but carry no species column. */
  lemma AggregateErrors(points: Table, cells: seq<Cell>, inside: (Point, Cell) -> bool)
    ensures var a := Aggregate(points, cells, inside);
      && (a.Err? <==> Join(points.rows, cells, inside) == [] || CommonName !in points.columns)
      && (a.Err? && a.error.AttributeError? <==> Join(points.rows, cells, inside) == [])
      && (points.rows == [] ==> a.Err?)
  {
  }

  /**
   * `value_counts().head(5)` of field `f` over a group: at most five
   * distinct values of the group, by non-increasing frequency, as many as
   * there are up to five, and none left out that is more frequent than one
   * kept.
   */
  predicate TopList(top: seq<string>, group: seq<Row>, f: Field)
  {
    var vs := Present(Values(group, f));
    && |top| <= TopN && NoDuplicates(top)
    && ByFrequency(top, vs)
    && (forall v :: v in top ==> exists r :: r in group && f.Get(r) == Some(v))
    && |top| == (if |Distinct(vs)| <= TopN then |Distinct(vs)| else TopN)
    && forall v :: v in vs && v !in top ==>
         |top| == TopN && forall u :: u in top ==> Frequency(vs, u) >= Frequency(vs, v)
  }

  /** What the top lists of a group of rows say about it; an absent habitat or migratory column gives an empty list. */
  predicate ListFacts(top: Option<seq<string>>, habitat: Option<seq<string>>, migratory: Option<seq<string>>,
                      group: seq<Row>, columns: set<string>)
  {
    && (top.Some? ==> TopList(top.value, group, CommonNameField))
    && (habitat.Some? ==> if Habitat in columns then TopList(habitat.value, group, HabitatField) else habitat.value == [])
    && (migratory.Some? ==> if Migratory in columns then TopList(migratory.value, group, MigratoryField) else migratory.value == [])
  }

  lemma TopOfFacts(group: seq<Row>, columns: set<string>)
    requires CommonName in columns
    ensures ListFacts(Some(TopOf(group, columns, CommonNameField)), Some(TopOf(group, columns, HabitatField)),
                      Some(TopOf(group, columns, MigratoryField)), group, columns)
  {
    assert MigratoryField.Column() == Migratory && HabitatField.Column() == Habitat;
  }

  /** What the merge puts in one cell's row. */
  predicate CellFacts(m: MapCell, c: Cell, joined: seq<(int, Row)>, columns: set<string>)
  {
    && m.cell == c
    && m.observations == |Members(joined, c.gridId)|
    && (m.observations == 0 <==> m.topSpecies.None?)
    && (m.topSpecies.None? ==> m.habitat.None? && m.migratory.None?)
    && ListFacts(m.topSpecies, m.habitat, m.migratory, Members(joined, c.gridId), columns)
  }

  lemma MergeCellFacts(c: Cell, joined: seq<(int, Row)>, columns: set<string>)
    requires CommonName in columns
    ensures CellFacts(MergeCell(c, Summaries(joined, columns)), c, joined, columns)
  {
    LookupSummaries(joined, columns, c.gridId);
    var group := Members(joined, c.gridId);
    if HasKey(joined, c.gridId) {
      TopOfFacts(group, columns);
    }
  }

  /**
   * Every cell of the grid is kept, in grid order; its count is the number
   * of joined points carrying its id; a cell no point fell in gets 0 and no
   * top lists; each of its three lists is the `value_counts().head(5)` of
   * its column over the cell's own points (`TopList`), and the habitat and
   * migratory lists are empty when their column is absent.
   */
  lemma AggregateCells(points: Table, cells: seq<Cell>, inside: (Point, Cell) -> bool)
    ensures var a := Aggregate(points, cells, inside);
      a.Ok? ==>
        && |a.value| == |cells|
        && forall i :: 0 <= i < |cells| ==>
             CellFacts(a.value[i], cells[i], Join(points.rows, cells, inside), points.columns)
  {
    var joined := Join(points.rows, cells, inside);
    if Aggregate(points, cells, inside).Ok? {
      forall i | 0 <= i < |cells|
        ensures CellFacts(MergeCell(cells[i], Summaries(joined, points.columns)), cells[i], joined, points.columns)
      {
        MergeCellFacts(cells[i], joined, points.columns);
      }
    }
  }

  /**
   * The blank map the empty-frame branch announces: with no joined point,
   * every cell is kept with count 0 and no lists, as `fillna(0)` would give
   * had the column existed; otherwise the map as written.
   */
  function AggregateIntended(points: Table, cells: seq<Cell>, inside: (Point, Cell) -> bool): Result<seq<MapCell>, PyError>
  {
    if Join(points.rows, cells, inside) == [] then Ok(Merge(cells, []))
    else Aggregate(points, cells, inside)
  }

  /**
   * The intended map never fails for want of joined points: an empty frame,
   * or one whose points fall in no cell, gives the blank map; otherwise it
   * is the map as written, and every map it gives has the per-cell facts.
   */
  lemma BlankMapIntended(points: Table, cells: seq<Cell>, inside: (Point, Cell) -> bool)
    ensures var a := AggregateIntended(points, cells, inside);
      && (Join(points.rows, cells, inside) == [] ==>
            a.Ok? && |a.value| == |cells| &&
            forall i :: 0 <= i < |cells| ==> a.value[i] == MapCell(cells[i], 0, None, None, None))
      && (points.rows == [] ==> a.Ok?)
      && (Join(points.rows, cells, inside) != [] ==> a == Aggregate(points, cells, inside))
      && (a.Err? <==> Join(points.rows, cells, inside) != [] && CommonName !in points.columns)
      && (a.Ok? ==> |a.value| == |cells| && forall i :: 0 <= i < |cells| ==>
            CellFacts(a.value[i], cells[i], Join(points.rows, cells, inside), points.columns))
  {
    var joined := Join(points.rows, cells, inside);
    AggregateErrors(points, cells, inside);
    if joined == [] {
      forall i | 0 <= i < |cells|
        ensures CellFacts(MergeCell(cells[i], []), cells[i], joined, points.columns)
      {
        assert Members(joined, cells[i].gridId) == [];
      }
    } else {
      AggregateCells(points, cells, inside);
    }
  }

  /** The ids of the grid's cells, in grid order. */
  function Ids(cells: seq<Cell>): (ids: seq<int>)
    ensures |ids| == |cells| && forall i :: 0 <= i < |cells| ==> ids[i] == cells[i].gridId
  {
    seq(|cells|, i requires 0 <= i < |cells| => cells[i].gridId)
  }

  /** The total of the `observations` column. */
  function TotalObservations(m: seq<MapCell>): nat
  {
    if m == [] then 0 else TotalObservations(m[..|m| - 1]) + m[|m| - 1].observations
  }

  lemma {:induction false} TotalIsSumSizes(m: seq<MapCell>, cells: seq<Cell>, joined: seq<(int, Row)>)
    requires |m| == |cells|
    requires forall i :: 0 <= i < |cells| ==> m[i].observations == |Members(joined, cells[i].gridId)|
    ensures TotalObservations(m) == SumSizes(joined, Ids(cells))
  {
    if m != [] {
      var n := |m| - 1;
      TotalIsSumSizes(m[..n], cells[..n], joined);
      assert Ids(cells)[..n] == Ids(cells[..n]);
    }
  }

  /**
   * Conservation of counts: with distinct grid ids, the `observations`
   * column adds up to the number of joined rows; when no point lies within
   * two cells, that is every point except those inside no cell.
   */
  lemma AggregateConservation(points: Table, cells: seq<Cell>, inside: (Point, Cell) -> bool)
    requires NoDuplicates(Ids(cells))
    ensures var a := Aggregate(points, cells, inside);
      a.Ok? ==> TotalObservations(a.value) == |Join(points.rows, cells, inside)|
    ensures var a := Aggregate(points, cells, inside);
      a.Ok? && AtMostOneCell(points.rows, cells, inside) ==>
        TotalObservations(a.value) + Unassigned(points.rows, cells, inside) == |points.rows|
  {
    if Aggregate(points, cells, inside).Err? {
      return;
    }
    var joined := Join(points.rows, cells, inside);
    AggregateCells(points, cells, inside);
    TotalIsSumSizes(Aggregate(points, cells, inside).value, cells, joined);
    forall k | HasKey(joined, k) ensures k in Ids(cells) {
      JoinedIdsAreCellIds(points.rows, cells, inside, k);
      var c :| c in cells && c.gridId == k;
      var i :| 0 <= i < |cells| && cells[i] == c;
      assert Ids(cells)[i] == k;
    }
    Partition(joined, Ids(cells));
    if AtMostOneCell(points.rows, cells, inside) {
      JoinConservation(points.rows, cells, inside);
    }
  }

  /**
   * What `generate_map(time_period, mode)` computes before rendering:
   * `Ok(None)` when the CSV is missing (the map is skipped), the merged grid
   * otherwise.
   */
  function MapResult(files: map<string, Table>, grids: map<string, seq<Cell>>, timePeriod: string,
                     mode: string, inside: (Point, Cell) -> bool): Result<Option<seq<MapCell>>, PyError>
  {
    match SelectPaths(timePeriod, mode)
    case Err(e) => Err(e)
    case Ok(paths) =>
      if paths.csv !in files then Ok(None)
      else
        match Prepare(files[paths.csv], paths.csv)
        case Err(e) => Err(e)
        case Ok(points) =>
          if paths.gridFile !in grids then Err(GridReadError(paths.gridFile))
          else
            match Aggregate(points, grids[paths.gridFile], inside)
            case Err(e) => Err(e)
            case Ok(m) => Ok(Some(m))
  }

  /**
   * The outcomes by stage: a bad mode raises `ValueError` whatever the
   * store holds; a missing CSV skips the map; a non-empty frame without a
   * coordinate column raises `ValueError`; an empty frame gets past the
   * column check and then fails for want of joined points.
   */
  lemma MapOutcomes(files: map<string, Table>, grids: map<string, seq<Cell>>, timePeriod: string,
                    mode: string, inside: (Point, Cell) -> bool)
    ensures var r := MapResult(files, grids, timePeriod, mode, inside);
      && (mode != "monthly" && mode != "seasonal" ==> r.Err? && r.error.ValueError?)
      && (r == Ok(None) <==> SelectPaths(timePeriod, mode).Ok? && SelectPaths(timePeriod, mode).value.csv !in files)
      && (r.Ok? && r.value.Some? ==>
            var p := SelectPaths(timePeriod, mode).value;
            && p.csv in files && p.gridFile in grids
            && |files[p.csv].rows| > 0
            && Longitude in files[p.csv].columns && Latitude in files[p.csv].columns
            && |r.value.value| == |grids[p.gridFile]|)
      && (SelectPaths(timePeriod, mode).Ok? ==>
            var p := SelectPaths(timePeriod, mode).value;
            p.csv in files && |files[p.csv].rows| > 0
            && (Longitude !in files[p.csv].columns || Latitude !in files[p.csv].columns)
            ==> r.Err? && r.error.ValueError?)
      && (SelectPaths(timePeriod, mode).Ok? ==>
            var p := SelectPaths(timePeriod, mode).value;
            p.csv in files && |files[p.csv].rows| == 0 ==> r.Err?)
  {
    if SelectPaths(timePeriod, mode).Ok? {
      var p := SelectPaths(timePeriod, mode).value;
      if p.csv in files && Prepare(files[p.csv], p.csv).Ok? && p.gridFile in grids {
        AggregateErrors(Prepare(files[p.csv], p.csv).value, grids[p.gridFile], inside);
      }
    }
  }

  /** `generate_map` itself: the group loop of `Summarize`, then the merge. */
  method GenerateMap(files: map<string, Table>, grids: map<string, seq<Cell>>, timePeriod: string,
                     mode: string, inside: (Point, Cell) -> bool) returns (r: Result<Option<seq<MapCell>>, PyError>)
    ensures r == MapResult(files, grids, timePeriod, mode, inside)
  {
    var paths := SelectPaths(timePeriod, mode);
    if paths.Err? {
      return Err(paths.error);
    }
    var csvPath := paths.value.csv;
    if csvPath !in files {
      return Ok(None);
    }
    var df := Prepare(files[csvPath], csvPath);
    if df.Err? {
      return Err(df.error);
    }
    var points := df.value;
    if paths.value.gridFile !in grids {
      return Err(GridReadError(paths.value.gridFile));
    }
    var grid := grids[paths.value.gridFile];
    var joined := if |points.rows| > 0 then Join(points.rows, grid, inside) else [];
    var summaries := Summarize(joined, points.columns);
    if joined != [] {
      assert HasKey(joined, joined[0].0);
      assert joined[0].0 in Keys(joined);
    }
    if summaries.Err? {
      return Err(summaries.error);
    }
    if summaries.value == [] {
      return Err(AttributeError("'int' object has no attribute 'fillna'"));
    }
    return Ok(Some(Merge(grid, summaries.value)));
  }
}

=== FILE: generate_summary.dfy ===
/**
 * `generate_summary(month_year)`: the monthly summary page. Its figures are
 * those of `SummaryParts`; its emission loop sits one level too deep, inside
 * the extension loop, so it is modelled twice: as written, and as the
 * seasonal summary writes the same loop.
 */
module MonthSummary {
  import opened Wrappers
  import opened Errors
  import opened Tables
  import opened Files
  import opened SummaryParts

  /** `month summary/{month_year}.html`. */
  function MonthlySummaryPath(monthYear: string): string
  {
    "month summary/" + monthYear + ".html"
  }

  // ---------------------------------------------------------------------
  // The emission loop as written
  // ---------------------------------------------------------------------

  /** The index of the first extension from `k` on whose asset exists; 3 when none does. */
  function HitFrom(species: string, assets: set<string>, k: nat): (h: nat)
    ensures k <= |Extensions| ==> k <= h <= |Extensions|
    decreases |Extensions| - k
  {
    if k >= |Extensions| then k
    else if AssetName(species, Extensions[k]) in assets then k
    else HitFrom(species, assets, k + 1)
  }

  /** How many extensions the inner loop tries before it breaks. */
  function FirstHit(species: string, assets: set<string>): nat
  {
    HitFrom(species, assets, 0)
  }

  function Repeat(e: Entry, n: nat): (es: seq<Entry>)
    ensures |es| == n && forall x :: x in es ==> x == e
  {
    if n == 0 then [] else Repeat(e, n - 1) + [e]
  }

  /**
   * The entries the mis-indented loop emits: for each species, one
   * placeholder entry per extension tried before the first hit.
   */
  function EmittedAsWritten(top: seq<(string, nat)>, assets: set<string>): seq<Entry>
  {
    if top == [] then []
    else
      var n := |top| - 1;
      EmittedAsWritten(top[..n], assets) + Repeat(Entry(top[n].0, NotFound), FirstHit(top[n].0, assets))
  }

  /**
   * The nested loop of `generate_summary.py` as written: the placeholder
   * assignment and the `html +=` run once per extension that misses, and
   * the `break` on a hit skips them.
   */
  method EmitAsWritten(top: seq<(string, nat)>, assets: set<string>) returns (entries: seq<Entry>)
    ensures entries == EmittedAsWritten(top, assets)
  {
    entries := [];
    var i := 0;
    while i < |top|
      invariant 0 <= i <= |top|
      invariant entries == EmittedAsWritten(top[..i], assets)
    {
      var species := top[i].0;
      var img := NotFound;
      var found := false;
      ghost var before := entries;
      var k := 0;
      while k < |Extensions|
        invariant 0 <= k <= |Extensions|
        invariant !found
        invariant FirstHit(species, assets) == HitFrom(species, assets, k)
        invariant entries == before + Repeat(Entry(species, NotFound), k)
      {
        if AssetName(species, Extensions[k]) in assets {
          img := Picture(AssetName(species, Extensions[k]));
          found := true;
          break;
        }
        if !found {
          img := NotFound;
        }
        entries := entries + [Entry(species, img)];
        k := k + 1;
      }
      assert top[..i + 1][..i] == top[..i];
      i := i + 1;
    }
    assert top[..i] == top;
  }

  /** The number of extensions tried is where the search would have found its picture. */
  lemma FirstHitMeansFirstImage(species: string, assets: set<string>)
    ensures FirstHit(species, assets) <= |Extensions|
    ensures FirstHit(species, assets) == |Extensions| <==> FirstImage(species, assets) == NotFound
    ensures FirstHit(species, assets) < |Extensions| ==>
              FirstImage(species, assets) == Picture(AssetName(species, Extensions[FirstHit(species, assets)]))
  {
  }

  /** How many entries name `species`. */
  function EntryCount(es: seq<Entry>, species: string): nat
  {
    if es == [] then 0
    else EntryCount(es[..|es| - 1], species) + (if es[|es| - 1].species == species then 1 else 0)
  }

  /** How many rows of the top table name `species`. */
  function NameCount(top: seq<(string, nat)>, species: string): nat
  {
    if top == [] then 0
    else NameCount(top[..|top| - 1], species) + (if top[|top| - 1].0 == species then 1 else 0)
  }

  lemma {:induction false} EntryCountAppend(a: seq<Entry>, b: seq<Entry>, species: string)
    ensures EntryCount(a + b, species) == EntryCount(a, species) + EntryCount(b, species)
    decreases |b|
  {
    if b != [] {
      var n := |b| - 1;
      assert (a + b)[..|a + b| - 1] == a + b[..n];
      assert (a + b)[|a + b| - 1] == b[n];
      EntryCountAppend(a, b[..n], species);
    } else {
      assert a + b == a;
    }
  }

  lemma {:induction false} EntryCountRepeat(e: Entry, n: nat, species: string)
    ensures EntryCount(Repeat(e, n), species) == if e.species == species then n else 0
  {
    if n > 0 {
      assert Repeat(e, n)[..n - 1] == Repeat(e, n - 1);
      EntryCountRepeat(e, n - 1, species);
    }
  }

  lemma MulSucc(h: nat, c: nat)
    ensures h * (c + 1) == h * c + h
  {
  }

  /** As written, a species gets one entry per extension tried before its first asset, for each row naming it. */
  lemma {:induction false} AsWrittenCount(top: seq<(string, nat)>, assets: set<string>, species: string)
    ensures EntryCount(EmittedAsWritten(top, assets), species) == FirstHit(species, assets) * NameCount(top, species)
  {
    if top != [] {
      var n := |top| - 1;
      var before, more := EmittedAsWritten(top[..n], assets), Repeat(Entry(top[n].0, NotFound), FirstHit(top[n].0, assets));
      var h, c := FirstHit(species, assets), NameCount(top[..n], species);
      AsWrittenCount(top[..n], assets, species);
      EntryCountAppend(before, more, species);
      EntryCountRepeat(Entry(top[n].0, NotFound), FirstHit(top[n].0, assets), species);
      if top[n].0 == species {
        assert h * (c + 1) == h * c + h by { MulSucc(h, c); }
      }
    }
  }

  /**
   * As written, no picture is ever shown, and each species appears once per
   * extension missing before its first asset: not at all with a `.jpg`,
   * three times with no asset.
   */
  lemma {:induction false} AsWrittenEntries(top: seq<(string, nat)>, assets: set<string>)
    ensures forall e :: e in EmittedAsWritten(top, assets) ==> e.image == NotFound
    ensures forall e :: e in EmittedAsWritten(top, assets) ==> exists i :: 0 <= i < |top| && top[i].0 == e.species
    ensures |EmittedAsWritten(top, assets)| <= |Extensions| * |top|
    ensures forall species :: NameCount(top, species) <= 1 ==>
              EntryCount(EmittedAsWritten(top, assets), species) == FirstHit(species, assets) * NameCount(top, species)
              && EntryCount(EmittedAsWritten(top, assets), species) <= |Extensions|
  {
    forall species | NameCount(top, species) <= 1
      ensures EntryCount(EmittedAsWritten(top, assets), species) == FirstHit(species, assets) * NameCount(top, species)
      ensures EntryCount(EmittedAsWritten(top, assets), species) <= |Extensions|
    {
      AsWrittenCount(top, assets, species);
      FirstHitMeansFirstImage(species, assets);
    }
    if top != [] {
      var n := |top| - 1;
      AsWrittenEntries(top[..n], assets);
      var tail := Repeat(Entry(top[n].0, NotFound), FirstHit(top[n].0, assets));
      forall e | e in EmittedAsWritten(top, assets)
        ensures exists i :: 0 <= i < |top| && top[i].0 == e.species
      {
        if e in EmittedAsWritten(top[..n], assets) {
          var i :| 0 <= i < n && top[..n][i].0 == e.species;
          assert top[i].0 == e.species;
        } else {
          assert e in tail;
        }
      }
    }
  }

  /** A species with a `.jpg` asset vanishes from the page as written. */
  lemma AsWrittenDropsJpg()
    ensures EmittedAsWritten([("House Crow", 12)], {"House Crow.jpg"}) == []
    ensures Entries([("House Crow", 12)], {"House Crow.jpg"}) == [Entry("House Crow", Picture("House Crow.jpg"))]
  {
    assert AssetName("House Crow", Extensions[0]) == "House Crow.jpg";
    assert [("House Crow", 12)][..0] == [];
  }

  /** A species with no asset is shown three times as written, once as intended. */
  lemma AsWrittenTriplesMissing()
    ensures EmittedAsWritten([("House Crow", 12)], {}) == Repeat(Entry("House Crow", NotFound), 3)
    ensures Entries([("House Crow", 12)], {}) == [Entry("House Crow", NotFound)]
  {
    assert [("House Crow", 12)][..0] == [];
  }

  // ---------------------------------------------------------------------
  // The page
  // ---------------------------------------------------------------------

  /** The page a summary writes, with the given entries; `None` when the CSV is missing. */
  function PageWith(files: map<string, Table>, monthYear: string,
                    entries: Stats -> seq<Entry>): Result<Option<Page>, PyError>
  {
    var csv := MonthlyCsv(monthYear);
    if csv !in files then Ok(None)
    else
      match StatsOf(files[csv])
      case Err(e) => Err(e)
      case Ok(st) => Ok(Some(Page(MonthlySummaryPath(monthYear), st, entries(st))))
  }

  /** The page as the code writes it. */
  function MonthlySummaryAsWritten(files: map<string, Table>, assets: set<string>, monthYear: string): Result<Option<Page>, PyError>
  {
    PageWith(files, monthYear, (st: Stats) => EmittedAsWritten(st.top, assets))
  }

  /** The page with the emission loop at its intended depth: each top species once, with its picture. */
  function MonthlySummary(files: map<string, Table>, assets: set<string>, monthYear: string): Result<Option<Page>, PyError>
  {
    PageWith(files, monthYear, (st: Stats) => Entries(st.top, assets))
  }

  /** `generate_summary(month_year)` as written. */
  method GenerateSummary(files: map<string, Table>, assets: set<string>, monthYear: string)
    returns (r: Result<Option<Page>, PyError>)
    ensures r == MonthlySummaryAsWritten(files, assets, monthYear)
  {
    var csvPath := MonthlyCsv(monthYear);
    if csvPath !in files {
      return Ok(None);
    }
    var stats := StatsOf(files[csvPath]);
    if stats.Err? {
      return Err(stats.error);
    }
    var entries := EmitAsWritten(stats.value.top, assets);
    return Ok(Some(Page(MonthlySummaryPath(monthYear), stats.value, entries)));
  }

  /**
   * The page as written differs from the intended one only in its entries:
   * both skip, fail and succeed together, with the same path and figures,
   * and the entries as written are the mis-indented loop's.
   */
  lemma AsWrittenSameFigures(files: map<string, Table>, assets: set<string>, monthYear: string)
    ensures var w, r := MonthlySummaryAsWritten(files, assets, monthYear), MonthlySummary(files, assets, monthYear);
      && (w.Err? <==> r.Err?)
      && (w.Err? ==> w.error == r.error)
      && (w.Ok? ==> (w.value.Some? <==> r.value.Some?))
      && (w.Ok? && w.value.Some? ==>
            && w.value.value.path == r.value.value.path
            && w.value.value.stats == r.value.value.stats
            && w.value.value.entries == EmittedAsWritten(w.value.value.stats.top, assets))
  {
  }

  /**
   * The monthly page: skipped when the CSV is missing; `KeyError` without a
   * `scientificName` column; otherwise the row count (an empty batch gives
   * 0, it is not skipped), the number of distinct scientific names, at most
   * three top species and, as intended, one section per top species in
   * order, with its first existing picture.
   */
  lemma MonthlySummaryFacts(files: map<string, Table>, assets: set<string>, monthYear: string)
    ensures var r := MonthlySummary(files, assets, monthYear);
      && (r == Ok(None) <==> MonthlyCsv(monthYear) !in files)
      && (r.Err? <==> MonthlyCsv(monthYear) in files && ScientificName !in files[MonthlyCsv(monthYear)].columns)
      && (r.Err? ==> r.error == KeyError(ScientificName))
      && (r.Ok? && r.value.Some? ==>
            var t := files[MonthlyCsv(monthYear)];
            var p := r.value.value;
            && p.path == MonthlySummaryPath(monthYear)
            && p.stats.total == |t.rows|
            && p.stats.richness == |set o | o in Values(t.rows, ScientificNameField) && o.Some? :: o.value|
            && |p.stats.top| <= Top3Size
            && |p.entries| == |p.stats.top|
            && forall i :: 0 <= i < |p.entries| ==>
                 p.entries[i] == Entry(p.stats.top[i].0, FirstImage(p.stats.top[i].0, assets)))
  {
  }
}

=== FILE: generate_summary_seasonal.dfy ===
/**
 * `generate_seasonal_summary(season_year)`: the seasonal summary page, read
 * from a seasonal artifact. Unlike the monthly page it skips an empty
 * batch, and its emission loop shows each top species once.
 */
module SeasonSummary {
  import opened Wrappers
  import opened Errors
  import opened Tables
  import opened Files
  import opened SummaryParts

  /** `new season summary/{season_year}.html`. */
  function SeasonalSummaryPath(seasonYear: string): string
  {
    "new season summary/" + seasonYear + ".html"
  }

  /** The page `generate_seasonal_summary(season_year)` writes; `None` when it returns early. */
  function SeasonalSummary(files: map<string, Table>, assets: set<string>, seasonYear: string): Result<Option<Page>, PyError>
  {
    var csv := NewSeasonsCsv(seasonYear);
    if csv !in files then Ok(None)
    else if |files[csv].rows| == 0 then Ok(None)
    else
      match StatsOf(files[csv])
      case Err(e) => Err(e)
      case Ok(st) => Ok(Some(Page(SeasonalSummaryPath(seasonYear), st, Entries(st.top, assets))))
  }

  method GenerateSeasonalSummary(files: map<string, Table>, assets: set<string>, seasonYear: string)
    returns (r: Result<Option<Page>, PyError>)
    ensures r == SeasonalSummary(files, assets, seasonYear)
  {
    var csvPath := NewSeasonsCsv(seasonYear);
    if csvPath !in files {
      return Ok(None);
    }
    var df := files[csvPath];
    if |df.rows| == 0 {
      return Ok(None);
    }
    var stats := StatsOf(df);
    if stats.Err? {
      return Err(stats.error);
    }
    var entries := Emit(stats.value.top, assets);
    assert entries == Entries(stats.value.top, assets);
    return Ok(Some(Page(SeasonalSummaryPath(seasonYear), stats.value, entries)));
  }

  /**
   * The seasonal page: skipped when the artifact is missing or has no rows;
   * `KeyError` without a `scientificName` column; otherwise a positive row
   * count, the number of distinct scientific names, at most three top
   * species, and one section per top species in order whose picture is the
   * first existing asset among jpg, png, jpeg.
   */
  lemma SeasonalSummaryFacts(files: map<string, Table>, assets: set<string>, seasonYear: string)
    ensures var r := SeasonalSummary(files, assets, seasonYear);
      var csv := NewSeasonsCsv(seasonYear);
      && (r == Ok(None) <==> csv !in files || |files[csv].rows| == 0)
      && (r.Err? <==> csv in files && |files[csv].rows| > 0 && ScientificName !in files[csv].columns)
      && (r.Ok? && r.value.Some? ==>
            var t := files[csv];
            var p := r.value.value;
            && p.path == SeasonalSummaryPath(seasonYear)
            && p.stats.total == |t.rows| > 0
            && p.stats.richness == |set o | o in Values(t.rows, ScientificNameField) && o.Some? :: o.value|
            && |p.stats.top| <= Top3Size
            && |p.entries| == |p.stats.top|
            && forall i :: 0 <= i < |p.entries| ==>
                 p.entries[i] == Entry(p.stats.top[i].0, FirstImage(p.stats.top[i].0, assets)))
  {
  }

  /** The two summaries write to different directories, whatever the period names. */
  lemma SummaryPathsDisjoint(a: string, b: string)
    ensures SeasonalSummaryPath(a) != "month summary/" + b + ".html"
  {
    assert SeasonalSummaryPath(a)[0] == 'n';
  }
}

=== FILE: grouping.dfy ===
/**
 * Grouping a sequence of (key, value) pairs the way the scripts do with a
 * `dict` of lists filled in a loop (`groups.setdefault(key, []).append(v)`)
 * and with `DataFrame.groupby`: keys in order of first appearance, each key's
 * values in their original order.
 */
module Grouping {
  import opened Tables

  ghost predicate HasKey<K, V>(pairs: seq<(K, V)>, k: K)
  {
    exists i :: 0 <= i < |pairs| && pairs[i].0 == k
  }

  /** The keys of `pairs`, each once, in order of first appearance. */
  function Keys<K(==, !new), V>(pairs: seq<(K, V)>): (ks: seq<K>)
    ensures NoDuplicates(ks)
    ensures forall k :: k in ks <==> HasKey(pairs, k)
  {
    if pairs == [] then []
    else
      var n := |pairs| - 1;
      var init := Keys(pairs[..n]);
      assert forall k :: HasKey(pairs, k) <==> HasKey(pairs[..n], k) || pairs[n].0 == k;
      if pairs[n].0 in init then init
      else
        assert forall i :: 0 <= i < |init| ==> init[i] in init;
        init + [pairs[n].0]
  }

  /** The values paired with `k`, in their original order. */
  function Members<K(==), V>(pairs: seq<(K, V)>, k: K): (vs: seq<V>)
    ensures |vs| <= |pairs|
    ensures |vs| > 0 <==> HasKey(pairs, k)
    ensures forall i :: 0 <= i < |vs| ==> exists j :: 0 <= j < |pairs| && pairs[j].0 == k && pairs[j].1 == vs[i]
  {
    if pairs == [] then []
    else
      var n := |pairs| - 1;
      assert HasKey(pairs, k) <==> HasKey(pairs[..n], k) || pairs[n].0 == k;
      Members(pairs[..n], k) + if pairs[n].0 == k then [pairs[n].1] else []
  }

  /** A value listed under `k` comes from a pair `(k, v)`. */
  lemma MemberFrom<K, V>(pairs: seq<(K, V)>, k: K, v: V)
    requires v in Members(pairs, k)
    ensures exists j :: 0 <= j < |pairs| && pairs[j] == (k, v)
  {
    var vs := Members(pairs, k);
    var i :| 0 <= i < |vs| && vs[i] == v;
    var j :| 0 <= j < |pairs| && pairs[j].0 == k && pairs[j].1 == vs[i];
    assert pairs[j] == (k, v);
  }

  /** The value of every pair is listed under its key. */
  lemma {:induction false} MemberOf<K, V>(pairs: seq<(K, V)>, j: nat)
    requires j < |pairs|
    ensures pairs[j].1 in Members(pairs, pairs[j].0)
  {
    var n := |pairs| - 1;
    if j < n {
      MemberOf(pairs[..n], j);
      assert pairs[..n][j] == pairs[j];
    }
  }

  /** The dictionary the loop builds: each key mapped to its values. */
  function Groups<K(==, !new), V>(pairs: seq<(K, V)>): (g: map<K, seq<V>>)
    ensures g.Keys == set k | k in Keys(pairs)
  {
    map k | k in Keys(pairs) :: Members(pairs, k)
  }

  /** Appending one pair appends its value to its key's list and leaves the other lists alone. */
  lemma MembersAppend<K, V>(pairs: seq<(K, V)>, k: K, v: V, j: K)
    ensures Members(pairs + [(k, v)], j) == Members(pairs, j) + if j == k then [v] else []
  {
    var ps := pairs + [(k, v)];
    assert ps[..|ps| - 1] == pairs;
  }

  /** Appending one pair adds its key at the end when the key is new. */
  lemma KeysAppend<K(!new), V>(pairs: seq<(K, V)>, k: K, v: V)
    ensures Keys(pairs + [(k, v)]) == if k in Keys(pairs) then Keys(pairs) else Keys(pairs) + [k]
  {
    var ps := pairs + [(k, v)];
    assert ps[..|ps| - 1] == pairs;
  }

  /**
   * Appending one pair appends its value to its key's list, starting a new
   * list for a new key: the step of the scripts' grouping loops.
   */
  lemma GroupsAppend<K(!new), V>(pairs: seq<(K, V)>, k: K, v: V)
    ensures Keys(pairs + [(k, v)]) == if k in Keys(pairs) then Keys(pairs) else Keys(pairs) + [k]
    ensures Groups(pairs + [(k, v)]) ==
              Groups(pairs)[k := (if k in Groups(pairs) then Groups(pairs)[k] else []) + [v]]
  {
    KeysAppend(pairs, k, v);
    var g, g' := Groups(pairs), Groups(pairs + [(k, v)]);
    var h := g[k := (if k in g then g[k] else []) + [v]];
    assert g'.Keys == h.Keys;
    forall j | j in g' ensures g'[j] == h[j] {
      MembersAppend(pairs, k, v, j);
      if j == k && k !in g {
        assert !HasKey(pairs, k);
      }
    }
  }

  /**
   * The loops' two-step update of a dictionary of lists (start an empty
   * list for a new key, then append) together with the record of insertion
   * order is one `GroupsAppend` step.
   */
  lemma InsertStep<K(!new), V>(pairs: seq<(K, V)>, keys: seq<K>, groups: map<K, seq<V>>, k: K, v: V)
    requires keys == Keys(pairs) && groups == Groups(pairs)
    ensures var g := if k !in groups then groups[k := []] else groups;
      && (if k !in groups then keys + [k] else keys) == Keys(pairs + [(k, v)])
      && g[k := g[k] + [v]] == Groups(pairs + [(k, v)])
  {
    GroupsAppend(pairs, k, v);
  }

  /** The total size of the groups of the keys `ks`. */
  function SumSizes<K(==), V>(pairs: seq<(K, V)>, ks: seq<K>): nat
  {
    if ks == [] then 0 else SumSizes(pairs, ks[..|ks| - 1]) + |Members(pairs, ks[|ks| - 1])|
  }

  lemma {:induction false} SumSizesAppendPair<K(!new), V>(pairs: seq<(K, V)>, k: K, v: V, ks: seq<K>)
    requires NoDuplicates(ks)
    ensures SumSizes(pairs + [(k, v)], ks) == SumSizes(pairs, ks) + if k in ks then 1 else 0
  {
    if ks != [] {
      var n := |ks| - 1;
      assert ks == ks[..n] + [ks[n]];
      assert NoDuplicates(ks[..n]);
      SumSizesAppendPair(pairs, k, v, ks[..n]);
      MembersAppend(pairs, k, v, ks[n]);
      assert k in ks <==> k in ks[..n] || k == ks[n];
      assert ks[n] !in ks[..n];
    }
  }

  lemma {:induction false} SumSizesNone<K(!new), V>(ks: seq<K>)
    ensures SumSizes<K, V>([], ks) == 0
  {
    if ks != [] {
      SumSizesNone<K, V>(ks[..|ks| - 1]);
    }
  }

  /**
   * Every pair lands in exactly one group: summing the group sizes over any
   * duplicate-free list of keys that covers every key gives the number of pairs.
   */
  lemma {:induction false} Partition<K(!new), V>(pairs: seq<(K, V)>, ks: seq<K>)
    requires NoDuplicates(ks)
    requires forall k :: HasKey(pairs, k) ==> k in ks
    ensures SumSizes(pairs, ks) == |pairs|
  {
    if pairs == [] {
      SumSizesNone<K, V>(ks);
    } else {
      var n := |pairs| - 1;
      assert pairs == pairs[..n] + [pairs[n]];
      assert HasKey(pairs, pairs[n].0);
      forall k | HasKey(pairs[..n], k) ensures k in ks {
        var i :| 0 <= i < n && pairs[..n][i].0 == k;
        assert pairs[i].0 == k;
      }
      Partition(pairs[..n], ks);
      SumSizesAppendPair(pairs[..n], pairs[n].0, pairs[n].1, ks);
    }
  }

  /** The groups of the keys in first-appearance order hold every pair exactly once. */
  lemma KeysPartition<K(!new), V>(pairs: seq<(K, V)>)
    ensures SumSizes(pairs, Keys(pairs)) == |pairs|
  {
    Partition(pairs, Keys(pairs));
  }
}

=== FILE: produce_seasons.dfy ===
/**
 * produce_seasons.py: parses the monthly file names, groups their months by
 * (season, season-year), and for every key whose months are all present
 * builds the seasonal artifact, its map and its summary.
 */
module ProduceSeasons {
  import opened Wrappers
  import opened Errors
  import opened Text
  import opened Tables
  import opened Grouping
  import opened Files
  import opened SeasonsData
  import opened GridMap
  import opened SummaryParts
  import opened SeasonSummary

  /** `REQUIRED_MONTHS`. */
  function RequiredMonths(s: Season): nat
  {
    match s
    case Summer => 3
    case Monsoon => 4
    case Winter => 5
  }

  /** The required counts are the sizes of the seasons' month sets. */
  lemma RequiredIsSeasonSize(s: Season)
    ensures RequiredMonths(s) == |SeasonMonths(s)|
  {
    SeasonsPartitionYear();
  }

  /** A (season, season-year) key. */
  type Key = (Season, int)

  /** What `parse_month_file` returns: season, season-year and month number. */
  datatype Parsed = Parsed(season: Season, seasonYear: int, month: int)

  /**
   * `parse_month_file(file)`: the unpacking of `split("_")`, `strptime`
   * and `int` raise `ValueError` on a stem that is not `Month_Year`.
   */
  function ParseMonthFile(stem: string): (r: Result<Parsed, PyError>)
    ensures r.Ok? <==> ParseStem(stem).Some?
    ensures r.Ok? ==>
      && 1 <= r.value.month <= 12
      && r.value.season == GetSeason(r.value.month)
      && r.value.month in SeasonMonths(r.value.season)
      && r.value.month == ParseStem(stem).value.0
      && r.value.seasonYear == GetSeasonYear(ParseStem(stem).value.1, r.value.month)
  {
    match ParseStem(stem)
    case None => Err(ValueError(stem))
    case Some((month, year)) => Ok(Parsed(GetSeason(month), GetSeasonYear(year, month), month))
  }

  /** The names the fetch step gives monthly files parse back to their month's key. */
  lemma ParseMonthFileRoundTrip(month: int, year: int)
    requires 1 <= month <= 12
    ensures ParseMonthFile(MonthName(month) + "_" + DecimalString(year)) ==
              Ok(Parsed(GetSeason(month), GetSeasonYear(year, month), month))
  {
    ParseStemOfMonthName(month, year);
  }

  /** `int()` ignores whitespace after the year: `March_2025 ` is still Summer 2025. */
  lemma ParseMarchSpaced()
    ensures ParseMonthFile("March_2025 ") == Ok(Parsed(Summer, 2025, 3))
  {
    ParseStemLooseYear();
  }

  /** The docstring's example: March 2025 is Summer 2025. */
  lemma ParseMarchExample()
    ensures ParseMonthFile("March_2025") == Ok(Parsed(Summer, 2025, 3))
  {
    assert DecimalString(2025) == "2025";
    ParseMonthFileRoundTrip(3, 2025);
    assert MonthName(3) + "_" + DecimalString(2025) == "March_2025";
  }

  /** January 2026 is filed under Winter 2025. */
  lemma ParseJanuaryExample()
    ensures ParseMonthFile("January_2026") == Ok(Parsed(Winter, 2025, 1))
  {
    var stem := MonthName(1) + "_" + DecimalString(2026);
    assert DecimalString(2026) == "2026";
    assert stem == "January_2026";
    ParseMonthFileRoundTrip(1, 2026);
    assert ParseMonthFile(stem) == Ok(Parsed(Winter, 2025, 1));
  }

  /** A stem without exactly one `_`, or whose first part is no month name, raises `ValueError`. */
  lemma ParseMonthFileRejects(stem: string)
    ensures |Split(stem, '_')| != 2 ==> ParseMonthFile(stem).Err?
    ensures |Split(stem, '_')| == 2 && ParseMonthName(Split(stem, '_')[0]).None? ==> ParseMonthFile(stem).Err?
    ensures ParseMonthFile(stem).Err? ==> ParseMonthFile(stem).error == ValueError(stem)
  {
  }

  // ---------------------------------------------------------------------
  // season_groups
  // ---------------------------------------------------------------------

  /** The (key, month) pairs of the listing, in listing order; the first stem that does not parse raises. */
  function KeyedMonths(listing: seq<string>): (r: Result<seq<(Key, int)>, PyError>)
    ensures r.Ok? ==> |r.value| == |listing|
  {
    if listing == [] then Ok([])
    else
      var n := |listing| - 1;
      match KeyedMonths(listing[..n])
      case Err(e) => Err(e)
      case Ok(ps) =>
        match ParseMonthFile(listing[n])
        case Err(e) => Err(e)
        case Ok(p) => Ok(ps + [((p.season, p.seasonYear), p.month)])
  }

  lemma KeyedMonthsStep(listing: seq<string>, i: nat, ps: seq<(Key, int)>)
    requires i < |listing|
    requires KeyedMonths(listing[..i]) == Ok(ps)
    ensures ParseMonthFile(listing[i]).Err? ==> KeyedMonths(listing[..i + 1]) == Err(ParseMonthFile(listing[i]).error)
    ensures ParseMonthFile(listing[i]).Ok? ==>
      var p := ParseMonthFile(listing[i]).value;
      KeyedMonths(listing[..i + 1]) == Ok(ps + [((p.season, p.seasonYear), p.month)])
  {
    assert listing[..i + 1][..i] == listing[..i];
  }

  /** Each pair is the parse of the stem at the same position. */
  lemma {:induction false} KeyedMonthsAt(listing: seq<string>, i: nat)
    requires KeyedMonths(listing).Ok? && i < |listing|
    ensures var p := ParseMonthFile(listing[i]);
      p.Ok? && KeyedMonths(listing).value[i] == ((p.value.season, p.value.seasonYear), p.value.month)
  {
    var n := |listing| - 1;
    if i < n {
      KeyedMonthsAt(listing[..n], i);
      assert listing[..n][i] == listing[i];
    }
  }

  lemma {:induction false} KeyedMonthsErrorPersists(listing: seq<string>, k: nat)
    requires k <= |listing|
    requires KeyedMonths(listing[..k]).Err?
    ensures KeyedMonths(listing) == KeyedMonths(listing[..k])
    decreases |listing| - k
  {
    if k < |listing| {
      assert listing[..k + 1][..k] == listing[..k];
      KeyedMonthsErrorPersists(listing, k + 1);
    } else {
      assert listing[..k] == listing;
    }
  }

  /** The dictionary `season_groups` and the order its keys were inserted in. */
  datatype SeasonGroups = SeasonGroups(keys: seq<Key>, months: map<Key, seq<int>>)

  /** The first loop of `main`: appends each file's month to its key's list. */
  method GroupMonths(listing: seq<string>) returns (r: Result<SeasonGroups, PyError>)
    ensures r.Err? <==> KeyedMonths(listing).Err?
    ensures r.Err? ==> r.error == KeyedMonths(listing).error
    ensures r.Ok? ==> r.value.keys == Keys(KeyedMonths(listing).value)
    ensures r.Ok? ==> r.value.months == Groups(KeyedMonths(listing).value)
  {
    var keys: seq<Key> := [];
    var groups: map<Key, seq<int>> := map[];
    ghost var ps: seq<(Key, int)> := [];
    var i := 0;
    while i < |listing|
      invariant 0 <= i <= |listing|
      invariant KeyedMonths(listing[..i]) == Ok(ps)
      invariant keys == Keys(ps) && groups == Groups(ps)
    {
      var step;
      step, ps := GroupOne(listing, i, ps, keys, groups);
      if step.Err? {
        return Err(step.error);
      }
      keys, groups := step.value.keys, step.value.months;
      i := i + 1;
    }
    assert listing[..i] == listing;
    r := Ok(SeasonGroups(keys, groups));
  }

  /**
   * The body of the first loop: parse the file, create its key's list when
   * missing, then append its month; an unparsable file ends the run.
   */
  method GroupOne(listing: seq<string>, i: nat, ghost ps: seq<(Key, int)>, keys: seq<Key>, groups: map<Key, seq<int>>)
    returns (r: Result<SeasonGroups, PyError>, ghost ps': seq<(Key, int)>)
    requires i < |listing|
    requires KeyedMonths(listing[..i]) == Ok(ps)
    requires keys == Keys(ps) && groups == Groups(ps)
    ensures r.Err? ==> KeyedMonths(listing) == Err(r.error)
    ensures r.Ok? ==> KeyedMonths(listing[..i + 1]) == Ok(ps') && r.value == SeasonGroups(Keys(ps'), Groups(ps'))
  {
    var parsed := ParseMonthFile(listing[i]);
    KeyedMonthsStep(listing, i, ps);
    if parsed.Err? {
      KeyedMonthsErrorPersists(listing, i + 1);
      return Err(parsed.error), ps;
    }
    var key, month := (parsed.value.season, parsed.value.seasonYear), parsed.value.month;
    InsertStep(ps, keys, groups, key, month);
    var keys', groups' := keys, groups;
    if key !in groups' {
      keys' := keys' + [key];
      groups' := groups'[key := []];
    }
    groups' := groups'[key := groups'[key] + [month]];
    ps' := ps + [(key, month)];
    r := Ok(SeasonGroups(keys', groups'));
  }

  /** Every file lands in exactly one group: the group sizes add up to the number of files. */
  lemma GroupsPartitionFiles(listing: seq<string>)
    requires KeyedMonths(listing).Ok?
    ensures var ps := KeyedMonths(listing).value;
      SumSizes(ps, Keys(ps)) == |listing|
  {
    KeysPartition(KeyedMonths(listing).value);
  }

  /** The parse succeeds on every stem exactly when `KeyedMonths` does. */
  lemma {:induction false} KeyedMonthsOk(listing: seq<string>)
    ensures KeyedMonths(listing).Ok? <==> forall i :: 0 <= i < |listing| ==> ParseMonthFile(listing[i]).Ok?
  {
    if KeyedMonths(listing).Ok? {
      forall i | 0 <= i < |listing| ensures ParseMonthFile(listing[i]).Ok? {
        KeyedMonthsAt(listing, i);
      }
    } else if forall i :: 0 <= i < |listing| ==> ParseMonthFile(listing[i]).Ok? {
      AllParseOk(listing);
    }
  }

  lemma {:induction false} AllParseOk(listing: seq<string>)
    requires forall i :: 0 <= i < |listing| ==> ParseMonthFile(listing[i]).Ok?
    ensures KeyedMonths(listing).Ok?
  {
    if listing != [] {
      var n := |listing| - 1;
      var init := listing[..n];
      assert forall i :: 0 <= i < n ==> init[i] == listing[i];
      AllParseOk(init);
      assert ParseMonthFile(listing[n]).Ok?;
    }
  }

  /**
   * With the listing that `glob` gives, the grouping describes the store:
   * it succeeds exactly when every monthly CSV's name parses, and a month
   * is listed under a key exactly when some monthly CSV of the store parses
   * to that key and month.
   */
  lemma GroupsFromStore(files: map<string, Table>, listing: seq<string>)
    requires Globbed(files, listing)
    ensures KeyedMonths(listing).Ok? <==>
              forall s :: MonthlyCsv(s) in files && '/' !in s ==> ParseMonthFile(s).Ok?
    ensures KeyedMonths(listing).Ok? ==>
      var ps := KeyedMonths(listing).value;
      forall k: Key, m :: (k in Groups(ps) && m in Groups(ps)[k]) <==>
        exists s :: MonthlyCsv(s) in files && '/' !in s && ParseMonthFile(s) == Ok(Parsed(k.0, k.1, m))
  {
    KeyedMonthsOk(listing);
    if KeyedMonths(listing).Ok? {
      var ps := KeyedMonths(listing).value;
      forall k: Key, m | k in Groups(ps) && m in Groups(ps)[k]
        ensures exists s :: MonthlyCsv(s) in files && '/' !in s && ParseMonthFile(s) == Ok(Parsed(k.0, k.1, m))
      {
        MemberFrom(ps, k, m);
        var j :| 0 <= j < |ps| && ps[j] == (k, m);
        KeyedMonthsAt(listing, j);
        assert listing[j] in listing;
        var p := ParseMonthFile(listing[j]).value;
        assert p == Parsed(k.0, k.1, m);
      }
      forall k: Key, m | exists s :: MonthlyCsv(s) in files && '/' !in s && ParseMonthFile(s) == Ok(Parsed(k.0, k.1, m))
        ensures k in Groups(ps) && m in Groups(ps)[k]
      {
        var s :| MonthlyCsv(s) in files && '/' !in s && ParseMonthFile(s) == Ok(Parsed(k.0, k.1, m));
        var j :| 0 <= j < |listing| && listing[j] == s;
        KeyedMonthsAt(listing, j);
        assert ps[j] == (k, m);
        MemberOf(ps, j);
        assert HasKey(ps, k);
      }
    }
  }

  /**
   * A run leaves the monthly files alone, so the listing `build_season`
   * globs again during `main` is the one `main` started from.
   */
  lemma GlobbedKept(before: map<string, Table>, after: map<string, Table>, listing: seq<string>)
    requires Globbed(before, listing) && OnlyAdds(before, after)
    ensures Globbed(after, listing)
  {
    forall s | MonthlyCsv(s) in after && '/' !in s
      ensures s in listing
    {
      PathShapes(s);
    }
  }

  /** A group's months are months of its key's season, and its key is the key of each. */
  lemma GroupMonthsBelong(listing: seq<string>, key: Key, m: int)
    requires KeyedMonths(listing).Ok?
    requires m in Members(KeyedMonths(listing).value, key)
    ensures m in SeasonMonths(key.0)
    ensures exists i :: 0 <= i < |listing| && ParseStem(listing[i]).Some? && ParseStem(listing[i]).value.0 == m
              && GetSeasonYear(ParseStem(listing[i]).value.1, m) == key.1
  {
    var ps := KeyedMonths(listing).value;
    MemberFrom(ps, key, m);
    var j :| 0 <= j < |ps| && ps[j] == (key, m);
    KeyedMonthsAt(listing, j);
    var r := ParseMonthFile(listing[j]);
    assert r.Ok? && r.value.month == m && (r.value.season, r.value.seasonYear) == key;
  }

  // ---------------------------------------------------------------------
  // readiness
  // ---------------------------------------------------------------------

  /** `len(set(months)) == REQUIRED_MONTHS[season]`. */
  predicate Ready(season: Season, months: seq<int>)
  {
    |set m | m in months| == RequiredMonths(season)
  }

  /**
   * When a group's months all belong to its season, repeats do not count,
   * the count never exceeds the requirement, and the key is ready exactly
   * when every month of the season is present.
   */
  lemma ReadyMeansComplete(season: Season, months: seq<int>)
    requires forall m :: m in months ==> m in SeasonMonths(season)
    ensures |set m | m in months| <= RequiredMonths(season)
    ensures Ready(season, months) <==> (set m | m in months) == SeasonMonths(season)
  {
    RequiredIsSeasonSize(season);
    var present := set m | m in months;
    var all := SeasonMonths(season);
    assert forall i :: 0 <= i < |months| ==> months[i] in months;
    SetOfSeqCard(months, all);
    if |present| == |all| {
      forall x | x in all ensures x in present {
        if x !in present {
          SetOfSeqCard(months, all - {x});
        }
      }
    }
  }


  /** Summer 2025 is ready with March, April and May, and not with March, March and April. */
  lemma ReadyExamples()
    ensures Ready(Summer, [3, 5, 4])
    ensures !Ready(Summer, [3, 3, 4])
  {
    assert (set m | m in [3, 5, 4]) == {3, 4, 5};
    assert (set m | m in [3, 3, 4]) == {3, 4};
  }

  // ---------------------------------------------------------------------
  // the per-key pipeline
  // ---------------------------------------------------------------------

  /**
   * One line of the run: a full key with what its build, map and summary
   * produced, or a skipped key with its (present/required) counts.
   */
  datatype Report =
    | Full(season: Season, year: int, build: BuildStatus, grid: Option<seq<MapCell>>, summary: Option<Page>)
    | Partial(season: Season, year: int, present: nat, required: nat)

  /** The store after a run and what the run reported, or the exception that ended it. */
  datatype Run = Run(files: map<string, Table>, outcome: Result<seq<Report>, PyError>)

  /** The context a run reads: the grids, the assets, the `within` predicate. */
  datatype Env = Env(grids: map<string, seq<Cell>>, assets: set<string>, inside: (Point, Cell) -> bool)

  /** One key of the completeness loop. */
  function Step(files: map<string, Table>, listing: seq<string>, env: Env, key: Key, months: seq<int>): (run: Run)
    requires Listed(files, listing)
    ensures Listed(run.files, listing)
  {
    var (season, year) := key;
    if !Ready(season, months) then
      Run(files, Ok([Partial(season, year, |set m | m in months|, RequiredMonths(season))]))
    else
      BuildSeasonFrame(files, listing, season, year);
      var b := BuildSeasonSpec(files, listing, season, year);
      var name := SeasonStem(season, year);
      match b.status
      case Err(e) => Run(b.files, Err(e))
      case Ok(st) =>
        match MapResult(b.files, env.grids, name, "seasonal", env.inside)
        case Err(e) => Run(b.files, Err(e))
        case Ok(grid) =>
          match SeasonalSummary(b.files, env.assets, name)
          case Err(e) => Run(b.files, Err(e))
          case Ok(page) => Run(b.files, Ok([Full(season, year, st, grid, page)]))
  }

  /** Reports made so far, in front of what the rest of the run reports. */
  function Prepend(reports: seq<Report>, run: Run): Run
  {
    match run.outcome
    case Err(e) => Run(run.files, Err(e))
    case Ok(rs) => Run(run.files, Ok(reports + rs))
  }

  /** The keys in insertion order, each processed on the store the previous one left; an exception ends the run. */
  function RunKeys(files: map<string, Table>, listing: seq<string>, env: Env,
                   keys: seq<Key>, groups: map<Key, seq<int>>): (run: Run)
    requires Listed(files, listing)
    requires forall k :: k in keys ==> k in groups
    ensures Listed(run.files, listing)
    decreases |keys|
  {
    if keys == [] then Run(files, Ok([]))
    else
      var first := Step(files, listing, env, keys[0], groups[keys[0]]);
      if first.outcome.Err? then first
      else Prepend(first.outcome.value, RunKeys(first.files, listing, env, keys[1..], groups))
  }

  /** What `main` leaves and reports, given whether `months/` exists and what it lists. */
  function MainSpec(files: map<string, Table>, monthsDir: bool, listing: seq<string>, env: Env): Run
    requires Listed(files, listing)
  {
    if !monthsDir || listing == [] then Run(files, Ok([]))
    else
      match KeyedMonths(listing)
      case Err(e) => Run(files, Err(e))
      case Ok(ps) => RunKeys(files, listing, env, Keys(ps), Groups(ps))
  }

  lemma PrependNothing(run: Run)
    ensures Prepend([], run) == run
  {
    if run.outcome.Ok? {
      assert [] + run.outcome.value == run.outcome.value;
    }
  }

  lemma PrependAssoc(a: seq<Report>, b: seq<Report>, run: Run)
    ensures Prepend(a, Prepend(b, run)) == Prepend(a + b, run)
  {
    if run.outcome.Ok? {
      assert a + (b + run.outcome.value) == (a + b) + run.outcome.value;
    }
  }

  /**
   * `after` keeps every file of `before` as it was and adds only seasonal
   * artifacts: nothing existing is overwritten, the monthly batches least of all.
   */
  predicate OnlyAdds(before: map<string, Table>, after: map<string, Table>)
  {
    && before.Keys <= after.Keys
    && (forall p :: p in before ==> after[p] == before[p])
    && (forall p :: p in after && p !in before ==> InNewSeasons(p))
  }

  /** The report of one key: its season and year, in full exactly when it is ready. */
  predicate ReportsKey(r: Report, key: Key, months: seq<int>)
  {
    && r.season == key.0 && r.year == key.1
    && (r.Full? <==> Ready(key.0, months))
    && (r.Partial? ==> r.present == |set m | m in months| && r.required == RequiredMonths(key.0))
  }

  /** One step only adds the key's own artifact and reports that key once. */
  lemma StepFacts(files: map<string, Table>, listing: seq<string>, env: Env, key: Key, months: seq<int>)
    requires Listed(files, listing)
    ensures var run := Step(files, listing, env, key, months);
      && OnlyAdds(files, run.files)
      && (forall p :: p in run.files && p !in files ==> p == NewSeasonsCsv(SeasonStem(key.0, key.1)))
      && (!Ready(key.0, months) ==> run.files == files && run.outcome.Ok?)
      && (run.outcome.Ok? ==> |run.outcome.value| == 1 && ReportsKey(run.outcome.value[0], key, months))
  {
    StepShape(files, listing, env, key, months);
    if Ready(key.0, months) {
      BuildSeasonFrame(files, listing, key.0, key.1);
      PathShapes(SeasonStem(key.0, key.1));
    }
  }

  /** A key that is not ready is only reported; a ready one is built, and reported in full when nothing raises. */
  lemma StepShape(files: map<string, Table>, listing: seq<string>, env: Env, key: Key, months: seq<int>)
    requires Listed(files, listing)
    ensures var run := Step(files, listing, env, key, months);
      && (!Ready(key.0, months) ==>
            run == Run(files, Ok([Partial(key.0, key.1, |set m | m in months|, RequiredMonths(key.0))])))
      && (Ready(key.0, months) ==>
            && run.files == BuildSeasonSpec(files, listing, key.0, key.1).files
            && (run.outcome.Ok? ==>
                  |run.outcome.value| == 1 && run.outcome.value[0].Full?
                  && run.outcome.value[0].season == key.0 && run.outcome.value[0].year == key.1))
  {
  }

  lemma OnlyAddsTransitive(a: map<string, Table>, b: map<string, Table>, c: map<string, Table>)
    requires OnlyAdds(a, b) && OnlyAdds(b, c)
    ensures OnlyAdds(a, c)
  {
  }

  /**
   * A run only adds seasonal artifacts; when it completes it reports every
   * key once, in insertion order, in full exactly when the key is ready.
   */
  lemma {:induction false} RunKeysFacts(files: map<string, Table>, listing: seq<string>, env: Env,
                                        keys: seq<Key>, groups: map<Key, seq<int>>)
    requires Listed(files, listing)
    requires forall k :: k in keys ==> k in groups
    ensures var run := RunKeys(files, listing, env, keys, groups);
      && OnlyAdds(files, run.files)
      && (run.outcome.Ok? ==>
            && |run.outcome.value| == |keys|
            && forall i :: 0 <= i < |keys| ==> ReportsKey(run.outcome.value[i], keys[i], groups[keys[i]]))
    decreases |keys|
  {
    if keys != [] {
      assert keys[0] in keys;
      var first := Step(files, listing, env, keys[0], groups[keys[0]]);
      StepFacts(files, listing, env, keys[0], groups[keys[0]]);
      if first.outcome.Ok? {
        assert forall k :: k in keys[1..] ==> k in keys;
        var rest := RunKeys(first.files, listing, env, keys[1..], groups);
        RunKeysFacts(first.files, listing, env, keys[1..], groups);
        OnlyAddsTransitive(files, first.files, rest.files);
        if rest.outcome.Ok? {
          var reports := first.outcome.value + rest.outcome.value;
          forall i | 0 <= i < |keys|
            ensures ReportsKey(reports[i], keys[i], groups[keys[i]])
          {
            if i > 0 {
              assert reports[i] == rest.outcome.value[i - 1] && keys[i] == keys[1..][i - 1];
            }
          }
        }
      }
    }
  }

  /**
   * `main` as a whole: nothing happens when `months/` is missing or lists no
   * file; an unparsable stem raises before anything is built; otherwise
   * every file already in the store is left as it was, only seasonal
   * artifacts appear, and a completed run reports every distinct (season,
   * season-year) key of the listing once, in full exactly when all its
   * season's months are present.
   */
  lemma MainSpecFacts(files: map<string, Table>, monthsDir: bool, listing: seq<string>, env: Env)
    requires Listed(files, listing)
    ensures var run := MainSpec(files, monthsDir, listing, env);
      && (!monthsDir || listing == [] ==> run == Run(files, Ok([])))
      && (monthsDir && listing != [] && KeyedMonths(listing).Err? ==> run == Run(files, Err(KeyedMonths(listing).error)))
      && OnlyAdds(files, run.files)
      && (monthsDir && run.outcome.Ok? && listing != [] ==>
            var ps := KeyedMonths(listing).value;
            && |run.outcome.value| == |Keys(ps)|
            && (forall i :: 0 <= i < |Keys(ps)| ==>
                  ReportsKey(run.outcome.value[i], Keys(ps)[i], Groups(ps)[Keys(ps)[i]]))
            && forall k :: k in Keys(ps) <==> exists i :: 0 <= i < |ps| && ps[i].0 == k)
  {
    if monthsDir && listing != [] && KeyedMonths(listing).Ok? {
      var ps := KeyedMonths(listing).value;
      RunKeysFacts(files, listing, env, Keys(ps), Groups(ps));
    }
  }

  /** `RunKeys` from position `i`: the step on `keys[i]`, then the rest. */
  lemma RunKeysUnfold(files: map<string, Table>, listing: seq<string>, env: Env,
                      keys: seq<Key>, groups: map<Key, seq<int>>, i: nat)
    requires Listed(files, listing)
    requires forall k :: k in keys ==> k in groups
    requires i < |keys|
    ensures keys[i] in groups
    ensures var first := Step(files, listing, env, keys[i], groups[keys[i]]);
      RunKeys(files, listing, env, keys[i..], groups) ==
        if first.outcome.Err? then first
        else Prepend(first.outcome.value, RunKeys(first.files, listing, env, keys[i + 1..], groups))
  {
    assert keys[i] in keys;
    assert keys[i..][0] == keys[i] && keys[i..][1..] == keys[i + 1..];
  }

  /** The body of the completeness loop for one key. */
  method ProcessKey(fs: FileSystem, listing: seq<string>, env: Env, key: Key, months: seq<int>)
    returns (r: Result<seq<Report>, PyError>)
    requires Listed(fs.files, listing)
    modifies fs
    ensures Run(fs.files, r) == Step(old(fs.files), listing, env, key, months)
  {
    var (season, year) := key;
    if !Ready(season, months) {
      return Ok([Partial(season, year, |set m | m in months|, RequiredMonths(season))]);
    }
    var built := BuildSeason(fs, listing, season, year);
    if built.Err? {
      return Err(built.error);
    }
    var name := SeasonStem(season, year);
    var grid := GenerateMap(fs.files, env.grids, name, "seasonal", env.inside);
    if grid.Err? {
      return Err(grid.error);
    }
    var page := GenerateSeasonalSummary(fs.files, env.assets, name);
    if page.Err? {
      return Err(page.error);
    }
    return Ok([Full(season, year, built.value, grid.value, page.value)]);
  }

  /**
   * `main`: returns before any build when `months/` is missing or empty;
   * otherwise groups the months and runs build, map and summary for every
   * ready key, reporting the others.
   */
  method RunPipeline(fs: FileSystem, monthsDir: bool, listing: seq<string>, env: Env)
    returns (r: Result<seq<Report>, PyError>)
    requires Listed(fs.files, listing)
    modifies fs
    ensures Run(fs.files, r) == MainSpec(old(fs.files), monthsDir, listing, env)
  {
    if !monthsDir || listing == [] {
      return Ok([]);
    }
    var grouped := GroupMonths(listing);
    if grouped.Err? {
      return Err(grouped.error);
    }
    r := ProcessKeys(fs, listing, env, grouped.value.keys, grouped.value.months);
  }

  /** The completeness loop of `main`: each key in insertion order, until one raises. */
  method ProcessKeys(fs: FileSystem, listing: seq<string>, env: Env, keys: seq<Key>, groups: map<Key, seq<int>>)
    returns (r: Result<seq<Report>, PyError>)
    requires Listed(fs.files, listing)
    requires forall k :: k in keys ==> k in groups
    modifies fs
    ensures Run(fs.files, r) == RunKeys(old(fs.files), listing, env, keys, groups)
  {
    ghost var files0 := fs.files;
    var reports: seq<Report> := [];
    var i := 0;
    assert keys[i..] == keys;
    PrependNothing(RunKeys(fs.files, listing, env, keys, groups));
    while i < |keys|
      invariant 0 <= i <= |keys|
      invariant Listed(fs.files, listing)
      invariant RunKeys(files0, listing, env, keys, groups) ==
                Prepend(reports, RunKeys(fs.files, listing, env, keys[i..], groups))
    {
      RunKeysUnfold(fs.files, listing, env, keys, groups, i);
      var step := ProcessKey(fs, listing, env, keys[i], groups[keys[i]]);
      if step.Err? {
        return Err(step.error);
      }
      PrependAssoc(reports, step.value, RunKeys(fs.files, listing, env, keys[i + 1..], groups));
      reports := reports + step.value;
      i := i + 1;
    }
    assert keys[i..] == [];
    assert reports + [] == reports;
    return Ok(reports);
  }
}

=== FILE: seasonal_batches.dfy ===
/**
 * What `update2025_seasonmonthly.py` and `fetch_data_initial.py` share: a
 * `YEAR_MONTHS` table walked year by year and month by month, the
 * `season_from_month` rule with its space-separated "{season} {season_year}"
 * key, the dictionary of lists `build_seasonal` fills from the monthly
 * batches that exist, and the `run_seasonal_outputs` loop over the
 * artifacts in `new seasons/`. The two scripts differ in their tables, in
 * how they write (overwrite or skip) and in the map mode they ask for.
 */
module SeasonalBatches {
  import opened Wrappers
  import opened Errors
  import opened Text
  import opened Tables
  import opened Grouping
  import opened Files
  import opened SeasonsData
  import opened GridMap
  import opened SummaryParts
  import opened SeasonSummary
  import opened ProduceSeasons

  // ---------------------------------------------------------------------
  // season_from_month and the key
  // ---------------------------------------------------------------------

  /** `season_from_month(month)`: the same split of the year as `get_season`, as a name. */
  function SeasonFromMonth(month: int): (name: string)
    ensures name == GetSeason(month).Name()
  {
    if month in [3, 4, 5] then "Summer"
    else if month in [6, 7, 8, 9] then "Monsoon"
    else "Winter"
  }

  /** `"{season} {season_year}"`: the key of a season and season-year. */
  function SeasonKeyOf(s: Season, seasonYear: int): string
  {
    s.Name() + " " + DecimalString(seasonYear)
  }

  /** The key `build_seasonal` computes for a month of a year, January and February rolling back. */
  function SeasonKey(year: int, month: int): string
  {
    var season := SeasonFromMonth(month);
    var seasonYear := if season == "Winter" && month in [1, 2] then year - 1 else year;
    season + " " + DecimalString(seasonYear)
  }

  /** The scripts' key is `get_season` with `get_season_year`, written with a space. */
  lemma SeasonKeyAgrees(year: int, month: int)
    ensures SeasonKey(year, month) == SeasonKeyOf(GetSeason(month), GetSeasonYear(year, month))
  {
  }

  /** Different seasons or season-years never share a key. */
  lemma SeasonKeyOfInjective(s: Season, y: int, t: Season, z: int)
    ensures SeasonKeyOf(s, y) == SeasonKeyOf(t, z) <==> s == t && y == z
  {
    if SeasonKeyOf(s, y) == SeasonKeyOf(t, z) {
      KeySplits(s, y);
      KeySplits(t, z);
      NameInjective(s, t);
      ParseDecimalString(y);
      ParseDecimalString(z);
    }
  }

  lemma KeySplits(s: Season, y: int)
    ensures Split(SeasonKeyOf(s, y), ' ') == [s.Name(), DecimalString(y)]
  {
    var parts := [s.Name(), DecimalString(y)];
    var d := DecimalString(y);
    assert forall i :: 0 <= i < |d| ==> d[i] != ' ';
    assert Text.Join(parts, ' ') == SeasonKeyOf(s, y) by {
      assert parts[1..] == [DecimalString(y)];
    }
    SplitJoin(parts, ' ');
  }

  /** Two months share a key exactly when they share season and season-year. */
  lemma SameKeySameSeason(y1: int, m1: int, y2: int, m2: int)
    ensures SeasonKey(y1, m1) == SeasonKey(y2, m2) <==>
              GetSeason(m1) == GetSeason(m2) && GetSeasonYear(y1, m1) == GetSeasonYear(y2, m2)
  {
    SeasonKeyOfInjective(GetSeason(m1), GetSeasonYear(y1, m1), GetSeason(m2), GetSeasonYear(y2, m2));
  }

  // ---------------------------------------------------------------------
  // YEAR_MONTHS
  // ---------------------------------------------------------------------

  /** A `YEAR_MONTHS` dictionary: its years in insertion order, each with its list of months. */
  type YearMonths = seq<(int, seq<int>)>

  /** Every month is a calendar month, so `calendar.month_name[month]` names it. */
  predicate CalendarTable(ym: YearMonths)
  {
    forall i, j :: 0 <= i < |ym| && 0 <= j < |ym[i].1| ==> 1 <= ym[i].1[j] <= 12
  }

  /** The (year, month) pairs of one year, in list order. */
  function YearPairs(year: int, months: seq<int>): (ps: seq<(int, int)>)
    ensures |ps| == |months| && forall j :: 0 <= j < |months| ==> ps[j] == (year, months[j])
  {
    if months == [] then [] else YearPairs(year, months[..|months| - 1]) + [(year, months[|months| - 1])]
  }

  /** The visits so far, one month further into the year. */
  lemma YearPairsStep(visited: seq<(int, int)>, year: int, months: seq<int>, j: nat)
    requires j < |months|
    ensures visited + YearPairs(year, months[..j + 1]) == (visited + YearPairs(year, months[..j])) + [(year, months[j])]
  {
    assert months[..j + 1][..j] == months[..j];
  }

  /** The (year, month) pairs the nested loops visit, in visiting order. */
  function Visits(ym: YearMonths): seq<(int, int)>
  {
    if ym == [] then [] else Visits(ym[..|ym| - 1]) + YearPairs(ym[|ym| - 1].0, ym[|ym| - 1].1)
  }

  predicate CalendarPairs(ps: seq<(int, int)>)
  {
    forall i :: 0 <= i < |ps| ==> 1 <= ps[i].1 <= 12
  }

  /** Walking two tables one after the other visits the months of both, in order. */
  lemma {:induction false} VisitsAppend(a: YearMonths, b: YearMonths)
    ensures Visits(a + b) == Visits(a) + Visits(b)
    decreases |b|
  {
    if b != [] {
      var n := |b| - 1;
      assert (a + b)[..|a + b| - 1] == a + b[..n];
      VisitsAppend(a, b[..n]);
    } else {
      assert a + b == a;
    }
  }

  /** The table from year `i` on is visited after the years before it. */
  lemma VisitsSplit(ym: YearMonths, i: nat)
    requires i <= |ym|
    ensures Visits(ym) == Visits(ym[..i]) + Visits(ym[i..])
  {
    assert ym == ym[..i] + ym[i..];
    VisitsAppend(ym[..i], ym[i..]);
  }

  /** The months of a year from `j` on are visited after the months before it. */
  lemma YearPairsSplit(year: int, months: seq<int>, j: nat)
    requires j <= |months|
    ensures YearPairs(year, months) == YearPairs(year, months[..j]) + YearPairs(year, months[j..])
  {
  }

  lemma CalendarPairsAppend(a: seq<(int, int)>, b: seq<(int, int)>)
    requires CalendarPairs(a) && CalendarPairs(b)
    ensures CalendarPairs(a + b)
  {
    forall i | 0 <= i < |a + b| ensures 1 <= (a + b)[i].1 <= 12 {
      if i >= |a| {
        assert (a + b)[i] == b[i - |a|];
      }
    }
  }

  /** Every visit is a (year, month) of the table, and every month of the table is visited. */
  lemma {:induction false} VisitsOfTable(ym: YearMonths)
    ensures forall y, m :: (y, m) in Visits(ym) <==>
              exists i, j :: 0 <= i < |ym| && 0 <= j < |ym[i].1| && ym[i].0 == y && ym[i].1[j] == m
  {
    if ym != [] {
      var n := |ym| - 1;
      VisitsOfTable(ym[..n]);
      forall y, m
        ensures (y, m) in Visits(ym) <==>
                exists i, j :: 0 <= i < |ym| && 0 <= j < |ym[i].1| && ym[i].0 == y && ym[i].1[j] == m
      {
        if (y, m) in Visits(ym[..n]) {
          var i, j :| 0 <= i < n && 0 <= j < |ym[..n][i].1| && ym[..n][i].0 == y && ym[..n][i].1[j] == m;
          assert ym[i] == ym[..n][i];
        } else if (y, m) in YearPairs(ym[n].0, ym[n].1) {
          var j :| 0 <= j < |ym[n].1| && YearPairs(ym[n].0, ym[n].1)[j] == (y, m);
          assert ym[n].0 == y && ym[n].1[j] == m;
        } else {
          forall i, j | 0 <= i < |ym| && 0 <= j < |ym[i].1| && ym[i].0 == y
            ensures ym[i].1[j] != m
          {
            if i < n {
              assert ym[..n][i] == ym[i];
            } else {
              assert YearPairs(ym[n].0, ym[n].1)[j] == (y, ym[i].1[j]);
            }
          }
        }
      }
    }
  }

  lemma CalendarVisits(ym: YearMonths)
    requires CalendarTable(ym)
    ensures CalendarPairs(Visits(ym))
  {
    VisitsOfTable(ym);
    forall k | 0 <= k < |Visits(ym)| ensures 1 <= Visits(ym)[k].1 <= 12 {
      assert Visits(ym)[k] in Visits(ym);
    }
  }

  // ---------------------------------------------------------------------
  // build_seasonal: collecting
  // ---------------------------------------------------------------------

  /** `f"{month_name}_{year}"`: the name the fetches, maps, summaries and builders use for a month. */
  function Period(year: int, month: int): string
    requires 1 <= month <= 12
  {
    MonthName(month) + "_" + DecimalString(year)
  }

  /** `months/{month_name}_{year}.csv`: the batch a visit reads. */
  function BatchPath(year: int, month: int): string
    requires 1 <= month <= 12
  {
    MonthlyCsv(Period(year, month))
  }

  /** Visiting `v` puts `(k, t)` in the dictionary: its batch exists, `k` is its key and `t` its batch. */
  predicate Collects(files: map<string, Table>, v: (int, int), k: string, t: Table)
  {
    && 1 <= v.1 <= 12
    && BatchPath(v.0, v.1) in files
    && k == SeasonKey(v.0, v.1)
    && t == files[BatchPath(v.0, v.1)]
  }

  /** The (key, batch) pairs of the visits whose batch exists, in visiting order. */
  function KeyedBatches(files: map<string, Table>, visits: seq<(int, int)>): (pairs: seq<(string, Table)>)
    requires CalendarPairs(visits)
    ensures |pairs| <= |visits|
  {
    if visits == [] then []
    else
      var n := |visits| - 1;
      var (year, month) := visits[n];
      var init := KeyedBatches(files, visits[..n]);
      if BatchPath(year, month) in files then init + [(SeasonKey(year, month), files[BatchPath(year, month)])]
      else init
  }

  /** Every collected pair comes from a visit whose batch exists. */
  lemma {:induction false} KeyedBatchesSound(files: map<string, Table>, visits: seq<(int, int)>, k: string, t: Table)
    requires CalendarPairs(visits)
    requires (k, t) in KeyedBatches(files, visits)
    ensures exists i :: 0 <= i < |visits| && Collects(files, visits[i], k, t)
  {
    var n := |visits| - 1;
    var pre := visits[..n];
    assert CalendarPairs(pre);
    if (k, t) in KeyedBatches(files, pre) {
      KeyedBatchesSound(files, pre, k, t);
      var i :| 0 <= i < n && Collects(files, pre[i], k, t);
      assert pre[i] == visits[i];
    } else {
      assert Collects(files, visits[n], k, t);
    }
  }

  /** Every visit whose batch exists contributes its pair: a missing batch is the only thing skipped. */
  lemma KeyedBatchesComplete(files: map<string, Table>, visits: seq<(int, int)>, i: nat, k: string, t: Table)
    requires CalendarPairs(visits)
    requires i < |visits| && Collects(files, visits[i], k, t)
    ensures (k, t) in KeyedBatches(files, visits)
  {
    var pre := visits[..i + 1];
    KeyedBatchesPrefix(files, visits, i + 1);
    KeyedBatchesLast(files, pre);
    assert pre[|pre| - 1] == visits[i];
    assert Collects(files, pre[|pre| - 1], k, t);
  }

  /** The pairs of the first `j` visits are among the pairs of all of them. */
  lemma {:induction false} KeyedBatchesPrefix(files: map<string, Table>, visits: seq<(int, int)>, j: nat)
    requires CalendarPairs(visits) && j <= |visits|
    ensures CalendarPairs(visits[..j])
    ensures forall p :: p in KeyedBatches(files, visits[..j]) ==> p in KeyedBatches(files, visits)
    decreases |visits|
  {
    if j == |visits| {
      assert visits[..j] == visits;
    } else {
      var n := |visits| - 1;
      KeyedBatchesLast(files, visits);
      KeyedBatchesPrefix(files, visits[..n], j);
      assert visits[..n][..j] == visits[..j];
    }
  }

  /** The pairs of a prefix stay, and the last visit adds its own pair when its batch exists. */
  lemma KeyedBatchesLast(files: map<string, Table>, visits: seq<(int, int)>)
    requires CalendarPairs(visits) && visits != []
    ensures CalendarPairs(visits[..|visits| - 1])
    ensures forall p :: p in KeyedBatches(files, visits[..|visits| - 1]) ==> p in KeyedBatches(files, visits)
    ensures forall k, t :: Collects(files, visits[|visits| - 1], k, t) ==> (k, t) in KeyedBatches(files, visits)
  {
    var n := |visits| - 1;
    assert CalendarPairs(visits[..n]);
  }

  /**
   * A (key, batch) pair is collected exactly when some visited month with
   * that key has that batch on file.
   */
  lemma KeyedBatchesMembers(files: map<string, Table>, visits: seq<(int, int)>, k: string, t: Table)
    requires CalendarPairs(visits)
    ensures (k, t) in KeyedBatches(files, visits) <==> exists i :: 0 <= i < |visits| && Collects(files, visits[i], k, t)
  {
    if (k, t) in KeyedBatches(files, visits) {
      KeyedBatchesSound(files, visits, k, t);
    }
    forall i | 0 <= i < |visits| && Collects(files, visits[i], k, t)
      ensures (k, t) in KeyedBatches(files, visits)
    {
      KeyedBatchesComplete(files, visits, i, k, t);
    }
  }

  /** The keys `build_seasonal` creates: one per season-year with at least one batch on file. */
  lemma KeysOfBatches(files: map<string, Table>, visits: seq<(int, int)>, k: string)
    requires CalendarPairs(visits)
    ensures k in Keys(KeyedBatches(files, visits)) <==>
              exists i :: 0 <= i < |visits| && BatchPath(visits[i].0, visits[i].1) in files
                && k == SeasonKey(visits[i].0, visits[i].1)
  {
    var ps := KeyedBatches(files, visits);
    forall i | 0 <= i < |visits| && BatchPath(visits[i].0, visits[i].1) in files && k == SeasonKey(visits[i].0, visits[i].1)
      ensures k in Keys(ps)
    {
      var t := files[BatchPath(visits[i].0, visits[i].1)];
      assert Collects(files, visits[i], k, t);
      KeyedBatchesMembers(files, visits, k, t);
      var j :| 0 <= j < |ps| && ps[j] == (k, t);
      assert HasKey(ps, k);
    }
    if k in Keys(ps) {
      var j :| 0 <= j < |ps| && ps[j].0 == k;
      assert ps[j] in ps;
      KeyedBatchesMembers(files, visits, k, ps[j].1);
    }
  }

  /** The dictionary `seasonal_data` and the order its keys were inserted in. */
  datatype Collected = Collected(keys: seq<string>, data: map<string, seq<Table>>)

  /** What the nested loops of `build_seasonal` collect. */
  function Collect(files: map<string, Table>, ym: YearMonths): (c: Collected)
    requires CalendarTable(ym)
  {
    CalendarVisits(ym);
    var ps := KeyedBatches(files, Visits(ym));
    Collected(Keys(ps), Groups(ps))
  }

  /** One more visit adds its (key, batch) pair when its batch exists. */
  lemma KeyedBatchesStep(files: map<string, Table>, visits: seq<(int, int)>, year: int, month: int)
    requires CalendarPairs(visits) && 1 <= month <= 12
    ensures CalendarPairs(visits + [(year, month)])
    ensures KeyedBatches(files, visits + [(year, month)]) ==
              KeyedBatches(files, visits) +
              if BatchPath(year, month) in files then [(SeasonKey(year, month), files[BatchPath(year, month)])] else []
  {
    assert (visits + [(year, month)])[..|visits|] == visits;
  }

  /**
   * The inner loop of `build_seasonal`, over the months of one year: for
   * every month whose batch exists, append the batch to its key's list,
   * creating the list the first time the key is seen.
   */
  method CollectYear(files: map<string, Table>, year: int, months: seq<int>,
                     ghost visited: seq<(int, int)>, keys0: seq<string>, data0: map<string, seq<Table>>)
    returns (keys: seq<string>, data: map<string, seq<Table>>)
    requires CalendarPairs(visited) && forall j :: 0 <= j < |months| ==> 1 <= months[j] <= 12
    requires keys0 == Keys(KeyedBatches(files, visited)) && data0 == Groups(KeyedBatches(files, visited))
    ensures CalendarPairs(visited + YearPairs(year, months))
    ensures keys == Keys(KeyedBatches(files, visited + YearPairs(year, months)))
    ensures data == Groups(KeyedBatches(files, visited + YearPairs(year, months)))
  {
    keys, data := keys0, data0;
    ghost var seen := visited;
    var j := 0;
    while j < |months|
      invariant 0 <= j <= |months|
      invariant seen == visited + YearPairs(year, months[..j])
      invariant CalendarPairs(seen)
      invariant keys == Keys(KeyedBatches(files, seen))
      invariant data == Groups(KeyedBatches(files, seen))
    {
      var month := months[j];
      KeyedBatchesStep(files, seen, year, month);
      var key := SeasonKey(year, month);
      var csvPath := BatchPath(year, month);
      if csvPath in files {
        var df := files[csvPath];
        InsertStep(KeyedBatches(files, seen), keys, data, key, df);
        if key !in data {
          keys := keys + [key];
          data := data[key := []];
        }
        data := data[key := data[key] + [df]];
      }
      YearPairsStep(visited, year, months, j);
      seen := seen + [(year, month)];
      j := j + 1;
    }
    assert months[..j] == months;
  }

  /** The outer loop of `build_seasonal`, over the years of the table in insertion order. */
  method CollectSeasonal(files: map<string, Table>, ym: YearMonths) returns (c: Collected)
    requires CalendarTable(ym)
    ensures c == Collect(files, ym)
  {
    var keys: seq<string> := [];
    var data: map<string, seq<Table>> := map[];
    var i := 0;
    while i < |ym|
      invariant 0 <= i <= |ym|
      invariant CalendarPairs(Visits(ym[..i]))
      invariant keys == Keys(KeyedBatches(files, Visits(ym[..i])))
      invariant data == Groups(KeyedBatches(files, Visits(ym[..i])))
    {
      var year, months := ym[i].0, ym[i].1;
      keys, data := CollectYear(files, year, months, Visits(ym[..i]), keys, data);
      assert ym[..i + 1][..i] == ym[..i];
      i := i + 1;
    }
    assert ym[..i] == ym;
    c := Collected(keys, data);
  }

  /** Every collected list is non-empty, so `pd.concat` of it never raises. */
  lemma CollectedNonEmpty(files: map<string, Table>, ym: YearMonths)
    requires CalendarTable(ym)
    ensures var c := Collect(files, ym);
      forall k :: k in c.keys ==> k in c.data && |c.data[k]| >= 1
  {
  }

  // ---------------------------------------------------------------------
  // run_seasonal_outputs
  // ---------------------------------------------------------------------

  /** The map and the page produced for one seasonal artifact. */
  datatype Outputs = Outputs(season: string, grid: Option<seq<MapCell>>, summary: Option<Page>)

  /** What the `run_seasonal_outputs` loop produces for the listed stems with the given map mode. */
  function SeasonalOutputs(files: map<string, Table>, env: Env, stems: seq<string>, mode: string): Result<seq<Outputs>, PyError>
  {
    if stems == [] then Ok([])
    else
      var n := |stems| - 1;
      match SeasonalOutputs(files, env, stems[..n], mode)
      case Err(e) => Err(e)
      case Ok(outs) =>
        match MapResult(files, env.grids, stems[n], mode, env.inside)
        case Err(e) => Err(e)
        case Ok(grid) =>
          match SeasonalSummary(files, env.assets, stems[n])
          case Err(e) => Err(e)
          case Ok(page) => Ok(outs + [Outputs(stems[n], grid, page)])
  }

  /** `run_seasonal_outputs()`: for each artifact of `new seasons/`, its map in `mode`, then its summary. */
  method RunSeasonalOutputs(files: map<string, Table>, env: Env, stems: seq<string>, mode: string)
    returns (r: Result<seq<Outputs>, PyError>)
    ensures r == SeasonalOutputs(files, env, stems, mode)
  {
    var outs: seq<Outputs> := [];
    var i := 0;
    while i < |stems|
      invariant 0 <= i <= |stems|
      invariant SeasonalOutputs(files, env, stems[..i], mode) == Ok(outs)
    {
      assert stems[..i + 1][..i] == stems[..i];
      var seasonYear := stems[i];
      var grid := GenerateMap(files, env.grids, seasonYear, mode, env.inside);
      if grid.Err? {
        OutputsErrorPersists(files, env, stems, mode, i + 1);
        return Err(grid.error);
      }
      var page := GenerateSeasonalSummary(files, env.assets, seasonYear);
      if page.Err? {
        OutputsErrorPersists(files, env, stems, mode, i + 1);
        return Err(page.error);
      }
      outs := outs + [Outputs(seasonYear, grid.value, page.value)];
      i := i + 1;
    }
    assert stems[..i] == stems;
    r := Ok(outs);
  }

  lemma {:induction false} OutputsErrorPersists(files: map<string, Table>, env: Env, stems: seq<string>, mode: string, k: nat)
    requires k <= |stems|
    requires SeasonalOutputs(files, env, stems[..k], mode).Err?
    ensures SeasonalOutputs(files, env, stems, mode) == SeasonalOutputs(files, env, stems[..k], mode)
    decreases |stems| - k
  {
    if k < |stems| {
      assert stems[..k + 1][..k] == stems[..k];
      OutputsErrorPersists(files, env, stems, mode, k + 1);
    } else {
      assert stems[..k] == stems;
    }
  }

  /**
   * A completed run has one (map, page) per listed artifact, in listing
   * order, each page being that artifact's seasonal summary.
   */
  lemma {:induction false} SeasonalOutputsFacts(files: map<string, Table>, env: Env, stems: seq<string>, mode: string)
    ensures var r := SeasonalOutputs(files, env, stems, mode);
      r.Ok? ==>
        && |r.value| == |stems|
        && forall i :: 0 <= i < |stems| ==>
             && r.value[i].season == stems[i]
             && Ok(r.value[i].grid) == MapResult(files, env.grids, stems[i], mode, env.inside)
             && Ok(r.value[i].summary) == SeasonalSummary(files, env.assets, stems[i])
  {
    if stems != [] {
      var n := |stems| - 1;
      SeasonalOutputsFacts(files, env, stems[..n], mode);
    }
  }
}

=== FILE: seasons_data.dfy ===
/**
 * seasons_data.py: the season classifier, the season-year rollover, the
 * build-once seasonal builder and the previous-month arithmetic of its entry
 * point.
 */
module SeasonsData {
  import opened Wrappers
  import opened Errors
  import opened Text
  import opened Tables
  import opened Files

  datatype Season = Summer | Monsoon | Winter
  {
    /** The label the scripts print and put into file names. */
    function Name(): string
    {
      match this
      case Summer => "Summer"
      case Monsoon => "Monsoon"
      case Winter => "Winter"
    }
  }

  /** `get_season`: 3-5 Summer, 6-9 Monsoon, every other integer Winter. */
  function GetSeason(month: int): Season
  {
    if month in [3, 4, 5] then Summer
    else if month in [6, 7, 8, 9] then Monsoon
    else Winter
  }

  /** `get_season_year`: January and February count towards the previous year's season. */
  function GetSeasonYear(year: int, month: int): int
  {
    if month in [1, 2] then year - 1 else year
  }

  /** The calendar months of a season. */
  function SeasonMonths(s: Season): set<int>
  {
    set m | 1 <= m <= 12 && GetSeason(m) == s
  }

  /**
   * The months of one season-year written out independently of the rules:
   * Summer Y is March-May of Y, Monsoon Y is June-September of Y, Winter Y is
   * October-December of Y and January-February of Y + 1.
   */
  function CalendarMonths(s: Season, y: int): set<(int, int)>
  {
    match s
    case Summer => {(y, 3), (y, 4), (y, 5)}
    case Monsoon => {(y, 6), (y, 7), (y, 8), (y, 9)}
    case Winter => {(y, 10), (y, 11), (y, 12), (y + 1, 1), (y + 1, 2)}
  }

  /** The classifier and the rollover agree with the written-out calendar, in both directions. */
  lemma SeasonKeyMatchesCalendar(year: int, month: int, s: Season, y: int)
    requires 1 <= month <= 12
    ensures (GetSeason(month) == s && GetSeasonYear(year, month) == y) <==> (year, month) in CalendarMonths(s, y)
  {
  }

  /** The three seasons split the twelve months into sets of 3, 4 and 5. */
  lemma SeasonsPartitionYear()
    ensures SeasonMonths(Summer) == {3, 4, 5}
    ensures SeasonMonths(Monsoon) == {6, 7, 8, 9}
    ensures SeasonMonths(Winter) == {1, 2, 10, 11, 12}
    ensures |SeasonMonths(Summer)| == 3 && |SeasonMonths(Monsoon)| == 4 && |SeasonMonths(Winter)| == 5
    ensures forall m :: 1 <= m <= 12 ==> m in SeasonMonths(GetSeason(m))
  {
    SummerMonths();
    MonsoonMonths();
    WinterMonths();
  }

  lemma SummerMonths()
    ensures SeasonMonths(Summer) == {3, 4, 5}
  {
    assert forall m :: m in SeasonMonths(Summer) <==> m in {3, 4, 5};
  }

  lemma MonsoonMonths()
    ensures SeasonMonths(Monsoon) == {6, 7, 8, 9}
  {
    assert forall m :: m in SeasonMonths(Monsoon) <==> m in {6, 7, 8, 9};
  }

  lemma WinterMonths()
    ensures SeasonMonths(Winter) == {1, 2, 10, 11, 12}
  {
    assert forall m :: m in SeasonMonths(Winter) <==> m in {1, 2, 10, 11, 12};
  }

  /** Distinct seasons have distinct labels. */
  lemma NameInjective(s: Season, t: Season)
    requires s.Name() == t.Name()
    ensures s == t
  {
  }

  // ---------------------------------------------------------------------
  // Previous month (the `__main__` block)
  // ---------------------------------------------------------------------

  /** `previous_month = month - 1 or 12`, `previous_year = year if month != 1 else year - 1`. */
  function PreviousMonth(month: int, year: int): (int, int)
  {
    (if month - 1 != 0 then month - 1 else 12, if month != 1 then year else year - 1)
  }

  /** Months counted from year 0. */
  function MonthIndex(month: int, year: int): int
  {
    year * 12 + (month - 1)
  }

  /** For a calendar month, the previous month is a calendar month exactly one month earlier. */
  lemma PreviousMonthIsOneEarlier(month: int, year: int)
    requires 1 <= month <= 12
    ensures 1 <= PreviousMonth(month, year).0 <= 12
    ensures MonthIndex(PreviousMonth(month, year).0, PreviousMonth(month, year).1) == MonthIndex(month, year) - 1
  {
  }

  // ---------------------------------------------------------------------
  // build_season
  // ---------------------------------------------------------------------

  /**
   * `month_str, year_str = stem.split("_")`, `strptime(month_str, "%B").month`,
   * `int(year_str)`: the (month, year) a monthly file name stands for; `None`
   * where one of the three raises `ValueError`.
   */
  function ParseStem(stem: string): (r: Option<(int, int)>)
    ensures r.Some? ==> 1 <= r.value.0 <= 12
  {
    var parts := Split(stem, '_');
    if |parts| != 2 then None
    else match (ParseMonthName(parts[0]), ParseInt(parts[1]))
      case (Some(m), Some(y)) => Some((m, y))
      case _ => None
  }

  /** The name `fetch_data_initial.run_monthly` renames a batch to parses back to its month and year. */
  lemma ParseStemOfMonthName(month: int, year: int)
    requires 1 <= month <= 12
    ensures ParseStem(MonthName(month) + "_" + DecimalString(year)) == Some((month, year))
  {
    var stem := MonthName(month) + "_" + DecimalString(year);
    MonthNameLetters(month);
    assert forall i :: 0 <= i < |DecimalString(year)| ==> DecimalString(year)[i] != '_';
    SplitJoin([MonthName(month), DecimalString(year)], '_');
    assert Join([DecimalString(year)], '_') == DecimalString(year);
    assert Join([MonthName(month), DecimalString(year)], '_') == stem;
    ParseMonthNameRoundTrip(month);
    ParseDecimalString(year);
  }

  /**
   * `int()` strips whitespace, so a year followed by a space still parses;
   * an underscore inside the year makes three parts, which the unpacking
   * rejects.
   */
  lemma ParseStemLooseYear()
    ensures ParseStem("March_2025 ") == Some((3, 2025))
    ensures ParseStem("March_2_025") == None
  {
    SplitJoin(["March", "2025 "], '_');
    assert Join(["2025 "], '_') == "2025 ";
    assert Join(["March", "2025 "], '_') == "March_2025 ";
    SplitJoin(["March", "2", "025"], '_');
    assert Join(["025"], '_') == "025";
    assert Join(["2", "025"], '_') == "2_025";
    assert Join(["March", "2", "025"], '_') == "March_2_025";
    ParseMonthNameRoundTrip(3);
    ParseIntAccepts();
  }

  /** A stem belongs to (season, year). */
  predicate InSeason(stem: string, season: Season, year: int)
  {
    var p := ParseStem(stem);
    p.Some? && GetSeason(p.value.0) == season && GetSeasonYear(p.value.1, p.value.0) == year
  }

  /**
   * The stems the loop keeps, in listing order; the first stem that does not
   * parse raises `ValueError` and ends the build.
   */
  function SelectStems(listing: seq<string>, season: Season, year: int): Result<seq<string>, PyError>
  {
    if listing == [] then Ok([])
    else
      var n := |listing| - 1;
      match SelectStems(listing[..n], season, year)
      case Err(e) => Err(e)
      case Ok(sel) =>
        if ParseStem(listing[n]).None? then Err(ValueError(listing[n]))
        else if InSeason(listing[n], season, year) then Ok(sel + [listing[n]])
        else Ok(sel)
  }

  /** One more stem of the listing, when it parses: the step of the build loop. */
  lemma SelectStemsStep(listing: seq<string>, i: nat, season: Season, year: int, sel: seq<string>)
    requires i < |listing|
    requires SelectStems(listing[..i], season, year) == Ok(sel)
    requires ParseStem(listing[i]).Some?
    ensures SelectStems(listing[..i + 1], season, year) ==
      if InSeason(listing[i], season, year) then Ok(sel + [listing[i]]) else Ok(sel)
  {
    assert listing[..i + 1][..i] == listing[..i];
  }

  /** One more stem of the listing, when it does not parse: the build fails on it. */
  lemma SelectStemsStepError(listing: seq<string>, i: nat, season: Season, year: int, sel: seq<string>)
    requires i < |listing|
    requires SelectStems(listing[..i], season, year) == Ok(sel)
    requires ParseStem(listing[i]).None?
    ensures SelectStems(listing, season, year) == Err(ValueError(listing[i]))
  {
    assert listing[..i + 1][..i] == listing[..i];
    SelectStemsErrorPersists(listing, i + 1, season, year);
  }

  /** An error in a prefix of the listing is the error of the whole listing. */
  lemma {:induction false} SelectStemsErrorPersists(listing: seq<string>, k: nat, season: Season, year: int)
    requires k <= |listing|
    requires SelectStems(listing[..k], season, year).Err?
    ensures SelectStems(listing, season, year) == SelectStems(listing[..k], season, year)
    decreases |listing| - k
  {
    if k < |listing| {
      assert listing[..k + 1][..k] == listing[..k];
      SelectStemsErrorPersists(listing, k + 1, season, year);
    } else {
      assert listing[..k] == listing;
    }
  }

  /**
   * When every stem parses, the build keeps exactly the stems of (season,
   * year), in listing order; when one does not, the build fails.
   */
  lemma {:induction false} SelectStemsExactly(listing: seq<string>, season: Season, year: int)
    ensures SelectStems(listing, season, year).Ok? <==> forall i :: 0 <= i < |listing| ==> ParseStem(listing[i]).Some?
    ensures SelectStems(listing, season, year).Ok? ==>
              forall s :: s in SelectStems(listing, season, year).value <==> s in listing && InSeason(s, season, year)
    ensures SelectStems(listing, season, year).Ok? ==> |SelectStems(listing, season, year).value| <= |listing|
  {
    if listing != [] {
      var n := |listing| - 1;
      SelectStemsExactly(listing[..n], season, year);
      assert listing == listing[..n] + [listing[n]];
      assert forall s :: s in listing <==> s in listing[..n] || s == listing[n];
      assert (forall i :: 0 <= i < |listing| ==> ParseStem(listing[i]).Some?) <==>
             (forall i :: 0 <= i < n ==> ParseStem(listing[..n][i]).Some?) && ParseStem(listing[n]).Some?;
    }
  }

  /** The batches of the kept stems, as `pd.read_csv` returns them. */
  function Batches(files: map<string, Table>, stems: seq<string>): (ts: seq<Table>)
    requires forall s :: s in stems ==> MonthlyCsv(s) in files
    ensures |ts| == |stems| && forall i :: 0 <= i < |stems| ==> ts[i] == files[MonthlyCsv(stems[i])]
  {
    seq(|stems|, i requires 0 <= i < |stems| => files[MonthlyCsv(stems[i])])
  }

  lemma BatchesAppend(files: map<string, Table>, stems: seq<string>, s: string)
    requires forall t :: t in stems ==> MonthlyCsv(t) in files
    requires MonthlyCsv(s) in files
    ensures Batches(files, stems + [s]) == Batches(files, stems) + [files[MonthlyCsv(s)]]
  {
    var a, b := Batches(files, stems + [s]), Batches(files, stems) + [files[MonthlyCsv(s)]];
    assert forall i :: 0 <= i < |a| ==> a[i] == b[i];
  }

  /** What `MONTHS_DIR.glob("*.csv")` lists: stems of existing monthly files. */
  predicate Listed(files: map<string, Table>, listing: seq<string>)
  {
    forall s :: s in listing ==> MonthlyCsv(s) in files
  }

  /**
   * `MONTHS_DIR.glob("*.csv")` itself: besides naming existing monthly
   * files, the listing names each of them once, and every CSV directly
   * under `months/` is in it.
   */
  ghost predicate Globbed(files: map<string, Table>, listing: seq<string>)
  {
    && Listed(files, listing)
    && NoDuplicates(listing)
    && (forall s :: s in listing ==> '/' !in s)
    && (forall s :: MonthlyCsv(s) in files && '/' !in s ==> s in listing)
  }

  /** `{season}_{year}`: the stem `build_season` writes and `produce_seasons` passes on. */
  function SeasonStem(season: Season, year: int): string
  {
    season.Name() + "_" + DecimalString(year)
  }

  datatype BuildStatus = AlreadyExists | NoData | Created

  datatype Build = Build(files: map<string, Table>, status: Result<BuildStatus, PyError>)

  /** The store and outcome `build_season(season, year)` leaves. */
  function BuildSeasonSpec(files: map<string, Table>, listing: seq<string>, season: Season, year: int): Build
    requires Listed(files, listing)
  {
    var out := NewSeasonsCsv(SeasonStem(season, year));
    if out in files then Build(files, Ok(AlreadyExists))
    else
      match SelectStems(listing, season, year)
      case Err(e) => Build(files, Err(e))
      case Ok(sel) =>
        SelectStemsSubset(listing, season, year);
        if sel == [] then Build(files, Ok(NoData))
        else Build(files[out := Concat(Batches(files, sel))], Ok(Created))
  }

  lemma SelectStemsSubset(listing: seq<string>, season: Season, year: int)
    ensures SelectStems(listing, season, year).Ok? ==>
              forall s :: s in SelectStems(listing, season, year).value ==> s in listing
  {
    SelectStemsExactly(listing, season, year);
  }

  /**
   * The loop of `build_season`: reads the batch of every listed stem of the
   * key, in listing order, and stops at the first stem that does not parse.
   */
  method CollectBatches(files: map<string, Table>, listing: seq<string>, season: Season, year: int)
    returns (r: Result<seq<Table>, PyError>)
    requires Listed(files, listing)
    ensures r.Err? <==> SelectStems(listing, season, year).Err?
    ensures r.Err? ==> r.error == SelectStems(listing, season, year).error
    ensures r.Ok? ==>
      && Listed(files, SelectStems(listing, season, year).value)
      && r.value == Batches(files, SelectStems(listing, season, year).value)
  {
    var dfs: seq<Table> := [];
    ghost var sel: seq<string> := [];
    var i := 0;
    while i < |listing|
      invariant 0 <= i <= |listing|
      invariant SelectStems(listing[..i], season, year) == Ok(sel)
      invariant forall s :: s in sel ==> s in listing
      invariant Listed(files, sel)
      invariant dfs == Batches(files, sel)
    {
      var stem := listing[i];
      var parsed := ParseStem(stem);
      if parsed.None? {
        SelectStemsStepError(listing, i, season, year, sel);
        return Err(ValueError(stem));
      }
      SelectStemsStep(listing, i, season, year, sel);
      dfs, sel := CollectOne(files, listing, i, season, year, dfs, sel);
      i := i + 1;
    }
    assert listing[..i] == listing;
    r := Ok(dfs);
  }

  /** The body of the loop for a stem that parses: its batch is kept when its key is the one built. */
  method CollectOne(files: map<string, Table>, listing: seq<string>, i: nat, season: Season, year: int,
                    dfs: seq<Table>, ghost sel: seq<string>) returns (dfs': seq<Table>, ghost sel': seq<string>)
    requires Listed(files, listing) && i < |listing| && ParseStem(listing[i]).Some?
    requires forall s :: s in sel ==> s in listing
    requires Listed(files, sel) && dfs == Batches(files, sel)
    ensures sel' == if InSeason(listing[i], season, year) then sel + [listing[i]] else sel
    ensures forall s :: s in sel' ==> s in listing
    ensures Listed(files, sel') && dfs' == Batches(files, sel')
  {
    var stem := listing[i];
    var month, yearFile := ParseStem(stem).value.0, ParseStem(stem).value.1;
    dfs', sel' := dfs, sel;
    if GetSeason(month) == season && GetSeasonYear(yearFile, month) == year {
      BatchesAppend(files, sel, stem);
      dfs' := dfs + [files[MonthlyCsv(stem)]];
      sel' := sel + [stem];
    }
  }

  /**
   * `build_season(season, year)`: skips a key whose artifact exists,
   * otherwise concatenates every listed monthly batch of the key, in listing
   * order, and writes it once; writes nothing when no batch matches.
   */
  method BuildSeason(fs: FileSystem, listing: seq<string>, season: Season, year: int)
    returns (status: Result<BuildStatus, PyError>)
    requires Listed(fs.files, listing)
    modifies fs
    ensures Build(fs.files, status) == BuildSeasonSpec(old(fs.files), listing, season, year)
  {
    var out := NewSeasonsCsv(SeasonStem(season, year));
    if out in fs.files {
      return Ok(AlreadyExists);
    }
    var dfs := CollectBatches(fs.files, listing, season, year);
    if dfs.Err? {
      return Err(dfs.error);
    }
    if dfs.value == [] {
      return Ok(NoData);
    }
    fs.Write(out, Concat(dfs.value));
    status := Ok(Created);
  }

  /** Building never touches the monthly batches, and touches at most the key's own artifact. */
  lemma BuildSeasonFrame(files: map<string, Table>, listing: seq<string>, season: Season, year: int)
    requires Listed(files, listing)
    ensures var b := BuildSeasonSpec(files, listing, season, year);
      && files.Keys <= b.files.Keys
      && (forall p :: p in files && p != NewSeasonsCsv(SeasonStem(season, year)) ==> b.files[p] == files[p])
      && (forall p :: p in b.files ==> p in files || p == NewSeasonsCsv(SeasonStem(season, year)))
      && (NewSeasonsCsv(SeasonStem(season, year)) in files ==> b.files == files)
      && Listed(b.files, listing)
  {
  }

  /**
   * What a build writes: nothing unless it creates the artifact, and
   * nothing at all when no listed stem is of the key; otherwise the key's
   * artifact, only when it did not exist, holding the batches of exactly
   * the key's stems one after the other, with as many rows as those
   * batches together.
   */
  lemma BuildSeasonCreates(files: map<string, Table>, listing: seq<string>, season: Season, year: int)
    requires Listed(files, listing)
    ensures var b := BuildSeasonSpec(files, listing, season, year);
      b.status != Ok(Created) ==> b.files == files
    ensures var b := BuildSeasonSpec(files, listing, season, year);
      var out := NewSeasonsCsv(SeasonStem(season, year));
      b.status == Ok(NoData) <==>
        (&& out !in files
         && SelectStems(listing, season, year).Ok?
         && forall s :: s in listing ==> !InSeason(s, season, year))
    ensures var b := BuildSeasonSpec(files, listing, season, year);
      var out := NewSeasonsCsv(SeasonStem(season, year));
      b.status == Ok(Created) ==>
        (&& out !in files
         && SelectStems(listing, season, year).Ok?
         && var sel := SelectStems(listing, season, year).value;
           (&& sel != []
            && (forall s :: s in sel <==> s in listing && InSeason(s, season, year))
            && b.files == files[out := Concat(Batches(files, sel))]
            && b.files[out].rows == AllRows(Batches(files, sel))
            && |b.files[out].rows| == TotalRows(Batches(files, sel))))
  {
    SelectStemsExactly(listing, season, year);
  }

  /** A selection from a listing without repeats has no repeats. */
  lemma {:induction false} SelectStemsDistinct(listing: seq<string>, season: Season, year: int)
    requires NoDuplicates(listing)
    ensures SelectStems(listing, season, year).Ok? ==> NoDuplicates(SelectStems(listing, season, year).value)
  {
    if listing != [] {
      var n := |listing| - 1;
      assert NoDuplicates(listing[..n]);
      SelectStemsDistinct(listing[..n], season, year);
      SelectStemsSubset(listing[..n], season, year);
      assert listing[n] !in listing[..n];
    }
  }

  /**
   * With the listing that `glob` gives, a build reads the store itself:
   * the artifact holds the batch of every monthly CSV of the key, each
   * once, and no other; nothing is written exactly when the artifact is
   * missing, every name parses and no monthly CSV of the store is of the
   * key; and the listing still is the glob of the new store.
   */
  lemma BuildSeasonFromStore(files: map<string, Table>, listing: seq<string>, season: Season, year: int)
    requires Globbed(files, listing)
    ensures Globbed(BuildSeasonSpec(files, listing, season, year).files, listing)
    ensures var b := BuildSeasonSpec(files, listing, season, year);
      b.status == Ok(Created) ==>
        var sel := SelectStems(listing, season, year).value;
        && NoDuplicates(sel)
        && forall s :: '/' !in s ==> (s in sel <==> MonthlyCsv(s) in files && InSeason(s, season, year))
    ensures var b := BuildSeasonSpec(files, listing, season, year);
      var out := NewSeasonsCsv(SeasonStem(season, year));
      b.status == Ok(NoData) <==>
        (&& out !in files
         && SelectStems(listing, season, year).Ok?
         && forall s :: MonthlyCsv(s) in files && '/' !in s ==> !InSeason(s, season, year))
  {
    var b := BuildSeasonSpec(files, listing, season, year);
    var out := NewSeasonsCsv(SeasonStem(season, year));
    BuildSeasonFrame(files, listing, season, year);
    BuildSeasonCreates(files, listing, season, year);
    SelectStemsDistinct(listing, season, year);
    forall s | MonthlyCsv(s) in b.files && '/' !in s
      ensures s in listing
    {
      DirectoriesDisjoint(s, SeasonStem(season, year));
    }
  }

  /** Calling `build_season` twice leaves the same store as calling it once. */
  lemma BuildSeasonIdempotent(files: map<string, Table>, listing: seq<string>, season: Season, year: int)
    requires Listed(files, listing)
    ensures var b := BuildSeasonSpec(files, listing, season, year);
      && Listed(b.files, listing)
      && BuildSeasonSpec(b.files, listing, season, year).files == b.files
      && (b.status == Ok(Created) ==> BuildSeasonSpec(b.files, listing, season, year).status == Ok(AlreadyExists))
  {
    BuildSeasonFrame(files, listing, season, year);
  }
}

=== FILE: summary_parts.dfy ===
/**
 * The pieces `generate_summary.py` and `generate_summary_seasonal.py` both
 * compute, each with its own copy of the code: the row count, the species
 * richness, the `top3` table, and the search for a species picture among
 * `assets/{species}.jpg`, `.png`, `.jpeg`. The HTML text is left out: a
 * page is the list of (species, image) entries it would show.
 */
module SummaryParts {
  import opened Wrappers
  import opened Errors
  import opened Tables

  const Top3Size := 3

  /** The extensions tried, in order. */
  const Extensions: seq<string> := ["jpg", "png", "jpeg"]

  /** The picture of an entry: an `<img>` of an asset, or the "img not found" placeholder. */
  datatype Image = Picture(asset: string) | NotFound

  /** One `<b>{species}</b><br>{img_tag}` section of a page. */
  datatype Entry = Entry(species: string, image: Image)

  /** The figures at the top of a page: total observations, richness and the top-3 table. */
  datatype Stats = Stats(total: nat, richness: nat, top: seq<(string, nat)>)

  /** A summary page: where it is written, its figures and its species sections. */
  datatype Page = Page(path: string, stats: Stats, entries: seq<Entry>)

  /** `value_counts().head(n).reset_index()`: each kept name with its count. */
  function Counted(vs: seq<string>, names: seq<string>): (top: seq<(string, nat)>)
    ensures |top| == |names|
    ensures forall i :: 0 <= i < |top| ==> top[i] == (names[i], Frequency(vs, names[i]))
  {
    seq(|names|, i requires 0 <= i < |names| => (names[i], Frequency(vs, names[i])))
  }

  /** The (name, count) table is the top of `vs`: counts true, names distinct, counts non-increasing, nothing more frequent left out. */
  predicate IsTopTable(top: seq<(string, nat)>, vs: seq<string>, n: nat)
  {
    && |top| <= n
    && (forall i :: 0 <= i < |top| ==> top[i].1 == Frequency(vs, top[i].0) && top[i].0 in vs)
    && (forall i, j :: 0 <= i < j < |top| ==> top[i].0 != top[j].0 && top[i].1 >= top[j].1)
    && (forall v :: v in vs && (forall i :: 0 <= i < |top| ==> top[i].0 != v) ==>
          |top| == n && forall i :: 0 <= i < |top| ==> top[i].1 >= Frequency(vs, v))
  }

  lemma CountedTop(vs: seq<string>, n: nat)
    ensures IsTopTable(Counted(vs, Top(vs, n)), vs, n)
  {
    var names := Top(vs, n);
    var top := Counted(vs, names);
    TopIsTop(vs, n);
    assert forall i :: 0 <= i < |top| ==> top[i].0 == names[i] && names[i] in names;
  }

  /**
   * `top3(col)`: the (Name, Count) rows of `df[col].dropna().value_counts().head(3)`;
   * an empty table when the column is absent.
   */
  function Top3(t: Table, f: Field): (top: seq<(string, nat)>)
    ensures |top| <= Top3Size
    ensures f.Column() !in t.columns ==> top == []
    ensures f.Column() in t.columns ==> IsTopTable(top, Present(Values(t.rows, f)), Top3Size)
  {
    if f.Column() !in t.columns then []
    else
      var vs := Present(Values(t.rows, f));
      CountedTop(vs, Top3Size);
      Counted(vs, Top(vs, Top3Size))
  }

  /** `df["scientificName"].nunique()`: `KeyError` when the column is absent. */
  function Richness(t: Table): (r: Result<nat, PyError>)
    ensures r.Err? <==> ScientificName !in t.columns
    ensures r.Ok? ==> r.value == |set o | o in Values(t.rows, ScientificNameField) && o.Some? :: o.value|
    ensures r.Ok? ==> r.value <= |t.rows|
  {
    if ScientificName !in t.columns then Err(KeyError(ScientificName))
    else Ok(DistinctPresent(Values(t.rows, ScientificNameField)))
  }

  /** The figures of a frame: its row count, its richness and its top-3 common names. */
  function StatsOf(t: Table): (r: Result<Stats, PyError>)
    ensures r.Err? <==> ScientificName !in t.columns
    ensures r.Ok? ==> r.value.total == |t.rows| && r.value.top == Top3(t, CommonNameField)
  {
    match Richness(t)
    case Err(e) => Err(e)
    case Ok(k) => Ok(Stats(|t.rows|, k, Top3(t, CommonNameField)))
  }

  /** `{species}.{ext}`: an asset's file name. */
  function AssetName(species: string, ext: string): string
  {
    species + "." + ext
  }

  /** The first extension from `k` on whose asset exists; `NotFound` when none does. */
  function ImageFrom(species: string, assets: set<string>, k: nat): Image
    decreases |Extensions| - k
  {
    if k >= |Extensions| then NotFound
    else if AssetName(species, Extensions[k]) in assets then Picture(AssetName(species, Extensions[k]))
    else ImageFrom(species, assets, k + 1)
  }

  /** The image the search settles on, starting from `.jpg`. */
  function FirstImage(species: string, assets: set<string>): Image
  {
    ImageFrom(species, assets, 0)
  }

  /**
   * The search picks the first extension, in the order jpg, png, jpeg,
   * whose asset exists, and the placeholder exactly when none exists.
   */
  lemma {:induction false} FirstImageIsFirst(species: string, assets: set<string>)
    ensures FirstImage(species, assets) == NotFound <==>
              forall k :: 0 <= k < |Extensions| ==> AssetName(species, Extensions[k]) !in assets
    ensures forall k :: 0 <= k < |Extensions| ==>
              (FirstImage(species, assets) == Picture(AssetName(species, Extensions[k])) <==>
                 AssetName(species, Extensions[k]) in assets &&
                 forall j :: 0 <= j < k ==> AssetName(species, Extensions[j]) !in assets)
  {
    AssetNamesDistinct(species);
  }

  /** The three candidate assets of a species are three different files. */
  lemma AssetNamesDistinct(species: string)
    ensures AssetName(species, "jpg") != AssetName(species, "png")
    ensures AssetName(species, "jpg") != AssetName(species, "jpeg")
    ensures AssetName(species, "png") != AssetName(species, "jpeg")
  {
    assert AssetName(species, "jpg")[|species| + 1] == 'j';
    assert AssetName(species, "png")[|species| + 1] == 'p';
    assert |AssetName(species, "jpg")| == |AssetName(species, "png")| < |AssetName(species, "jpeg")|;
  }

  /**
   * The inner loop as the seasonal summary writes it: tries each extension
   * in turn and stops at the first asset that exists.
   */
  method FindImage(species: string, assets: set<string>) returns (img: Image)
    ensures img == FirstImage(species, assets)
  {
    img := NotFound;
    var found := false;
    var k := 0;
    while k < |Extensions|
      invariant 0 <= k <= |Extensions|
      invariant !found && img == NotFound
      invariant FirstImage(species, assets) == ImageFrom(species, assets, k)
    {
      if AssetName(species, Extensions[k]) in assets {
        img := Picture(AssetName(species, Extensions[k]));
        found := true;
        break;
      }
      k := k + 1;
    }
    if !found {
      img := NotFound;
    }
  }

  /** One section per top species, in top-3 order, each with the image the search picks. */
  function Entries(top: seq<(string, nat)>, assets: set<string>): (es: seq<Entry>)
    ensures |es| == |top|
  {
    seq(|top|, i requires 0 <= i < |top| => Entry(top[i].0, FirstImage(top[i].0, assets)))
  }

  /** The emission loop of the seasonal summary: each species once, with its image. */
  method Emit(top: seq<(string, nat)>, assets: set<string>) returns (entries: seq<Entry>)
    ensures |entries| == |top|
    ensures forall i :: 0 <= i < |top| ==> entries[i] == Entry(top[i].0, FirstImage(top[i].0, assets))
  {
    entries := [];
    var i := 0;
    while i < |top|
      invariant 0 <= i <= |top|
      invariant entries == Entries(top[..i], assets)
    {
      var img := FindImage(top[i].0, assets);
      entries := entries + [Entry(top[i].0, img)];
      i := i + 1;
    }
    assert top[..i] == top;
  }
}

=== FILE: tables.dfy ===
/**
 * Observation tables as the scripts see them through pandas: a set of column
 * names and a sequence of rows whose missing cells are NaN. Also the two
 * pandas expressions the scripts aggregate with: `pd.concat` and
 * `Series.dropna().value_counts().head(n)`.
 */
module Tables {
  import opened Wrappers

  const CommonName := "commonName"
  const ScientificName := "scientificName"
  const Habitat := "habitatSpecialization"
  const Migratory := "migratoryPattern"
  const Longitude := "longitude"
  const Latitude := "latitude"
  const MonthColumn := "month"
  const YearColumn := "year"

  /** A WGS84 coordinate (EPSG:4326): longitude, then latitude. */
  datatype Point = Point(lon: real, lat: real)

  /** One eBird observation; `None` is a missing (NaN) cell. */
  datatype Row = Row(
    commonName: Option<string>,
    scientificName: Option<string>,
    habitat: Option<string>,
    migratory: Option<string>,
    location: Point,
    month: Option<int>,
    year: Option<int>)

  /** A data frame: the columns it has and its rows, in order. */
  datatype Table = Table(columns: set<string>, rows: seq<Row>)

  /** The text-valued columns the scripts count values of. */
  datatype Field = CommonNameField | ScientificNameField | HabitatField | MigratoryField
  {
    function Column(): string
    {
      match this
      case CommonNameField => CommonName
      case ScientificNameField => ScientificName
      case HabitatField => Habitat
      case MigratoryField => Migratory
    }

    function Get(r: Row): Option<string>
    {
      match this
      case CommonNameField => r.commonName
      case ScientificNameField => r.scientificName
      case HabitatField => r.habitat
      case MigratoryField => r.migratory
    }
  }

  /** Every present cell belongs to a column the table has (what `read_csv` guarantees). */
  predicate Conforms(t: Table)
  {
    && (forall r, f: Field :: r in t.rows && f.Get(r).Some? ==> f.Column() in t.columns)
    && (forall r :: r in t.rows && r.month.Some? ==> MonthColumn in t.columns)
    && (forall r :: r in t.rows && r.year.Some? ==> YearColumn in t.columns)
  }

  /** `df[field]`: the column's cells, in row order. */
  function Values(rows: seq<Row>, f: Field): (vs: seq<Option<string>>)
    ensures |vs| == |rows| && forall i :: 0 <= i < |rows| ==> vs[i] == f.Get(rows[i])
  {
    seq(|rows|, i requires 0 <= i < |rows| => f.Get(rows[i]))
  }

  // ---------------------------------------------------------------------
  // pd.concat(dfs, ignore_index=True)
  // ---------------------------------------------------------------------

  function TotalRows(ts: seq<Table>): nat
  {
    if ts == [] then 0 else TotalRows(ts[..|ts| - 1]) + |ts[|ts| - 1].rows|
  }

  /** The rows of the tables one after the other, each table's rows in their own order. */
  function AllRows(ts: seq<Table>): (rows: seq<Row>)
    ensures |rows| == TotalRows(ts)
    ensures forall r :: r in rows <==> exists t :: t in ts && r in t.rows
  {
    if ts == [] then []
    else
      var init := AllRows(ts[..|ts| - 1]);
      assert forall t :: t in ts <==> t in ts[..|ts| - 1] || t == ts[|ts| - 1];
      init + ts[|ts| - 1].rows
  }

  function AllColumns(ts: seq<Table>): (cols: set<string>)
    ensures forall c :: c in cols <==> exists t :: t in ts && c in t.columns
  {
    if ts == [] then {}
    else
      assert forall t :: t in ts <==> t in ts[..|ts| - 1] || t == ts[|ts| - 1];
      AllColumns(ts[..|ts| - 1]) + ts[|ts| - 1].columns
  }

  /**
   * `pd.concat(dfs, ignore_index=True)`: the union of the columns and the rows
   * of every frame in list order. pandas raises on an empty list; every caller
   * checks for that first.
   */
  function Concat(ts: seq<Table>): (t: Table)
    requires |ts| >= 1
    ensures |t.rows| == TotalRows(ts)
    ensures forall i :: 0 <= i < |ts| ==> ts[i].columns <= t.columns
    ensures (forall i :: 0 <= i < |ts| ==> Conforms(ts[i])) ==> Conforms(t)
  {
    var t := Table(AllColumns(ts), AllRows(ts));
    assert forall i :: 0 <= i < |ts| ==> ts[i] in ts;
    t
  }

  /** Concatenating two lists of frames concatenates their rows. */
  lemma {:induction false} AllRowsAppend(ts: seq<Table>, us: seq<Table>)
    ensures AllRows(ts + us) == AllRows(ts) + AllRows(us)
    decreases |us|
  {
    if us == [] {
      assert ts + us == ts;
    } else {
      var n := |us| - 1;
      assert (ts + us)[..|ts + us| - 1] == ts + us[..n];
      AllRowsAppend(ts, us[..n]);
    }
  }

  /** The frame of a single batch: concatenating one frame gives its rows back. */
  lemma AllRowsSingle(t: Table)
    ensures AllRows([t]) == t.rows
  {
    assert [t][..0] == [];
  }

  /**
   * Each batch's rows appear in the concatenation exactly once, as one
   * block in their own order, after the rows of the batches before it.
   */
  lemma AllRowsPlacement(ts: seq<Table>, k: nat)
    requires k < |ts|
    ensures TotalRows(ts[..k]) + |ts[k].rows| <= |AllRows(ts)|
    ensures AllRows(ts)[TotalRows(ts[..k])..TotalRows(ts[..k]) + |ts[k].rows|] == ts[k].rows
  {
    assert ts == ts[..k] + ([ts[k]] + ts[k + 1..]);
    AllRowsAppend(ts[..k], [ts[k]] + ts[k + 1..]);
    AllRowsAppend([ts[k]], ts[k + 1..]);
    AllRowsSingle(ts[k]);
    var before := AllRows(ts[..k]);
    assert AllRows(ts) == before + ts[k].rows + AllRows(ts[k + 1..]);
  }

  /** Row counts add up over a concatenation. */
  lemma {:induction false} TotalRowsAppend(ts: seq<Table>, us: seq<Table>)
    ensures TotalRows(ts + us) == TotalRows(ts) + TotalRows(us)
  {
    AllRowsAppend(ts, us);
  }

  // ---------------------------------------------------------------------
  // Series.dropna().value_counts().head(n).index
  // ---------------------------------------------------------------------

  predicate NoDuplicates<T(==)>(s: seq<T>)
  {
    forall i, j :: 0 <= i < j < |s| ==> s[i] != s[j]
  }

  /** `Series.dropna()`: the present values, in order. */
  function Present(xs: seq<Option<string>>): (vs: seq<string>)
    ensures |vs| <= |xs|
    ensures forall v :: v in vs <==> Some(v) in xs
  {
    if xs == [] then []
    else
      var init := Present(xs[..|xs| - 1]);
      assert forall o :: o in xs <==> o in xs[..|xs| - 1] || o == xs[|xs| - 1];
      if xs[|xs| - 1].Some? then init + [xs[|xs| - 1].value] else init
  }

  /** How often `v` occurs in `xs` (the count `value_counts` reports for `v`). */
  function Frequency(xs: seq<string>, v: string): nat
  {
    if xs == [] then 0
    else Frequency(xs[..|xs| - 1], v) + if xs[|xs| - 1] == v then 1 else 0
  }

  /** The distinct values of `xs`, in order of first appearance. */
  function Distinct(xs: seq<string>): (ds: seq<string>)
    ensures |ds| <= |xs|
    ensures NoDuplicates(ds)
    ensures forall v :: v in ds <==> v in xs
  {
    if xs == [] then []
    else
      var init := Distinct(xs[..|xs| - 1]);
      var last := xs[|xs| - 1];
      assert forall v :: v in xs <==> v in xs[..|xs| - 1] || v == last;
      if last in init then init else init + [last]
  }

  /** `s` is ordered by non-increasing frequency in `xs`. */
  predicate ByFrequency(s: seq<string>, xs: seq<string>)
  {
    forall i, j :: 0 <= i < j < |s| ==> Frequency(xs, s[i]) >= Frequency(xs, s[j])
  }

  /** Putting a value in front of a ranked list keeps it ranked when no later value is more frequent. */
  lemma ConsByFrequency(h: string, rest: seq<string>, xs: seq<string>)
    requires ByFrequency(rest, xs)
    requires forall e :: e in rest ==> Frequency(xs, h) >= Frequency(xs, e)
    ensures ByFrequency([h] + rest, xs)
  {
    var r := [h] + rest;
    forall i, j | 0 <= i < j < |r| ensures Frequency(xs, r[i]) >= Frequency(xs, r[j]) {
      assert r[j] == rest[j - 1];
      if i > 0 { assert r[i] == rest[i - 1]; }
    }
  }

  lemma ConsNoDuplicates(h: string, rest: seq<string>)
    requires NoDuplicates(rest) && h !in rest
    ensures NoDuplicates([h] + rest)
  {
    var r := [h] + rest;
    forall i, j | 0 <= i < j < |r| ensures r[i] != r[j] {
      assert r[j] == rest[j - 1];
      if i > 0 { assert r[i] == rest[i - 1]; }
    }
  }

  /** Inserts `v` after every value at least as frequent: a stable insertion step. */
  function InsertByFrequency(v: string, ranked: seq<string>, xs: seq<string>): (r: seq<string>)
    ensures |r| == |ranked| + 1
    decreases |ranked|
  {
    if ranked == [] then [v]
    else if Frequency(xs, ranked[0]) >= Frequency(xs, v) then [ranked[0]] + InsertByFrequency(v, ranked[1..], xs)
    else [v] + ranked
  }

  /** Insertion adds exactly `v`: the result is a permutation of `ranked` plus `v`. */
  lemma {:induction false} InsertByFrequencyPermutes(v: string, ranked: seq<string>, xs: seq<string>)
    ensures multiset(InsertByFrequency(v, ranked, xs)) == multiset(ranked) + multiset{v}
    decreases |ranked|
  {
    if ranked != [] {
      assert ranked == [ranked[0]] + ranked[1..];
      if Frequency(xs, ranked[0]) >= Frequency(xs, v) {
        InsertByFrequencyPermutes(v, ranked[1..], xs);
      }
    }
  }

  /** Insertion keeps a list ranked by non-increasing frequency. */
  lemma {:induction false} InsertByFrequencyRanks(v: string, ranked: seq<string>, xs: seq<string>)
    requires ByFrequency(ranked, xs)
    ensures ByFrequency(InsertByFrequency(v, ranked, xs), xs)
    decreases |ranked|
  {
    if ranked != [] {
      if Frequency(xs, ranked[0]) >= Frequency(xs, v) {
        var rest := InsertByFrequency(v, ranked[1..], xs);
        InsertByFrequencyRanks(v, ranked[1..], xs);
        InsertByFrequencyPermutes(v, ranked[1..], xs);
        forall e | e in rest ensures Frequency(xs, ranked[0]) >= Frequency(xs, e) {
          assert e in multiset(rest);
          if e != v {
            assert e in multiset(ranked[1..]);
            var k :| 0 <= k < |ranked[1..]| && ranked[1..][k] == e;
            assert ranked[k + 1] == e;
          }
        }
        ConsByFrequency(ranked[0], rest, xs);
      } else {
        forall e | e in ranked ensures Frequency(xs, v) >= Frequency(xs, e) {
          var k :| 0 <= k < |ranked| && ranked[k] == e;
        }
        ConsByFrequency(v, ranked, xs);
      }
    }
  }

  /** Inserting a new value into a duplicate-free list gives a duplicate-free list. */
  lemma {:induction false} InsertByFrequencyNoDuplicates(v: string, ranked: seq<string>, xs: seq<string>)
    ensures NoDuplicates(ranked) && v !in ranked ==> NoDuplicates(InsertByFrequency(v, ranked, xs))
    decreases |ranked|
  {
    if ranked != [] && NoDuplicates(ranked) && v !in ranked {
      if Frequency(xs, ranked[0]) >= Frequency(xs, v) {
        var rest := InsertByFrequency(v, ranked[1..], xs);
        InsertByFrequencyNoDuplicates(v, ranked[1..], xs);
        InsertByFrequencyPermutes(v, ranked[1..], xs);
        assert ranked[0] !in ranked[1..];
        assert ranked[0] !in multiset(rest);
        ConsNoDuplicates(ranked[0], rest);
      } else {
        ConsNoDuplicates(v, ranked);
      }
    }
  }

  /** The distinct values `ds` ordered by non-increasing frequency in `xs`, ties in `ds` order. */
  function RankByFrequency(ds: seq<string>, xs: seq<string>): (r: seq<string>)
    ensures ByFrequency(r, xs)
    ensures multiset(r) == multiset(ds)
    ensures NoDuplicates(ds) ==> NoDuplicates(r)
  {
    if ds == [] then []
    else
      var n := |ds| - 1;
      assert ds == ds[..n] + [ds[n]];
      assert NoDuplicates(ds) ==> ds[n] !in ds[..n];
      var init := RankByFrequency(ds[..n], xs);
      assert ds[n] in init <==> ds[n] in multiset(ds[..n]);
      InsertByFrequencyRanks(ds[n], init, xs);
      InsertByFrequencyPermutes(ds[n], init, xs);
      InsertByFrequencyNoDuplicates(ds[n], init, xs);
      InsertByFrequency(ds[n], init, xs)
  }

  /**
   * `xs.value_counts().head(n).index.tolist()` on values already stripped of
   * NaN. pandas leaves the order of equally frequent values to its hashing;
   * the model breaks ties by first appearance in `xs`.
   */
  function Top(xs: seq<string>, n: nat): seq<string>
  {
    var ranked := RankByFrequency(Distinct(xs), xs);
    if |ranked| <= n then ranked else ranked[..n]
  }

  /**
   * The top-`n` list has at most `n` distinct values, all taken from `xs`,
   * ordered by non-increasing frequency, and no value left out is more
   * frequent than one kept; it is shorter than `n` only when it holds every
   * distinct value.
   */
  lemma TopIsTop(xs: seq<string>, n: nat)
    ensures |Top(xs, n)| <= n
    ensures |Top(xs, n)| == if |Distinct(xs)| <= n then |Distinct(xs)| else n
    ensures NoDuplicates(Top(xs, n))
    ensures forall v :: v in Top(xs, n) ==> v in xs
    ensures ByFrequency(Top(xs, n), xs)
    ensures forall v :: v in xs && v !in Top(xs, n) ==>
              |Top(xs, n)| == n && forall u :: u in Top(xs, n) ==> Frequency(xs, u) >= Frequency(xs, v)
  {
    var ranked := RankByFrequency(Distinct(xs), xs);
    var r := Top(xs, n);
    RankedFacts(xs);
    var k := if |ranked| <= n then |ranked| else n;
    assert r == ranked[..k];
    PrefixRanked(ranked, xs, k);
    forall v | v in xs && v !in r
      ensures |r| == n && forall u :: u in r ==> Frequency(xs, u) >= Frequency(xs, v)
    {
      TopLeftOut(xs, n, v);
    }
  }

  /** The ranking holds every distinct value of `xs` once. */
  lemma RankedFacts(xs: seq<string>)
    ensures var ranked := RankByFrequency(Distinct(xs), xs);
      && |ranked| == |Distinct(xs)|
      && NoDuplicates(ranked)
      && forall v :: v in ranked <==> v in xs
  {
    var ds := Distinct(xs);
    var ranked := RankByFrequency(ds, xs);
    assert |ranked| == |ds| by {
      assert |multiset(ranked)| == |multiset(ds)|;
    }
    forall v ensures v in ranked <==> v in xs {
      assert v in ranked <==> v in multiset(ranked);
      assert v in ds <==> v in multiset(ds);
    }
  }

  /** A prefix of a ranked list without duplicates is ranked, without duplicates and drawn from it. */
  lemma PrefixRanked(s: seq<string>, xs: seq<string>, k: nat)
    requires ByFrequency(s, xs) && NoDuplicates(s) && k <= |s|
    ensures ByFrequency(s[..k], xs) && NoDuplicates(s[..k])
    ensures forall v :: v in s[..k] ==> v in s
  {
  }

  /** A value of a ranked list that is not in its first `k` entries is no more frequent than any of them. */
  lemma PrefixDominates(s: seq<string>, xs: seq<string>, k: nat, v: string)
    requires ByFrequency(s, xs) && k <= |s|
    requires v in s && v !in s[..k]
    ensures forall u :: u in s[..k] ==> Frequency(xs, u) >= Frequency(xs, v)
  {
    forall u | u in s[..k] ensures Frequency(xs, u) >= Frequency(xs, v) {
      var i :| 0 <= i < k && s[..k][i] == u;
      assert s[i] == u;
    }
  }

  /** A value of `xs` left out of the top list is no more frequent than any value kept, and the list is full. */
  lemma TopLeftOut(xs: seq<string>, n: nat, v: string)
    requires v in xs && v !in Top(xs, n)
    ensures |Top(xs, n)| == n && forall u :: u in Top(xs, n) ==> Frequency(xs, u) >= Frequency(xs, v)
  {
    var ranked := RankByFrequency(Distinct(xs), xs);
    RankedFacts(xs);
    assert v in ranked;
    assert Top(xs, n) == ranked[..n];
    PrefixDominates(ranked, xs, n, v);
  }

  /** The top list never holds more values than there are present ones. */
  lemma TopOfNothing(n: nat)
    ensures Top([], n) == []
  {
  }

  /** A duplicate-free sequence has as many elements as its set. */
  lemma {:induction false} DistinctCardinality(ds: seq<string>)
    requires NoDuplicates(ds)
    ensures |set v | v in ds| == |ds|
  {
    if ds != [] {
      var n := |ds| - 1;
      DistinctCardinality(ds[..n]);
      assert (set v | v in ds) == (set v | v in ds[..n]) + {ds[n]};
      assert ds[n] !in (set v | v in ds[..n]);
    }
  }

  /** The values of a sequence drawn from `b` are no more than `b` holds. */
  lemma {:induction false} SetOfSeqCard(xs: seq<int>, b: set<int>)
    requires forall i :: 0 <= i < |xs| ==> xs[i] in b
    ensures |set x | x in xs| <= |b|
  {
    if xs != [] {
      var n := |xs| - 1;
      var init := xs[..n];
      assert (set x | x in xs) == (set x | x in init) + {xs[n]};
      if xs[n] in (set x | x in init) {
        SetOfSeqCard(init, b);
      } else {
        SetOfSeqCard(init, b - {xs[n]});
      }
    }
  }

  /** `Series.nunique()`: the number of distinct present values. */
  function DistinctPresent(xs: seq<Option<string>>): (k: nat)
    ensures k == |set o | o in xs && o.Some? :: o.value|
    ensures k <= |xs|
  {
    var ds := Distinct(Present(xs));
    DistinctCardinality(ds);
    assert (set v | v in ds) == (set o | o in xs && o.Some? :: o.value);
    |ds|
  }
}

=== FILE: text.dfy ===
/**
 * The string handling the scripts rely on: Python's `str(int)` and `int(str)`,
 * `str.split("_")`, the English month names of `calendar.month_name` and the
 * case-insensitive full-month-name match of `strptime("%B")`.
 */
module Text {
  import opened Wrappers

  predicate IsDigit(c: char) { '0' <= c <= '9' }

  predicate AllDigits(s: string) { forall i :: 0 <= i < |s| ==> IsDigit(s[i]) }

  function DigitChar(d: nat): (c: char)
    requires d < 10
    ensures IsDigit(c) && c as int - '0' as int == d
  {
    ('0' as int + d) as char
  }

  function DigitValue(c: char): nat
    requires IsDigit(c)
  {
    c as int - '0' as int
  }

  /** The decimal digits of `n`, most significant first, without leading zeros. */
  function Digits(n: nat): (s: string)
    ensures |s| >= 1 && AllDigits(s)
    decreases n
  {
    if n < 10 then [DigitChar(n)] else Digits(n / 10) + [DigitChar(n % 10)]
  }

  /** The value of a string of digits (leading zeros allowed). */
  function DigitsValue(s: string): nat
    requires AllDigits(s)
    decreases |s|
  {
    if s == [] then 0 else DigitsValue(s[..|s| - 1]) * 10 + DigitValue(s[|s| - 1])
  }

  /** Python's `str(n)` (and the `{n}` of an f-string) for an `int`. */
  function DecimalString(n: int): (s: string)
    ensures |s| >= 1 && (IsDigit(s[0]) || s[0] == '-')
    ensures forall i :: 0 <= i < |s| ==> IsDigit(s[i]) || s[i] == '-'
  {
    if n < 0 then "-" + Digits(-n) else Digits(n)
  }

  /**
   * The ASCII characters `int()` strips around a number: tab, line feed,
   * vertical tab, form feed, carriage return, the four separators 0x1C-0x1F
   * and the space.
   */
  predicate IsSpace(c: char) { 9 <= c as int <= 13 || 28 <= c as int <= 32 }

  function StripStart(s: string): string
    decreases |s|
  {
    if |s| > 0 && IsSpace(s[0]) then StripStart(s[1..]) else s
  }

  function StripEnd(s: string): string
    decreases |s|
  {
    if |s| > 0 && IsSpace(s[|s| - 1]) then StripEnd(s[..|s| - 1]) else s
  }

  /** `s.strip()` restricted to the ASCII whitespace of `IsSpace`. */
  function Strip(s: string): string
  {
    StripEnd(StripStart(s))
  }

  /** Text that neither starts nor ends with whitespace is left as it is. */
  lemma StripNothing(s: string)
    requires |s| > 0 && !IsSpace(s[0]) && !IsSpace(s[|s| - 1])
    ensures Strip(s) == s
  {
    assert StripStart(s) == s;
  }

  /**
   * The digit part `int()` accepts: ASCII digits, where a single `_` may
   * stand between two digits.
   */
  predicate DigitGroups(s: string)
    decreases |s|
  {
    && |s| >= 1 && IsDigit(s[|s| - 1])
    && (|| |s| == 1
        || DigitGroups(s[..|s| - 1])
        || (s[|s| - 2] == '_' && DigitGroups(s[..|s| - 2])))
  }

  /** The value of an accepted digit part, underscores skipped. */
  function GroupsValue(s: string): nat
    requires DigitGroups(s)
    decreases |s|
  {
    var d := DigitValue(s[|s| - 1]);
    if |s| == 1 then d
    else if DigitGroups(s[..|s| - 1]) then GroupsValue(s[..|s| - 1]) * 10 + d
    else GroupsValue(s[..|s| - 2]) * 10 + d
  }

  /** A plain digit string is an accepted digit part with its ordinary value. */
  lemma {:induction false} DigitsAreGroups(s: string)
    requires AllDigits(s) && |s| >= 1
    ensures DigitGroups(s) && GroupsValue(s) == DigitsValue(s)
    decreases |s|
  {
    if |s| > 1 {
      DigitsAreGroups(s[..|s| - 1]);
    } else {
      assert s[..0] == [];
    }
  }

  /** An accepted digit part starts with a digit. */
  lemma {:induction false} GroupsStartWithDigit(s: string)
    requires |s| >= 1
    ensures DigitGroups(s) ==> IsDigit(s[0])
    decreases |s|
  {
    if |s| > 1 {
      GroupsStartWithDigit(s[..|s| - 1]);
      assert s[..|s| - 1][0] == s[0];
      if |s| > 2 {
        GroupsStartWithDigit(s[..|s| - 2]);
        assert s[..|s| - 2][0] == s[0];
      } else {
        assert !DigitGroups(s[..0]);
      }
    }
  }

  /**
   * Python's `int(s)` on ASCII text: surrounding whitespace is stripped,
   * then an optional sign and a digit part; anything else raises
   * `ValueError`, modelled as `None`.
   */
  function ParseInt(s: string): Option<int>
  {
    var t := Strip(s);
    if |t| >= 2 && (t[0] == '-' || t[0] == '+') && DigitGroups(t[1..]) then
      Some(if t[0] == '-' then -(GroupsValue(t[1..]) as int) else GroupsValue(t[1..]) as int)
    else if DigitGroups(t) then
      Some(GroupsValue(t))
    else
      None
  }

  /** Whitespace before a number does not change what `int()` reads. */
  lemma LeadingSpaceIgnored(c: char, s: string)
    requires IsSpace(c)
    ensures ParseInt([c] + s) == ParseInt(s)
  {
    assert ([c] + s)[1..] == s;
  }

  lemma {:induction false} StripStartAppend(s: string, c: char)
    requires IsSpace(c)
    ensures StripStart(s + [c]) == if StripStart(s) == [] then [] else StripStart(s) + [c]
    decreases |s|
  {
    if |s| > 0 && IsSpace(s[0]) {
      assert (s + [c])[1..] == s[1..] + [c];
      StripStartAppend(s[1..], c);
    } else if |s| == 0 {
      assert s + [c] == [c];
      assert [c][1..] == [];
    }
  }

  /** Whitespace after a number does not change what `int()` reads. */
  lemma TrailingSpaceIgnored(s: string, c: char)
    requires IsSpace(c)
    ensures ParseInt(s + [c]) == ParseInt(s)
  {
    StripStartAppend(s, c);
    var t := StripStart(s);
    if t != [] {
      assert (t + [c])[..|t + [c]| - 1] == t;
    }
  }

  lemma YearDigits()
    ensures ParseInt("2025") == Some(2025)
  {
    assert DigitsValue("2025") == 2025 by {
      assert "2025"[..3] == "202" && "202"[..2] == "20" && "20"[..1] == "2" && "2"[..0] == "";
    }
    DigitsAreGroups("2025");
    StripNothing("2025");
  }

  lemma YearWithUnderscore()
    ensures ParseInt("2_025") == Some(2025)
  {
    var s := "2_025";
    StripNothing(s);
    DigitsAreGroups("025");
    assert s[..4] == "2_02" && s[..4][..3] == "2_0" && s[..4][..3][..2] == "2_" && s[..4][..3][..2][..1] == "2";
    assert s[..4][..3][..1] == "2";
    assert DigitGroups("2");
    assert !DigitGroups("2_");
    assert DigitGroups("2_0");
    assert GroupsValue("2_0") == 20;
    assert GroupsValue("2_02") == 202;
    assert GroupsValue(s) == 2025;
  }

  /** `int()` reads a year with surrounding whitespace, with a sign, or with an underscore between digits. */
  lemma ParseIntAccepts()
    ensures ParseInt("2025") == Some(2025)
    ensures ParseInt("2025 ") == Some(2025)
    ensures ParseInt("2_025") == Some(2025)
    ensures ParseInt("-2025") == Some(-2025)
  {
    YearDigits();
    YearWithUnderscore();
    TrailingSpaceIgnored("2025", ' ');
    assert "2025" + [' '] == "2025 ";
    StripNothing("-2025");
    assert "-2025"[1..] == "2025";
  }

  /** `int()` rejects doubled, leading or trailing underscores, inner whitespace and empty text. */
  lemma ParseIntRejects()
    ensures ParseInt("20__25") == None
    ensures ParseInt("_2025") == None
    ensures ParseInt("2025_") == None
    ensures ParseInt("20 25") == None
    ensures ParseInt("") == None
  {
    StripNothing("20__25");
    assert "20__25"[..5] == "20__2" && "20__2"[..4] == "20__" && "20__2"[..3] == "20_";
    assert !DigitGroups("20__2");
    StripNothing("_2025");
    GroupsStartWithDigit("_2025");
    StripNothing("2025_");
    StripNothing("20 25");
    assert "20 25"[2] == ' ';
  }

  lemma {:induction false} DigitsRoundTrip(n: nat)
    ensures DigitsValue(Digits(n)) == n
    decreases n
  {
    if n >= 10 {
      var s := Digits(n / 10);
      DigitsRoundTrip(n / 10);
      assert (s + [DigitChar(n % 10)])[..|s|] == s;
    }
  }

  /** `int(str(n)) == n`: the year written into a file name parses back to itself. */
  lemma {:induction false} ParseDecimalString(n: int)
    ensures ParseInt(DecimalString(n)) == Some(n)
  {
    var s := DecimalString(n);
    StripNothing(s);
    var d := if n < 0 then Digits(-n) else Digits(n);
    DigitsRoundTrip(if n < 0 then -n else n);
    DigitsAreGroups(d);
    if n < 0 {
      assert s[1..] == d;
    }
  }

  /** Python's `s.split(sep)` for a one-character separator. */
  function Split(s: string, sep: char): (parts: seq<string>)
    ensures |parts| >= 1
    ensures forall i :: 0 <= i < |parts| ==> sep !in parts[i]
    decreases |s|
  {
    if |s| == 0 then [""]
    else
      var rest := Split(s[1..], sep);
      if s[0] == sep then [""] + rest else [[s[0]] + rest[0]] + rest[1..]
  }

  /** Python's `sep.join(parts)`. */
  function Join(parts: seq<string>, sep: char): string
    requires |parts| >= 1
    decreases |parts|
  {
    if |parts| == 1 then parts[0] else parts[0] + [sep] + Join(parts[1..], sep)
  }

  /** Splitting a string and joining the parts gives the string back. */
  lemma {:induction false} JoinSplit(s: string, sep: char)
    ensures Join(Split(s, sep), sep) == s
    decreases |s|
  {
    if |s| > 0 {
      JoinSplit(s[1..], sep);
      var rest := Split(s[1..], sep);
      if s[0] != sep && |rest| > 1 {
        assert ([[s[0]] + rest[0]] + rest[1..])[1..] == rest[1..];
      }
    }
  }

  lemma {:induction false} SplitPrefix(a: string, t: string, sep: char)
    requires sep !in a
    ensures Split(a + t, sep) == [a + Split(t, sep)[0]] + Split(t, sep)[1..]
    decreases |a|
  {
    if |a| > 0 {
      assert (a + t)[1..] == a[1..] + t;
      SplitPrefix(a[1..], t, sep);
      assert [a[0]] + (a[1..] + Split(t, sep)[0]) == a + Split(t, sep)[0];
    } else {
      assert a == [];
      assert a + t == t && a + Split(t, sep)[0] == Split(t, sep)[0];
      assert Split(t, sep) == [Split(t, sep)[0]] + Split(t, sep)[1..];
    }
  }

  /** Joining parts that do not contain the separator and splitting again gives the parts back. */
  lemma {:induction false} SplitJoin(parts: seq<string>, sep: char)
    requires |parts| >= 1
    requires forall i :: 0 <= i < |parts| ==> sep !in parts[i]
    ensures Split(Join(parts, sep), sep) == parts
    decreases |parts|
  {
    if |parts| == 1 {
      SplitPrefix(parts[0], "", sep);
      assert parts[0] + "" == parts[0];
    } else {
      var rest := Join(parts[1..], sep);
      SplitJoin(parts[1..], sep);
      assert parts[0] + [sep] + rest == parts[0] + ([sep] + rest);
      SplitPrefix(parts[0], [sep] + rest, sep);
      assert ([sep] + rest)[1..] == rest;
      assert Split([sep] + rest, sep) == [""] + Split(rest, sep);
      assert Join(parts, sep) == parts[0] + ([sep] + rest);
      assert parts[0] + "" == parts[0];
      assert parts == [parts[0]] + parts[1..];
    }
  }

  /** `calendar.month_name[1..12]`. */
  const MonthNames: seq<string> := ["January", "February", "March", "April", "May", "June",
    "July", "August", "September", "October", "November", "December"]

  function MonthName(m: int): string
    requires 1 <= m <= 12
  {
    MonthNames[m - 1]
  }

  function LowerChar(c: char): char
  {
    if 'A' <= c <= 'Z' then (c as int + 32) as char else c
  }

  /** Equality up to ASCII letter case. */
  predicate SameIgnoringCase(s: string, t: string)
  {
    |s| == |t| && forall i :: 0 <= i < |s| ==> LowerChar(s[i]) == LowerChar(t[i])
  }

  /** The first month `m` or later whose English name matches `s`, ignoring case. */
  function MonthFrom(s: string, m: int): (r: Option<int>)
    requires 1 <= m <= 13
    ensures r.Some? ==> m <= r.value <= 12 && SameIgnoringCase(s, MonthName(r.value))
    ensures r.None? ==> forall k :: m <= k <= 12 ==> !SameIgnoringCase(s, MonthName(k))
    decreases 13 - m
  {
    if m == 13 then None
    else if SameIgnoringCase(s, MonthName(m)) then Some(m)
    else MonthFrom(s, m + 1)
  }

  /**
   * `datetime.strptime(s, "%B").month`: the number of the month whose full
   * English name `s` is, ignoring ASCII case; `None` where strptime raises.
   * strptime matches the name case-insensitively and then looks `s.lower()`
   * up among the lower-case month names, so only letters whose `lower()` is
   * the month name's letter count; no non-ASCII letter lowers to an ASCII
   * letter of a month name.
   */
  function ParseMonthName(s: string): (r: Option<int>)
    ensures r.Some? ==> 1 <= r.value <= 12 && SameIgnoringCase(s, MonthName(r.value))
    ensures r.None? ==> forall k :: 1 <= k <= 12 ==> !SameIgnoringCase(s, MonthName(k))
  {
    MonthFrom(s, 1)
  }

  /** No two month names are equal up to case. */
  lemma MonthNamesDistinct(m: int, k: int)
    requires 1 <= m <= 12 && 1 <= k <= 12 && m != k
    ensures !SameIgnoringCase(MonthName(m), MonthName(k))
  {
    var a, b := MonthName(m), MonthName(k);
    if |a| == |b| {
      if {a, b} == {"June", "July"} {
        assert LowerChar(a[2]) != LowerChar(b[2]);
      } else {
        assert LowerChar(a[0]) != LowerChar(b[0]);
      }
    }
  }

  /** Parsing a month's own name gives that month back. */
  lemma ParseMonthNameRoundTrip(m: int)
    requires 1 <= m <= 12
    ensures ParseMonthName(MonthName(m)) == Some(m)
  {
    var r := ParseMonthName(MonthName(m));
    assert SameIgnoringCase(MonthName(m), MonthName(m));
    if r.Some? && r.value != m {
      MonthNamesDistinct(m, r.value);
    }
  }

  /** A name that differs from every month name of its length at one position is rejected. */
  lemma RejectedAt(s: string, i: nat)
    requires i < |s|
    requires forall k :: 1 <= k <= 12 && |MonthName(k)| == |s| ==> LowerChar(s[i]) != LowerChar(MonthName(k)[i])
    ensures ParseMonthName(s).None?
  {
  }

  /**
   * Unicode case-insensitive matching equates the long s with `s`, but its
   * `lower()` is itself, so "August" spelled with it is rejected.
   */
  lemma LongSRejected()
    ensures ParseMonthName("Augu\U{017F}t").None?
  {
    RejectedAt("Augu\U{017F}t", 4);
  }

  /** Likewise the dotless i, whose `lower()` is itself, and the dotted capital I, whose `lower()` is two characters. */
  lemma TurkishIRejected()
    ensures ParseMonthName("Apr\U{0131}l").None?
    ensures ParseMonthName("APR\U{0130}L").None?
  {
    RejectedAt("Apr\U{0131}l", 3);
    RejectedAt("APR\U{0130}L", 3);
  }

  /** No month name contains `_`, a space or a digit. */
  lemma MonthNameLetters(m: int)
    requires 1 <= m <= 12
    ensures '_' !in MonthName(m) && ' ' !in MonthName(m)
    ensures |MonthName(m)| >= 1 && 'A' <= MonthName(m)[0] <= 'Z'
  {
  }
}

=== FILE: update2025.dfy ===
/**
 * `update2025_seasonmonthly.py`: a one-off rebuild over every month of 2025
 * and January 2026. Its `build_seasonal` writes every collected key,
 * overwriting an artifact that is already there; its `run_seasonal_outputs`
 * asks `generate_map` for a mode that does not exist.
 */
module Update2025 {
  import opened Wrappers
  import opened Errors
  import opened Text
  import opened Tables
  import opened Grouping
  import opened Files
  import opened SeasonsData
  import opened GridMap
  import opened ProduceSeasons
  import opened SeasonalBatches

  /** `MONTHS_2025 = list(range(1, 13))`. */
  const Months2025: seq<int> := seq(12, j => j + 1)

  /** `YEAR_MONTHS`: the twelve months of 2025, then January 2026. */
  const YearMonthsTable: YearMonths := [(2025, Months2025), (2026, [1])]

  /** The mode `run_seasonal_outputs` passes to `generate_map`. */
  const OutputsMode := "newseason"

  lemma TableIsCalendar()
    ensures CalendarTable(YearMonthsTable)
  {
  }

  // ---------------------------------------------------------------------
  // build_seasonal
  // ---------------------------------------------------------------------

  /** The store after the write loop: every key's batches concatenated into `new seasons/{key}.csv`. */
  function Overwritten(files: map<string, Table>, keys: seq<string>, data: map<string, seq<Table>>): map<string, Table>
    requires forall k :: k in keys ==> k in data && |data[k]| >= 1
  {
    if keys == [] then files
    else
      var n := |keys| - 1;
      Overwritten(files, keys[..n], data)[NewSeasonsCsv(keys[n]) := Concat(data[keys[n]])]
  }

  /** The write loop of `build_seasonal`: no existence check, every key is written. */
  method WriteSeasons(fs: FileSystem, keys: seq<string>, data: map<string, seq<Table>>)
    requires forall k :: k in keys ==> k in data && |data[k]| >= 1
    modifies fs
    ensures fs.files == Overwritten(old(fs.files), keys, data)
  {
    var i := 0;
    while i < |keys|
      invariant 0 <= i <= |keys|
      invariant fs.files == Overwritten(old(fs.files), keys[..i], data)
    {
      assert keys[..i + 1][..i] == keys[..i];
      assert keys[i] in keys;
      var seasonDf := Concat(data[keys[i]]);
      fs.Write(NewSeasonsCsv(keys[i]), seasonDf);
      i := i + 1;
    }
    assert keys[..i] == keys;
  }

  /** After the write loop every key's artifact holds its batches, whatever was there before. */
  lemma {:induction false} OverwrittenKeys(files: map<string, Table>, keys: seq<string>, data: map<string, seq<Table>>, k: string)
    requires forall k :: k in keys ==> k in data && |data[k]| >= 1
    requires k in keys
    ensures NewSeasonsCsv(k) in Overwritten(files, keys, data)
    ensures Overwritten(files, keys, data)[NewSeasonsCsv(k)] == Concat(data[k])
  {
    var n := |keys| - 1;
    if k != keys[n] {
      PathsInjective(k, keys[n]);
      assert k in keys[..n];
      OverwrittenKeys(files, keys[..n], data, k);
    }
  }

  /** Every path that is no key's artifact is as it was. */
  lemma {:induction false} OverwrittenFrame(files: map<string, Table>, keys: seq<string>, data: map<string, seq<Table>>, p: string)
    requires forall k :: k in keys ==> k in data && |data[k]| >= 1
    requires forall k :: k in keys ==> p != NewSeasonsCsv(k)
    ensures p in Overwritten(files, keys, data) <==> p in files
    ensures p in files ==> Overwritten(files, keys, data)[p] == files[p]
  {
    if keys != [] {
      var n := |keys| - 1;
      assert keys[n] in keys;
      assert forall k :: k in keys[..n] ==> k in keys;
      OverwrittenFrame(files, keys[..n], data, p);
    }
  }

  lemma OverwrittenFacts(files: map<string, Table>, keys: seq<string>, data: map<string, seq<Table>>)
    requires forall k :: k in keys ==> k in data && |data[k]| >= 1
    ensures var r := Overwritten(files, keys, data);
      && (forall k :: k in keys ==> NewSeasonsCsv(k) in r && r[NewSeasonsCsv(k)] == Concat(data[k]))
      && (forall p :: (forall k :: k in keys ==> p != NewSeasonsCsv(k)) ==>
            (p in r <==> p in files) && (p in r ==> r[p] == files[p]))
  {
    forall k | k in keys ensures NewSeasonsCsv(k) in Overwritten(files, keys, data)
      && Overwritten(files, keys, data)[NewSeasonsCsv(k)] == Concat(data[k])
    {
      OverwrittenKeys(files, keys, data, k);
    }
    forall p | forall k :: k in keys ==> p != NewSeasonsCsv(k)
      ensures (p in Overwritten(files, keys, data) <==> p in files)
        && (p in files ==> Overwritten(files, keys, data)[p] == files[p])
    {
      OverwrittenFrame(files, keys, data, p);
    }
  }

  /** The store `build_seasonal` leaves, for a given table. */
  function BuildSeasonalSpec(files: map<string, Table>, ym: YearMonths): map<string, Table>
    requires CalendarTable(ym)
  {
    var c := Collect(files, ym);
    CollectedNonEmpty(files, ym);
    Overwritten(files, c.keys, c.data)
  }

  /** `build_seasonal()`: collect the batches of `YEAR_MONTHS` by key, then write every key. */
  method BuildSeasonal(fs: FileSystem)
    modifies fs
    ensures fs.files == BuildSeasonalSpec(old(fs.files), YearMonthsTable)
  {
    TableIsCalendar();
    var seasonalData := CollectSeasonal(fs.files, YearMonthsTable);
    CollectedNonEmpty(fs.files, YearMonthsTable);
    WriteSeasons(fs, seasonalData.keys, seasonalData.data);
  }

  /**
   * `build_seasonal` for any table: a key's artifact is the concatenation,
   * in visiting order, of the batches of exactly the visited months with
   * that key, and replaces whatever was there; a key is written only when
   * one of its months has a batch; nothing but key artifacts changes.
   */
  lemma BuildSeasonalFacts(files: map<string, Table>, ym: YearMonths)
    requires CalendarTable(ym)
    ensures CalendarPairs(Visits(ym))
    ensures var r := BuildSeasonalSpec(files, ym);
      var c := Collect(files, ym);
      var ps := KeyedBatches(files, Visits(ym));
      && (forall k :: k in c.keys ==>
            && NewSeasonsCsv(k) in r
            && c.data[k] == Members(ps, k)
            && r[NewSeasonsCsv(k)].rows == AllRows(Members(ps, k)))
      && (forall k :: k in c.keys <==>
            exists i :: 0 <= i < |Visits(ym)| && BatchPath(Visits(ym)[i].0, Visits(ym)[i].1) in files
              && k == SeasonKey(Visits(ym)[i].0, Visits(ym)[i].1))
      && (forall p :: (forall k :: k in c.keys ==> p != NewSeasonsCsv(k)) ==>
            (p in r <==> p in files) && (p in r ==> r[p] == files[p]))
  {
    CalendarVisits(ym);
    var c := Collect(files, ym);
    CollectedNonEmpty(files, ym);
    OverwrittenFacts(files, c.keys, c.data);
    var vs := Visits(ym);
    forall k ensures k in c.keys <==>
        exists i :: 0 <= i < |vs| && BatchPath(vs[i].0, vs[i].1) in files && k == SeasonKey(vs[i].0, vs[i].1)
    {
      KeysOfBatches(files, vs, k);
    }
  }

  /** The months the table visits: each month of 2025, and January 2026. */
  lemma TableVisits(y: int, m: int)
    ensures (y, m) in Visits(YearMonthsTable) <==> (y == 2025 && 1 <= m <= 12) || (y == 2026 && m == 1)
  {
    VisitsOfTable(YearMonthsTable);
    var t := YearMonthsTable;
    if (y == 2025 && 1 <= m <= 12) {
      assert t[0].0 == y && t[0].1[m - 1] == m;
    } else if y == 2026 && m == 1 {
      assert t[1].0 == y && t[1].1[0] == m;
    } else {
      forall a, b | 0 <= a < |t| && 0 <= b < |t[a].1| && t[a].0 == y ensures t[a].1[b] != m {
        if a == 0 {
          assert t[0].1[b] == b + 1;
        } else {
          assert t[1].1 == [1];
        }
      }
    }
  }

  /** The key of a visited month, by season. */
  lemma TableMonthKey(y: int, m: int)
    requires (y == 2025 && 1 <= m <= 12) || (y == 2026 && m == 1)
    ensures 1 <= m <= 2 && y == 2025 ==> SeasonKey(y, m) == SeasonKeyOf(Winter, 2024)
    ensures 3 <= m <= 5 ==> SeasonKey(y, m) == SeasonKeyOf(Summer, 2025)
    ensures 6 <= m <= 9 ==> SeasonKey(y, m) == SeasonKeyOf(Monsoon, 2025)
    ensures (10 <= m || y == 2026) ==> SeasonKey(y, m) == SeasonKeyOf(Winter, 2025)
  {
    SeasonKeyAgrees(y, m);
  }

  /**
   * The table's keys: January and February 2025 give Winter 2024, March to
   * May Summer 2025, June to September Monsoon 2025, and October to
   * December 2025 with January 2026 give Winter 2025.
   */
  lemma PossibleKeys(files: map<string, Table>, k: string)
    requires CalendarTable(YearMonthsTable)
    requires k in Collect(files, YearMonthsTable).keys
    ensures k == SeasonKeyOf(Winter, 2024) || k == SeasonKeyOf(Summer, 2025)
         || k == SeasonKeyOf(Monsoon, 2025) || k == SeasonKeyOf(Winter, 2025)
  {
    var vs := Visits(YearMonthsTable);
    CalendarVisits(YearMonthsTable);
    KeysOfBatches(files, vs, k);
    var i :| 0 <= i < |vs| && BatchPath(vs[i].0, vs[i].1) in files && k == SeasonKey(vs[i].0, vs[i].1);
    var (y, m) := vs[i];
    assert (y, m) in vs;
    TableVisits(y, m);
    TableMonthKey(y, m);
  }

  /** Winter 2025 is written exactly when one of October to December 2025 or January 2026 has a batch. */
  lemma Winter2025Months(files: map<string, Table>)
    requires CalendarTable(YearMonthsTable)
    ensures SeasonKeyOf(Winter, 2025) in Collect(files, YearMonthsTable).keys <==>
              BatchPath(2025, 10) in files || BatchPath(2025, 11) in files
              || BatchPath(2025, 12) in files || BatchPath(2026, 1) in files
  {
    Winter2025Needs(files);
    WinterMonthCollected(files, 2025, 10);
    WinterMonthCollected(files, 2025, 11);
    WinterMonthCollected(files, 2025, 12);
    WinterMonthCollected(files, 2026, 1);
  }

  lemma Winter2025Needs(files: map<string, Table>)
    requires CalendarTable(YearMonthsTable)
    ensures SeasonKeyOf(Winter, 2025) in Collect(files, YearMonthsTable).keys ==>
              BatchPath(2025, 10) in files || BatchPath(2025, 11) in files
              || BatchPath(2025, 12) in files || BatchPath(2026, 1) in files
  {
    var vs := Visits(YearMonthsTable);
    var w := SeasonKeyOf(Winter, 2025);
    CalendarVisits(YearMonthsTable);
    if w in Collect(files, YearMonthsTable).keys {
      KeysOfBatches(files, vs, w);
      var i :| 0 <= i < |vs| && BatchPath(vs[i].0, vs[i].1) in files && w == SeasonKey(vs[i].0, vs[i].1);
      assert vs[i] in vs;
      WinterKeyBatch(files, vs[i].0, vs[i].1);
    }
  }

  lemma WinterKeyBatch(files: map<string, Table>, y: int, m: int)
    requires (y, m) in Visits(YearMonthsTable)
    requires 1 <= m <= 12 && BatchPath(y, m) in files && SeasonKey(y, m) == SeasonKeyOf(Winter, 2025)
    ensures BatchPath(2025, 10) in files || BatchPath(2025, 11) in files
            || BatchPath(2025, 12) in files || BatchPath(2026, 1) in files
  {
    WinterKeyMonth(y, m);
  }

  /** Only October to December 2025 and January 2026 of the table have the Winter 2025 key. */
  lemma WinterKeyMonth(y: int, m: int)
    requires (y, m) in Visits(YearMonthsTable)
    ensures SeasonKey(y, m) == SeasonKeyOf(Winter, 2025) ==> (y == 2025 && 10 <= m <= 12) || (y == 2026 && m == 1)
  {
    TableVisits(y, m);
    SeasonKeyAgrees(y, m);
    SeasonKeyOfInjective(GetSeason(m), GetSeasonYear(y, m), Winter, 2025);
  }

  lemma WinterMonthCollected(files: map<string, Table>, y: int, m: int)
    requires CalendarTable(YearMonthsTable)
    requires (y == 2025 && 10 <= m <= 12) || (y == 2026 && m == 1)
    ensures BatchPath(y, m) in files ==> SeasonKeyOf(Winter, 2025) in Collect(files, YearMonthsTable).keys
  {
    var vs := Visits(YearMonthsTable);
    CalendarVisits(YearMonthsTable);
    TableVisits(y, m);
    TableMonthKey(y, m);
    var i :| 0 <= i < |vs| && vs[i] == (y, m);
    KeysOfBatches(files, vs, SeasonKeyOf(Winter, 2025));
  }

  // ---------------------------------------------------------------------
  // run_seasonal_outputs
  // ---------------------------------------------------------------------

  /**
   * With the mode `run_seasonal_outputs` passes, `generate_map` raises
   * `ValueError` on the first artifact: nothing is produced unless
   * `new seasons/` is empty.
   */
  lemma {:induction false} NewseasonModeFails(files: map<string, Table>, env: Env, stems: seq<string>)
    ensures SeasonalOutputs(files, env, stems, OutputsMode) ==
              if stems == [] then Ok([]) else Err(ValueError("Mode must be 'monthly' or 'seasonal'"))
  {
    if stems != [] {
      var n := |stems| - 1;
      NewseasonModeFails(files, env, stems[..n]);
    }
  }
}

=== FILE: wrappers.dfy ===
/** Failure-compatible wrappers shared by the whole model. */
module Wrappers {

  /** A value that may be absent: pandas' NaN, a file that does not exist, a `None` return. */
  datatype Option<+T> = None | Some(value: T)

  /** The outcome of an operation that may raise: `Err` carries the exception the script raises. */
  datatype Result<+T, +E> = Ok(value: T) | Err(error: E)
}

/** The Python exceptions the modelled scripts can raise. */
module Errors {
  datatype PyError =
    | ValueError(message: string)
    | KeyError(key: string)
    | AttributeError(message: string)
    | GridReadError(path: string)
}
